=== FILE: README.md ===
# Blender Render UI — a Dafny model of its logic

Blender Render UI is a desktop front end for Blender's command-line renderer.
The user fills in a form of flags. The application shows a preview of the command
line, starts Blender, and follows its output. The output goes into a filtered log
panel and into a progress panel. The application also checks whether a newer
release exists.

This project models the parts of that program that are logic rather than widgets,
as pure functions on immutable values:

- `ParamDefinitions` (param_definitions.dfy): the priority table of flags
  (`PARAM_ORDER`, `get_param_order`), the catalogue of flags grouped by
  category, and `get_all_parameters`.
- `ParamMaps` (param_map.dfy): the command builder's `parameter_values`
  dictionary. It is an insertion-ordered list of (flag, value) pairs with unique
  keys, under `update_parameter`, with Python's truthiness and dictionary
  semantics.
- `StableSort` (stable_sort.dfy): Python's stable `list.sort` on the rank key.
- `CommandBuilder` (command_builder.dfy): `update_command`. It drops the blend
  file entry, sorts the rest by rank, places the quoted blend path, and joins
  the tokens with spaces.
- `Patterns` (patterns.dfy): the `re.search` patterns the program applies to
  single lines, which are `Fra:(\d+)`, `Time:([\d:.]+)`, `Remaining:([\d:.]+)`
  and `(\d+)\.(\d+)\.(\d+)`, plus Python's `int()` on a string.
- `ProgressMonitor` (progress_monitor.dfy): `parse_blender_output`,
  `update_progress`, `handle_render_completed`, `reset` and
  `set_total_frames`, on a record of frame, total and bar value.
- `BlenderExecutor` (blender_executor.dfy): the `execute` guard, the worker's
  report, `_process_output_line`, `_parse_progress_info` and `terminate`, as
  transitions on a record.
- `LogViewer` (log_viewer.dfy): the level classification of output lines, the
  level and detail filters, and the stored log with the panel redrawn from it.
- `MainWindow` (main_window.dfy): the scan of the command tokens for `-s`/`-e`
  in `run_render`, and the routing of executor signals to the log and the
  progress panel.
- `UpdateChecker` (update_checker.dfy): `parse_version`, `lstrip('v')` and the
  `update_available` comparison of `check_for_updates`.
- `CommandGenerator` (command_generator.dfy): the list-based generator.
- `Wrappers` and `Text`: `Option`, and the string operations the program uses
  (`in`, `join`, `split`, `str(n)`, `strip`).

Some inputs come from outside the program, so they are parameters of the model:

- the wall clock's timestamp;
- the process's output lines and exit code;
- whether spawning or killing the process raised;
- the HTTP reply of the release API.

Two computations of progress are kept apart on purpose, because the program
computes progress twice and differently:

- The executor reports `(current - start + 1) / total`, clamped to [0, 1].
- The progress panel shows `int(current / total * 100)`.

`BarMatchesFractionFromFrameOne` proves the two agree for ranges starting at
frame 1. `BarOvershootsOnLastFrame` proves they part ways for later starts.

Where the source's comments and its code disagree, the model follows the code.
`run_render` is the case in point: the code resets the progress panel after
giving it the frame count (see Findings).

## Model

| member | source | states |
|---|---|---|
| ParamDefinitions.GetParamOrder | src/core/param_definitions.py:102-104 | A flag listed in the priority table gets its table rank; any other flag gets 999 |
| ParamDefinitions.ParamOrderKeysDistinct | src/core/param_definitions.py:8-42 | No flag appears twice in the priority table, so the first-match lookup is the dictionary lookup |
| ParamDefinitions.BackgroundRanksFirst | src/core/param_definitions.py:9-41 | `-b` ranks 0 and every other flag, listed or not, ranks strictly higher |
| ParamDefinitions.KnownRanksBelowUnknown | src/core/param_definitions.py:8-42 | Every rank lies in 0..999, and a flag ranks below 999 exactly when the table lists it, so unknown flags sort after all known ones |
| ParamDefinitions.FrameFlagsShareRank | src/core/param_definitions.py:13-14 | `-f` and `-e` both rank 5 |
| ParamDefinitions.OnlyTieIsFrameFlags | src/core/param_definitions.py:8-42 | Two different listed flags with the same rank are `-f` and `-e`; no other pair ties |
| ParamDefinitions.BlendFileUnranked | src/core/param_definitions.py:102-104 | The blend-file key `--` is not in the table and ranks 999 |
| ParamDefinitions.UnrankedCatalogueFlags | src/core/param_definitions.py:8-42 | `--help`, `--version`, `--resolution-percentage`, `--cycles-samples` and `-t` are offered in the catalogue but absent from the table, so they rank 999 |
| ParamDefinitions.Group | src/core/param_definitions.py:106-186 | The categories are non-empty blocks whose entries carry the category's title, no two neighbouring blocks share a title, and laid end to end they give back the flat catalogue |
| ParamDefinitions.GetCategories | src/core/param_definitions.py:107-186 | The categories start with `Base`, each is a non-empty block of its own entries, neighbours have different titles, and together they hold the whole catalogue in order |
| ParamDefinitions.GetAllParameters | src/core/param_definitions.py:188-195 | The nested loop returns the category lists concatenated in category order |
| ParamDefinitions.AllParametersOfCatalogue | src/core/param_definitions.py:106-195 | The flat list of the real categories is the whole catalogue in its written order |
| ParamDefinitions.CatalogueParamsDistinct | src/core/param_definitions.py:110-185 | No flag identifier is offered twice across all categories |
| ParamDefinitions.CatalogueEnumsHaveOptions | src/core/param_definitions.py:137-143 | Every enumerated entry has at least one option |
| ParamMaps.Put | src/ui/command_builder.py:322 | After the assignment the key maps to the value, every other key's value is unchanged, and keys stay unique |
| ParamMaps.Delete | src/ui/command_builder.py:320 | After deletion the key is absent, every other key keeps its value, and the map is one entry shorter |
| ParamMaps.UpdateParameter | src/ui/command_builder.py:317-322 | A truthy value is stored under the name and a falsy one leaves the name absent; no other key changes |
| ParamMaps.UpdateParameterPositions | src/ui/command_builder.py:319-322 | Overwriting a present key keeps its position, a new key goes last, a falsy value removes exactly that entry, and a falsy value for an absent key changes nothing |
| ParamMaps.ReAddedKeyGoesLast | src/ui/command_builder.py:319-322 | Clearing a key and setting it again moves it to the end of the dictionary order |
| ParamMaps.UpdateParameterIdempotent | src/ui/command_builder.py:317-322 | Setting the same value twice gives the same map as setting it once |
| ParamMaps.UpdateParameterStoresTruthy | src/ui/command_builder.py:319-322 | A map of truthy values stays a map of truthy values, so no falsy value is ever stored |
| StableSort.SortByKey | src/ui/command_builder.py:351 | The result is sorted by key, is a permutation of the input, and keeps the input's order among elements with equal keys |
| StableSort.SortedWithKeysUnique | src/ui/command_builder.py:351 | Sorted sequences that agree on the elements of every key are equal, so the stable sort has exactly one possible result |
| StableSort.SortByKeyOfSorted | src/ui/command_builder.py:351 | Sorting an already sorted list changes nothing |
| StableSort.SortThreeMiddleLargest | src/ui/command_builder.py:351 | Sorting [x, y, z] with x.key <= z.key < y.key gives [x, z, y] |
| CommandBuilder.RankedEntries | src/ui/command_builder.py:339-348 | Every non-`--` entry appears with its `get_param_order` rank, and no `--` entry does |
| CommandBuilder.RankedEntriesInMapOrder | src/ui/command_builder.py:339-348 | For a dict (unique keys), the ranked entries follow the dictionary's order strictly, so each entry appears once and in insertion order |
| CommandBuilder.EqualRanksKeepMapOrder | src/ui/command_builder.py:339-351 | After the sort, of two parameters with the same rank the one inserted into the dictionary first comes first |
| CommandBuilder.BlendValue | src/ui/command_builder.py:339-342 | The loop's `blend_file` is absent exactly when there is no `--` key, and otherwise is that key's value |
| CommandBuilder.ExeToken | src/ui/command_builder.py:330 | The first token is the path in double quotes when the path is non-empty, else `blender` |
| CommandBuilder.EmitEntry | src/ui/command_builder.py:369-373 | A falsy value emits nothing, a set boolean emits its flag alone, and any other truthy value emits the flag and then one more token |
| CommandBuilder.EmitAll | src/ui/command_builder.py:369-400 | A run of entries emits at most two tokens per entry, and emits nothing exactly when every value in it is falsy |
| CommandBuilder.FirstFlag | src/ui/command_builder.py:357-361 | The `b_index` search finds the first position holding `-b`, or reports that none does |
| CommandBuilder.PlaceBlend | src/ui/command_builder.py:353-393 | The token list always begins with the executable token, whether or not the blend path is placed |
| CommandBuilder.BlendInsertedOnce | src/ui/command_builder.py:353-393 | Unless background mode finds no `-b`, the quoted blend path is inserted exactly once after the executable, and removing it leaves the executable followed by every parameter's tokens in order |
| CommandBuilder.AssembleTokens | src/ui/command_builder.py:327-400 | The token list always starts with the executable token |
| CommandBuilder.UpdateCommand | src/ui/command_builder.py:327-402 | The preview string begins with the executable token |
| CommandBuilder.OrderedParams | src/ui/command_builder.py:347-351 | The sorted parameters are sorted by rank, are a permutation of the ranked entries, keep the ranked entries' order within each rank, and never contain `--` |
| CommandBuilder.BackgroundLeads | src/ui/command_builder.py:343-361 | With `-b` set, the `-b` entry is the first sorted parameter, and the `b_index` search finds it at position 0 |
| CommandBuilder.BackgroundBlendShape | src/ui/command_builder.py:354-383 | With a blend file and `-b` set, the tokens are the executable, the `-b` entry, the quoted blend path, then every other sorted parameter |
| CommandBuilder.ForegroundBlendShape | src/ui/command_builder.py:384-393 | With a blend file and no `-b`, the quoted blend path comes right after the executable, before every parameter |
| CommandBuilder.NoBlendShape | src/ui/command_builder.py:394-400 | Without a truthy blend file, the tokens are the executable followed by the sorted parameters' tokens |
| CommandBuilder.ClearedFlagOmitted | src/ui/command_builder.py:317-351 | After a flag is cleared with a falsy value, it no longer appears among the sorted parameters |
| CommandBuilder.DecodeEmitAll | src/ui/command_builder.py:396-400 | Reading the emitted tokens back as flags with optional quoted values gives exactly the truthy entries, in order, with their rendered values |
| CommandBuilder.UpdateCommandSplits | src/ui/command_builder.py:402 | When no token holds a space, splitting the preview string on spaces gives back the token list |
| CommandBuilder.BackgroundExample | src/ui/command_builder.py:327-402 | A concrete form with a blend file, `-b`, `-o` and `-a` gives `blender -b "/a/b.blend" -o "/out" -a` |
| CommandBuilder.FrameFlagsKeepEntryOrder | src/ui/command_builder.py:347-351 | `-e` and `-f` tie on rank, so they are emitted in the order they were entered, whichever order that is |
| Patterns.RunAt | src/ui/progress_monitor.py:231 | A greedy character-class run covers only class characters and stops at the end or at the first character outside the class |
| Patterns.TaggedAt | src/ui/progress_monitor.py:231-233 | `tag([cls]+)` matches at a position exactly when the tag starts there and a class character follows it; the group is the maximal run after the tag |
| Patterns.FirstMatch | src/ui/progress_monitor.py:224 | The result is a matching position with no match between the starting point and it; there is no result only when nothing matches |
| Patterns.Search | src/utils/update_checker.py:13 | `re.search` gives the leftmost position where the pattern matches, and gives none exactly when it matches nowhere |
| Patterns.FrameNumberOfStatusLine | src/ui/progress_monitor.py:224-226 | A line `Fra:` + the decimal form of n, followed by a non-digit or nothing, reports frame n |
| Patterns.FrameNumber | src/ui/progress_monitor.py:224-226 | A frame number is read exactly when `Fra:` followed by a digit occurs in the line |
| Patterns.ParseInt | src/ui/main_window.py:349 | A non-empty string of ASCII digits reads as its decimal value |
| Patterns.ParseIntOfIntToString | src/ui/main_window.py:349 | `int(str(n)) == n` for every integer n of the model; CPython's 4300-digit conversion limit is not modelled (see Left out) |
| Patterns.ParseIntNeedsDigit | src/ui/main_window.py:348-351 | A token with no digit is never an integer, so `int()` raises `ValueError` on it |
| ProgressMonitor.FramePart | src/ui/progress_monitor.py:224-228 | A frame update is emitted exactly when the line matches `Fra:(\d+)` and the total is positive; it carries the first match and the current total |
| ProgressMonitor.ElapsedPart | src/ui/progress_monitor.py:231-234 | An elapsed-time update is emitted exactly when `Time:` is followed by a digit, colon or dot; it carries the maximal such run |
| ProgressMonitor.RemainingPart | src/ui/progress_monitor.py:237-240 | A remaining-time update follows the same rule for `Remaining:` |
| ProgressMonitor.CompletionPart | src/ui/progress_monitor.py:243-244 | Completion is signalled exactly when the line contains `Blender quit` or `Rendering completed` |
| ProgressMonitor.ParseBlenderOutput | src/ui/progress_monitor.py:221-244 | A line gives at most four notifications, and a frame update can only be the first of them |
| ProgressMonitor.ParseRules | src/ui/progress_monitor.py:221-244 | Each of the four notifications appears exactly when its own rule fires, whatever the other rules do, so one line can fire all four |
| ProgressMonitor.CompletionComesLast | src/ui/progress_monitor.py:242-244 | When the completion rule fires, its notification is the last one emitted for the line |
| ProgressMonitor.TruncDiv | src/ui/progress_monitor.py:186 | `int()` of a quotient truncates toward zero: the floor for a non-negative dividend, minus the floor of the negation for a negative one |
| ProgressMonitor.UpdateProgress | src/ui/progress_monitor.py:180-189 | Frame and total are always stored; the bar changes only when the total is positive, and then to the rounded-down percentage |
| ProgressMonitor.HandleRenderCompleted | src/ui/progress_monitor.py:201-207 | Completion sets the bar to 100 and keeps frame and total |
| ProgressMonitor.Reset | src/ui/progress_monitor.py:209-219 | Frame, total and bar all go back to 0 |
| ProgressMonitor.SetTotalFrames | src/ui/progress_monitor.py:246-252 | A non-reversed range sets the total to end - start + 1; a reversed range leaves the total unchanged; frame and bar are untouched |
| ProgressMonitor.FrameLineAfterSetTotal | src/ui/progress_monitor.py:224-249 | After a non-reversed range is set, a status line for frame n emits exactly one frame update, carrying n and the range's size |
| ProgressMonitor.NoFrameUpdateWithoutTotal | src/ui/progress_monitor.py:227 | With no positive total no frame update is emitted, and a handled line changes neither frame nor total |
| ProgressMonitor.HandleFrameLine | src/ui/progress_monitor.py:224-228 | With a positive total, a line carrying a frame number moves the stored frame to that number and keeps the total |
| ProgressMonitor.HandleLineKeepsTotal | src/ui/progress_monitor.py:221-244 | No output line changes the stored total |
| ProgressMonitor.UpdateProgressBounds | src/ui/progress_monitor.py:185-187 | Within the range the bar stays in 0..100, and it reads 100 on the last frame |
| ProgressMonitor.CompletionFillsBar | src/ui/progress_monitor.py:201-207 | A line with a completion marker leaves the bar at 100, whatever else it reports |
| ProgressMonitor.HandleLine | src/ui/progress_monitor.py:180-244 | Handling a line never changes the total; with a known total a status line moves the panel to its frame, without one the frame stays; a completion marker fills the bar |
| BlenderExecutor.Init | src/core/blender_executor.py:20-25 | A new executor has no process, is idle, and has frames 1..1 |
| BlenderExecutor.Execute | src/core/blender_executor.py:41-56 | It succeeds exactly when idle. A refused start emits the "already running" line and changes nothing. A successful start stores the range and marks the executor running |
| BlenderExecutor.Clamp | src/core/blender_executor.py:142 | The clamp lies in [0, 1], is the identity there, and maps values below and above to 0 and 1 |
| BlenderExecutor.ParseProgressInfo | src/core/blender_executor.py:125-143 | A fraction is emitted exactly when the line has a frame number and the range is non-empty; it lies in [0, 1] |
| BlenderExecutor.ProcessLine | src/core/blender_executor.py:110-123 | A line that strips to empty emits nothing; otherwise the stripped line is forwarded first and then parsed for progress |
| BlenderExecutor.ProcessLines | src/core/blender_executor.py:87-92 | Reading a run's output emits only output lines and progress fractions |
| BlenderExecutor.ProcessLinesForwards | src/core/blender_executor.py:87-116 | The lines forwarded for a run are exactly its non-blank lines, right-stripped, in order |
| BlenderExecutor.Outcome | src/core/blender_executor.py:94-101 | The run is reported as a line and then a completion, which is a success exactly when the exit code is 0 |
| BlenderExecutor.ErrorCodeInMessage | src/core/blender_executor.py:99-101 | A non-zero exit code is reported as failure with the message `Rendering error (code N)` |
| BlenderExecutor.Failure | src/core/blender_executor.py:103-105 | An exception is reported as a line and then as a failure whose message is `Error: ` and the exception text |
| BlenderExecutor.WorkerStart | src/core/blender_executor.py:58-108 | The worker announces the command and the start. A spawn that raises ends with one failure and clears the running flag. A spawned process is stored while the render is still running, with no completion reported yet |
| BlenderExecutor.WorkerFinish | src/core/blender_executor.py:86-108 | After a spawn the output is forwarded and the run ends with exactly one completion, a success exactly for exit code 0. After a failed spawn nothing is emitted. Either way the running flag is cleared |
| BlenderExecutor.RunWorker | src/core/blender_executor.py:58-108 | The uninterrupted worker announces the command and the start, ends with exactly one completion (a success exactly when the process exited with 0), and leaves the executor idle with its range unchanged |
| BlenderExecutor.FirstRenderCanBeStopped | src/core/blender_executor.py:145-160 | From a new executor, after `execute` and the spawn, `terminate` with a returning kill succeeds, stops the run and reports it as interrupted |
| BlenderExecutor.NothingToStopAfterWorker | src/core/blender_executor.py:145-166 | Once the worker is done, or the spawn failed, `terminate` returns False, emits nothing and changes nothing |
| BlenderExecutor.StoppedRunReportsTwice | src/core/blender_executor.py:86-160 | A run stopped while Blender runs gets an "interrupted" completion from `terminate` and a second completion from the worker when the output ends |
| BlenderExecutor.Terminate | src/core/blender_executor.py:145-166 | It returns true exactly for a live run whose kill succeeds. That run becomes idle with an "interrupted by user" failure. Every other case leaves the executor unchanged |
| BlenderExecutor.TerminateRetry | src/core/blender_executor.py:162-164 | A kill that raises leaves the render marked running, so termination can be tried again |
| BlenderExecutor.IsRendering | src/core/blender_executor.py:168-170 | A render is in progress exactly when `execute` would refuse every start, and when none is, `terminate` has nothing to stop |
| BlenderExecutor.ExecuteLifecycle | src/core/blender_executor.py:41-108 | A start from idle succeeds, a second start while running is refused, and once the worker finishes the executor can start again |
| BlenderExecutor.ProgressOfStatusLine | src/core/blender_executor.py:133-143 | For the status line of frame n, the fraction is (n - start + 1)/(end - start + 1) clamped: 1/total on the first frame and 1 on the last |
| BlenderExecutor.NoProgressForReversedRange | src/core/blender_executor.py:136-138 | A reversed range emits no fraction, whatever the line |
| LogViewer.Classify | src/ui/log_viewer.py:211-222 | First match wins: `Saved:` gives SUCCESS, then `Fra:` gives FRAME, then `Error:`/`ERROR` gives ERROR, then `Warning:`/`WARNING` gives WARNING, else INFO; each stated as an if-and-only-if |
| LogViewer.IsImportant | src/ui/log_viewer.py:159-169 | A message classified SUCCESS or FRAME is important at its level, and so is any message with `Rendering completed` or `Blender quit` |
| LogViewer.IsTechnical | src/ui/log_viewer.py:171-178 | A message is technical exactly when it contains one of the nine markers (`malloc`, `Memory:`, `AL lib:`, `pure-virtual:`, `OpenGL`, `libGL`, `0x`, `libpng`, `libjpeg`); in particular `0x` or `OpenGL` makes it technical |
| LogViewer.ShouldShow | src/ui/log_viewer.py:142-157 | No detail level shows what a toggle hides; an error whose toggle is on is shown at every detail level; a warning whose toggle is on is hidden only at Standard and only when technical; All shows everything the toggles allow |
| LogViewer.Init | src/ui/log_viewer.py:9-69 | A new panel takes the three saved toggles, always starts at Standard detail, and holds and draws nothing |
| LogViewer.Visible | src/ui/log_viewer.py:199-209 | The redrawn panel holds only stored entries that pass the filters, and every stored entry that passes is in it |
| LogViewer.AppendLog | src/ui/log_viewer.py:121-140 | The entry is always stored, and the panel stays equal to the filtered log |
| LogViewer.ProcessBlenderOutput | src/ui/log_viewer.py:211-222 | The line is stored with its classified level, and the panel stays equal to the filtered log |
| LogViewer.ApplyFilters | src/ui/log_viewer.py:199-209 | After a redraw the panel is the filtered log, and the stored entries are untouched |
| LogViewer.SetFilters | src/ui/log_viewer.py:180-197 | A filter change takes the new filters and redraws, so the panel is the log filtered by them |
| LogViewer.Clear | src/ui/log_viewer.py:224-227 | The stored log and the panel are emptied |
| LogViewer.VisibleAppend | src/ui/log_viewer.py:121-140 | Drawing an entry on arrival agrees with redrawing the whole log: the filter of the longer log is the old filter plus the entry when it passes |
| LogViewer.HiddenEntriesReturn | src/ui/log_viewer.py:121-209 | An entry hidden on arrival is still stored, and it reappears when the filters change to let it through |
| LogViewer.TogglesKeepSuccessAndFrame | src/ui/log_viewer.py:145-148 | The level toggles never hide a SUCCESS or FRAME message |
| LogViewer.DetailLevelsNotNested | src/ui/log_viewer.py:142-178 | Neither detail level is stricter than the other: a warning with an address is shown at Minimal but hidden at Standard, and a plain information line the other way round |
| LogViewer.FrameLinesAreImportant | src/ui/log_viewer.py:159-169 | A line with `Fra:` is classified FRAME or SUCCESS and survives the Minimal detail level |
| LogViewer.AllDetailShowsEverything | src/ui/log_viewer.py:142-157 | With every toggle on and All detail, the panel shows the whole log |
| MainWindow.ScanFrameRange | src/ui/main_window.py:342-356 | The loop returns, for each of `-s` and `-e`, the value of the last occurrence followed by an integer token, or 1 when there is none |
| MainWindow.FrameRange | src/ui/main_window.py:342-356 | Each of the two frames is 1, or a value `int()` reads from the token right after a `-s` (start) or `-e` (end) |
| MainWindow.ScanStep | src/ui/main_window.py:345-356 | One token of the scan: `-s` or `-e` followed by a token `int()` accepts sets that value, and any other token leaves both values as they were |
| MainWindow.LastIndex | src/ui/main_window.py:346-356 | The position found contributes a value and no later position does; when none is found, no position contributes |
| MainWindow.NoFlagsGiveDefaults | src/ui/main_window.py:342-343 | Without `-s` or `-e` tokens the range is 1..1 |
| MainWindow.TrailingFlagIgnored | src/ui/main_window.py:346-356 | A flag that is the last token changes nothing |
| MainWindow.NonIntegerValueIgnored | src/ui/main_window.py:348-356 | A flag followed by a token that is not an integer changes nothing |
| MainWindow.LaterStartWins | src/ui/main_window.py:346-351 | A later `-s n` overrides every earlier one and leaves the end frame alone |
| MainWindow.LaterEndWins | src/ui/main_window.py:352-356 | A later `-e n` overrides every earlier one and leaves the start frame alone |
| MainWindow.FlagsAreNotIntegers | src/ui/main_window.py:346-356 | `-s` and `-e` themselves never read as integers, so a flag after a flag is skipped |
| MainWindow.HandleOutputReceived | src/ui/main_window.py:288-291 | An output line is stored in the log with its classified level, and the executor is untouched |
| MainWindow.Deliver | src/ui/main_window.py:283-330 | Routing the executor's signals never changes the panel's total or the executor, keeps every earlier log entry, and adds at most one entry per signal |
| MainWindow.PreparePanel | src/ui/main_window.py:359-363 | The panel given the total and then reset ends with total 0 and frame 0 |
| MainWindow.PreparePanelFixed | src/ui/main_window.py:359-363 | The panel reset and then given a non-reversed range counts the range's frames and starts at frame 0 |
| MainWindow.PreparedPanelIgnoresFrames | src/ui/main_window.py:359-363 | As written, no output line moves the prepared panel off frame 0, whatever the range |
| MainWindow.PreparedPanelIgnoresFrameFive | src/ui/main_window.py:359-363 | Frames 1 to 10, then the line `Fra:5`: the line carries frame 5 and the panel stays at frame 0 |
| MainWindow.FixedPanelFollowsFrames | src/ui/main_window.py:359-363 | With the reset first, the status line of frame n moves the panel to frame n for any non-reversed range |
| MainWindow.RunRender | src/ui/main_window.py:332-366 | An absent or empty command changes nothing; any other command leaves the panel with total 0 |
| MainWindow.RunRenderDropsFrames | src/ui/main_window.py:358-363 | As written, after `run_render` no output line moves the panel's frame |
| MainWindow.RunRenderDropsFrameFive | src/ui/main_window.py:358-363 | `blender -s 1 -e 10` followed by the line `Fra:5` leaves the panel's frame where it was |
| MainWindow.RunRenderFixed | src/ui/main_window.py:358-363 | With the reset first, a non-reversed range leaves the panel's total at the range's size |
| MainWindow.RunRenderFixedFollowsFrames | src/ui/main_window.py:358-363 | With the reset first, the status line of frame n moves the panel to frame n |
| MainWindow.BarMatchesFractionFromFrameOne | src/ui/progress_monitor.py:180-189 | For ranges starting at frame 1, the panel's bar is the executor's fraction as a percentage, rounded down |
| MainWindow.BarOvershootsOnLastFrame | src/core/blender_executor.py:136-143 | For ranges starting after frame 1, the executor reports 1 on the last frame while the panel's bar is at least 100, and above 100 when the range is short against its start |
| MainWindow.BarOvershootExample | src/ui/progress_monitor.py:186 | Frame 20 of 11..20 puts 200 on the panel's bar |
| UpdateChecker.ParseFormatVersion | src/utils/update_checker.py:11-16 | Reading back `a.b.c`, followed by anything that does not start with a digit, gives (a, b, c) |
| UpdateChecker.ParseVersion | src/utils/update_checker.py:11-16 | A string with fewer than two dots reads as (0, 0, 0); a matched group is read at any length, and CPython's 4300-digit `int()` limit is not modelled (see Left out) |
| UpdateChecker.CurrentVersionParses | src/utils/update_checker.py:37 | The running version `0.2.1` reads as (0, 2, 1) |
| UpdateChecker.ExtraComponentIgnored | src/utils/update_checker.py:13-15 | `1.2.3.4` reads as (1, 2, 3) |
| UpdateChecker.TwoComponentsParseAsZero | src/utils/update_checker.py:13-16 | Two numbers joined by one dot never match, so they read as (0, 0, 0) |
| UpdateChecker.TwoComponentExample | src/utils/update_checker.py:16 | `10.20` reads as (0, 0, 0) |
| UpdateChecker.GreaterIsStrictTotalOrder | src/utils/update_checker.py:40 | Tuple `>` on versions is irreflexive, asymmetric and transitive, and any two different versions are comparable |
| UpdateChecker.Greater | src/utils/update_checker.py:40 | One version is greater than another exactly when they differ and the first component in which they differ is larger |
| UpdateChecker.LStripV | src/utils/update_checker.py:34 | The result is a suffix of the tag that does not start with `v`, and everything removed is `v` |
| UpdateChecker.StripTagPrefix | src/utils/update_checker.py:34 | Stripping `v` from `v` + a version starting with a digit gives the version |
| UpdateChecker.CheckForUpdates | src/utils/update_checker.py:29-49 | A failed request, a non-JSON reply or a missing field give (False, None, None). Otherwise the result is the stripped tag and the page, and the flag is set exactly when the tag's version is greater than the current one; a version group over 4300 digits, which CPython turns into (False, None, None), is not modelled (see Left out) |
| UpdateChecker.TaggedReleaseOffered | src/utils/update_checker.py:33-42 | A release tagged `v` + a version is offered exactly when that version is greater than 0.2.1, so the running version itself is not offered |
| CommandGenerator.New | src/core/command_generator.py:2-4 | A new generator has base `blender`, no parameters, and generates `blender` |
| CommandGenerator.Add | src/core/command_generator.py:6-7 | The parameter is appended at the end and every earlier parameter is unchanged |
| CommandGenerator.RemoveFirst | src/core/command_generator.py:9-11 | An absent parameter changes nothing; a present one makes the list one shorter |
| CommandGenerator.RemoveFirstAt | src/core/command_generator.py:9-11 | Exactly the first occurrence is removed; everything before and after it stays, in order |
| CommandGenerator.RemoveFirstMultiset | src/core/command_generator.py:9-11 | Removing a present parameter takes exactly one copy of it out |
| CommandGenerator.Remove | src/core/command_generator.py:9-11 | The base is kept; an absent parameter changes nothing, and a present one loses its first occurrence |
| CommandGenerator.Generate | src/core/command_generator.py:13-16 | The command starts with the base, and is the base alone when there are no parameters |
| CommandGenerator.GenerateAdd | src/core/command_generator.py:6-16 | Adding a parameter extends the command by a space and the parameter |
| CommandGenerator.GenerateSplits | src/core/command_generator.py:13-16 | When no part holds a space, the command splits on spaces into the base followed by the parameters |
| CommandGenerator.Clear | src/core/command_generator.py:18-19 | The list is emptied, the base is kept, and the command is the base alone |
| CommandGenerator.AddThenRemove | src/core/command_generator.py:6-11 | Adding p and then removing p leaves the multiset of parameters unchanged |
| CommandGenerator.AddThenRemoveAbsent | src/core/command_generator.py:6-11 | When p was absent, adding and then removing it gives back the same generator |
| CommandGenerator.RemoveKeepsEarlier | src/core/command_generator.py:9-11 | Removal never touches the parameters before the first occurrence |
| Text.RStrip | src/core/blender_executor.py:91 | `rstrip()` leaves a prefix that does not end in whitespace, and everything removed is whitespace |
| Text.SplitJoin | src/ui/command_builder.py:402 | Joining parts with a separator they do not contain and splitting on it gives the parts back |

## Left out

- Widgets, styling, dialogs, the clipboard and message boxes: `init_ui`, src/ui/styles.py, `QMessageBox`, and the enabling of buttons and labels. None of them computes anything the model states.
- Settings: `load_saved_settings`, `load_settings`, `save_settings` and src/utils/settings_manager.py. They are JSON file I/O and operating-system paths.
- src/ui/preset_manager.py: it calls settings methods that do not exist and an unimported dialog class, so its behaviour cannot be pinned down.
- `construct_command` and `build_command` (src/ui/command_builder.py:406-439). They call `ParamDefinitions.get_param`, which src/core/param_definitions.py does not define. `RunRender` therefore takes the command tokens as an input.
- Processes, threads and Qt signals: `subprocess.Popen`, the UTF-8 decoding of the output, the worker thread, and the order of signals across threads.
  - The process's lines, its exit code, and whether spawning or killing it raised are inputs (`Run`, `Kill`).
  - The worker is two steps, `WorkerStart` and `WorkerFinish`, so `terminate` can run between them. A finer interleaving, such as a stop in the middle of the output, is not modelled.
  - Both `terminate` and the worker may report a completion for the same run (`StoppedRunReportsTwice`).
- BlenderExecutor.ProcessLine: the `print(line)` that echoes each line to the console when `verbose` is set is console output and is left out.
- HTTP and JSON: the request in `check_for_updates` is an input (`Reply`).
  - A reply field that is not a string, such as a `null` tag, makes `lstrip` raise an error the source does not catch. So does a JSON reply that is not an object (an array or a scalar), at `release_data['tag_name']`. The model's reply is a map of string fields only, so neither case is modelled.
- The `RenderThread` simulation in src/ui/progress_monitor.py, build.py, setup.py, and src/main.py. src/main.py imports a module that is not part of this model.
- Sample, memory and scene-name extraction: no file of the program implements it.
- Patterns.Search: `\d` is modelled as the ASCII digits. Python's `\d` also matches other Unicode decimal digits, and `int()` accepts them too.
- Patterns.ParseInt: reads ASCII digits only. It strips the same whitespace as Python's `str.isspace`, but Python's `int()` also reads other Unicode decimal digits.
- Patterns.ParseInt: numbers of any length are read. CPython 3.8.14+, 3.9.14+, 3.10.7+ and 3.11+ refuse `int()` and `str()` conversions beyond 4300 decimal digits with `ValueError`, and setup.py admits those versions. On such a Python a `-s` followed by a 5000-digit token leaves the start frame at 1, while `FrameRange` reads the number. A `Fra:` line with such a digit run makes `_parse_progress_info` raise, and the worker reports "Error: …" and stops reading, while `ProcessLine` and `FrameNumber` read the number. Blender never prints numbers that long.
- UpdateChecker.ParseVersion: each matched group is read at any length. On the CPython versions above, `int()` at update_checker.py:15 raises `ValueError` for a group longer than 4300 digits, and `check_for_updates` catches it at update_checker.py:47 and returns (False, None, None). For a release tagged `v` followed by 5000 ones and `.0.0`, `CheckForUpdates` and `TaggedReleaseOffered` instead give the tag, the page and a set flag.
- BlenderExecutor.ParseProgressInfo: the fraction is an exact `real`, not an IEEE double. The clamp and the comparisons agree, but a double's rounding is not modelled.
- ProgressMonitor.UpdateProgress: `int(current / total * 100)` is modelled on exact rationals, as truncation of `current * 100 / total`. A double can round a value like 0.29 * 100 to 28.999..., which the model does not reproduce.
- ProgressMonitor.FramePart: the `frame_updated` signal carries two C++ `int`s. A frame number or total outside 32 bits (for example `Fra:3000000000`) cannot be delivered as it is: PyQt raises an overflow error or the value wraps. The model emits the update for any size.
- ProgressMonitor.UpdateProgress: `setValue` takes a 32-bit C++ `int`. A percentage beyond that range, such as frame 30000000 of a one-frame total (3000000000), cannot be passed to the bar; the model stores it.
- ProgressMonitor.SetTotalFrames: the `setRange(0, total)` of the progress bar is not modelled. The bar is the last value the panel set. Qt's `setValue` ignores a value outside the range (a percentage of 50 on a 0..10 bar is dropped), and that is left out. That is why `BarOvershootsOnLastFrame` speaks of the value set on the bar.
- Log formatting: the timestamp comes from the clock and is a parameter. The colours and the `[time] [level]` text layout of a drawn entry are not modelled; an entry is drawn as the entry itself.
- The catalogue keeps every field of every entry: name, flag, type, description and an enumeration's options. Only its shape changes. The `type` strings become `ParamType` constructors, and the nested dict becomes a list of entries tagged with their category, regrouped by `Group`.

## Findings

| source | as written | input that shows it | evidently intended | confidence | as-written member | corrected member |
|---|---|---|---|---|---|---|
| src/ui/main_window.py:359-363 | `run_render` calls `set_total_frames(start, end)` and then `reset()`. `reset()` sets `total_frames` back to 0, so `parse_blender_output` never emits a frame update for the run | the command `blender -s 1 -e 10`, then the output line `Fra:5`: the panel's frame stays where it was | reset the panel first and then set the total, so that frame lines move the panel | not executed | MainWindow.PreparedPanelIgnoresFrames | MainWindow.FixedPanelFollowsFrames |

=== FILE: blender_executor.dfy ===
/** The executor: it refuses to start a second render while one is running,
    runs Blender in a worker, forwards every non-empty output line with the
    frame fraction it reports, and reports success exactly when Blender exits
    with code 0.

    There is no process here. What the process does is an input: whether it
    could be spawned, the lines it printed, and how it ended (an exit code, or
    an exception while reading or waiting). Whether killing it raises is an
    input too. The signals an operation emits are returned in emission order. */
module BlenderExecutor {
  import opened Wrappers
  import opened Text
  import opened Patterns

  /** `process is not None`, `is_running`, `start_frame` and `end_frame`. */
  datatype Executor = Executor(hasProcess: bool, isRunning: bool, startFrame: int, endFrame: int)

  /** The executor's Qt signals with their arguments. */
  datatype Signal =
    | OutputReceived(line: string)
    | RenderStarted
    | RenderCompleted(success: bool, message: string)
    | RenderProgress(fraction: real)

  /** How the worker's run ended after the process was spawned. */
  datatype RunEnd =
    | Exited(code: int)     // `process.wait()` returned this code
    | Raised(error: string) // reading the output or waiting raised; `str(e)`

  /** What the process did: it could not be spawned, or it printed `lines`
      (as the text wrapper yields them, line ends included) and then ended. */
  datatype Run =
    | SpawnFailed(error: string)
    | Spawned(lines: seq<string>, end: RunEnd)

  /** Whether `process.kill()` returned or raised. */
  datatype Kill = Killed | KillRaised(error: string)

  /** `__init__`: no process, idle, frames 1..1. */
  function Init(): (e: Executor)
    ensures !e.hasProcess && !e.isRunning && e.startFrame == 1 && e.endFrame == 1
  {
    Executor(false, false, 1, 1)
  }

  const AlreadyRunning := "ERROR: Another rendering process is already running"
  const CompletedMessage := "Rendering completed successfully"
  const InterruptedMessage := "Rendering interrupted by user"

  /** `execute`: refused while a render is running, with an error line and
      nothing changed; otherwise the frame range is stored, the executor is
      marked running and the worker is started. */
  function Execute(e: Executor, start: int, end: int): (r: (Executor, bool, seq<Signal>))
    ensures r.1 <==> !e.isRunning
    ensures e.isRunning ==> r.0 == e && r.2 == [OutputReceived(AlreadyRunning)]
    ensures !e.isRunning ==> r.0 == Executor(e.hasProcess, true, start, end) && r.2 == []
  {
    if e.isRunning then (e, false, [OutputReceived(AlreadyRunning)])
    else (e.(startFrame := start, endFrame := end, isRunning := true), true, [])
  }

  /** `is_rendering`: a render is in progress exactly when `execute` would
      refuse to start another, and when none is, `terminate` has nothing to
      stop. */
  function IsRendering(e: Executor): (r: bool)
    ensures r <==> forall start, end :: !Execute(e, start, end).1
    ensures !r ==> !Terminate(e, Killed).1
  {
    assert !e.isRunning ==> Execute(e, 1, 1).1;
    e.isRunning
  }

  // ---------------------------------------------------------------------
  // Output lines
  // ---------------------------------------------------------------------

  /** `max(0.0, min(1.0, x))`. */
  function Clamp(x: real): (r: real)
    ensures 0.0 <= r <= 1.0
    ensures 0.0 <= x <= 1.0 ==> r == x
    ensures x < 0.0 ==> r == 0.0
    ensures x > 1.0 ==> r == 1.0
  {
    if x < 0.0 then 0.0 else if x > 1.0 then 1.0 else x
  }

  /** `_parse_progress_info`: for a `Fra:` line and a non-empty range, the
      position of the frame within the range, as a clamped fraction. The
      fraction is exact here; the source computes it in floating point. */
  function ParseProgressInfo(e: Executor, line: string): (r: seq<Signal>)
    ensures |r| <= 1
    ensures |r| == 1 <==> FrameNumber(line).Some? && e.endFrame - e.startFrame + 1 > 0
    ensures |r| == 1 ==> r[0].RenderProgress? && 0.0 <= r[0].fraction <= 1.0
  {
    match FrameNumber(line)
    case Some(current) =>
      var total := e.endFrame - e.startFrame + 1;
      if total > 0 then
        [RenderProgress(Clamp((current - e.startFrame + 1) as real / total as real))]
      else []
    case None => []
  }

  /** `_process_output_line` after the reader's `rstrip`: an empty line is
      dropped; otherwise the line is forwarded and then parsed. */
  function ProcessLine(e: Executor, raw: string): (r: seq<Signal>)
    ensures |r| == 0 <==> RStrip(raw) == ""
    ensures |r| > 0 ==> r[0] == OutputReceived(RStrip(raw)) && r[1..] == ParseProgressInfo(e, RStrip(raw))
  {
    var line := RStrip(raw);
    if line == "" then [] else [OutputReceived(line)] + ParseProgressInfo(e, line)
  }

  /** The signals for all lines, in order. */
  function ProcessLines(e: Executor, lines: seq<string>): (r: seq<Signal>)
    ensures forall k :: 0 <= k < |r| ==> r[k].OutputReceived? || r[k].RenderProgress?
    decreases |lines|
  {
    if |lines| == 0 then [] else ProcessLine(e, lines[0]) + ProcessLines(e, lines[1..])
  }

  /** The text of the `output_received` signals, in order. */
  function Outputs(signals: seq<Signal>): seq<string>
    decreases |signals|
  {
    if |signals| == 0 then []
    else if signals[0].OutputReceived? then [signals[0].line] + Outputs(signals[1..])
    else Outputs(signals[1..])
  }

  /** The lines the user gets to see: each line without its trailing
      whitespace, blank lines left out. */
  function Forwarded(lines: seq<string>): (r: seq<string>)
    ensures |r| <= |lines|
    ensures forall k :: 0 <= k < |r| ==> r[k] != ""
    decreases |lines|
  {
    if |lines| == 0 then []
    else if RStrip(lines[0]) == "" then Forwarded(lines[1..])
    else [RStrip(lines[0])] + Forwarded(lines[1..])
  }

  // ---------------------------------------------------------------------
  // The worker
  // ---------------------------------------------------------------------

  /** How the run is reported once the output is read: success with code 0,
      the code otherwise, the exception text when one was raised. */
  function Outcome(end: RunEnd): (r: seq<Signal>)
    ensures |r| == 2 && r[0].OutputReceived? && r[1].RenderCompleted?
    ensures r[1].success <==> end == Exited(0)
  {
    match end
    case Exited(code) =>
      if code == 0 then [OutputReceived(CompletedMessage), RenderCompleted(true, CompletedMessage)]
      else [OutputReceived("Blender exited with error code " + IntToString(code)),
            RenderCompleted(false, "Rendering error (code " + IntToString(code) + ")")]
    case Raised(error) => Failure(error)
  }

  /** The `except` branch: the exception text, as a line and as a failure. */
  function Failure(error: string): (r: seq<Signal>)
    ensures |r| == 2 && r[0].OutputReceived? && r[1] == RenderCompleted(false, "Error: " + error)
  {
    [OutputReceived("Error during process execution: " + error), RenderCompleted(false, "Error: " + error)]
  }

  /** The two signals the worker emits before it tries to spawn Blender. */
  function Announce(command: seq<string>): seq<Signal> {
    [OutputReceived("Starting command: " + Join(command, " ")), RenderStarted]
  }

  /** `_execute_process_thread` up to `Popen`: the command and the start are
      announced; a spawn that raises is reported and the `finally` clause
      clears `is_running`; a spawned process is stored while the render is
      still running, which is when `terminate` can stop it. */
  function WorkerStart(e: Executor, command: seq<string>, run: Run): (r: (Executor, seq<Signal>))
    ensures r.0.startFrame == e.startFrame && r.0.endFrame == e.endFrame
    ensures r.0.isRunning <==> e.isRunning && run.Spawned?
    ensures run.Spawned? ==> r.0.hasProcess
    ensures run.SpawnFailed? ==> r.0.hasProcess == e.hasProcess
    ensures |r.1| >= 2 && r.1[..2] == Announce(command)
    ensures run.Spawned? <==> forall k :: 0 <= k < |r.1| ==> !r.1[k].RenderCompleted?
  {
    match run
    case SpawnFailed(error) =>
      var signals := Announce(command) + Failure(error);
      assert signals[3] == Failure(error)[1];
      (e.(isRunning := false), signals)
    case Spawned(_, _) => (e.(hasProcess := true), Announce(command))
  }

  /** `_execute_process_thread` after `Popen`: the output is read and
      forwarded, the outcome is reported, and the `finally` clause clears
      `is_running`. After a failed spawn nothing is left to do. */
  function WorkerFinish(e: Executor, run: Run): (r: (Executor, seq<Signal>))
    ensures r.0 == e.(isRunning := false)
    ensures run.SpawnFailed? ==> r.1 == []
    ensures run.Spawned? ==>
              && |r.1| >= 2 && r.1[|r.1| - 1].RenderCompleted?
              && (r.1[|r.1| - 1].success <==> run.end == Exited(0))
              && forall k :: 0 <= k < |r.1| - 1 ==> !r.1[k].RenderCompleted?
  {
    match run
    case SpawnFailed(_) => (e.(isRunning := false), [])
    case Spawned(lines, end) =>
      var body := ProcessLines(e, lines);
      var tail := Outcome(end);
      var signals := body + tail;
      forall k | 0 <= k < |signals| - 1 ensures !signals[k].RenderCompleted? {
        if k < |body| {
          assert signals[k] == body[k];
        } else {
          assert signals[k] == tail[0];
        }
      }
      assert signals[|signals| - 1] == tail[1];
      (e.(isRunning := false), signals)
  }

  /** The whole worker when nothing interrupts it: the start, then the
      finish. It announces the command and the start, ends with exactly one
      completion, a success exactly when the process exited with 0, and
      leaves the executor idle with its range unchanged. */
  function RunWorker(e: Executor, command: seq<string>, run: Run): (r: (Executor, seq<Signal>))
    ensures !r.0.isRunning && r.0.startFrame == e.startFrame && r.0.endFrame == e.endFrame
    ensures |r.1| >= 4
    ensures r.1[0] == OutputReceived("Starting command: " + Join(command, " ")) && r.1[1] == RenderStarted
    ensures r.1[|r.1| - 1].RenderCompleted?
    ensures r.1[|r.1| - 1].success <==> run.Spawned? && run.end == Exited(0)
    ensures forall k :: 2 <= k < |r.1| - 1 ==> !r.1[k].RenderCompleted?
  {
    var (started, first) := WorkerStart(e, command, run);
    var (done, rest) := WorkerFinish(started, run);
    match run
    case SpawnFailed(error) =>
      Framed(Announce(command), [], Failure(error));
      assert first + rest == Announce(command) + ([] + Failure(error));
      (done, first + rest)
    case Spawned(lines, end) =>
      var body := ProcessLines(started, lines);
      Framed(Announce(command), body, Outcome(end));
      assert first + rest == Announce(command) + (body + Outcome(end));
      (done, first + rest)
  }

  /** Signals announced by two, closed by a final pair whose second signal is
      the only completion. */
  lemma Framed(announce: seq<Signal>, middle: seq<Signal>, tail: seq<Signal>)
    requires |announce| == 2 && !announce[0].RenderCompleted? && !announce[1].RenderCompleted?
    requires |tail| == 2 && !tail[0].RenderCompleted? && tail[1].RenderCompleted?
    requires forall k :: 0 <= k < |middle| ==> !middle[k].RenderCompleted?
    ensures var s := announce + (middle + tail);
            && |s| >= 4 && s[0] == announce[0] && s[1] == announce[1] && s[|s| - 1] == tail[1]
            && forall k :: 2 <= k < |s| - 1 ==> !s[k].RenderCompleted?
  {
    var s := announce + (middle + tail);
    assert forall k :: 2 <= k < |s| ==> s[k] == (middle + tail)[k - 2];
  }

  // ---------------------------------------------------------------------
  // Termination
  // ---------------------------------------------------------------------

  /** `terminate`: only a live run is killed. A successful kill clears
      `is_running` and reports the interruption as a failure; a kill that
      raises changes nothing and returns False. */
  function Terminate(e: Executor, kill: Kill): (r: (Executor, bool, seq<Signal>))
    ensures r.1 <==> e.hasProcess && e.isRunning && kill == Killed
    ensures !(e.hasProcess && e.isRunning) ==> r == (e, false, [])
    ensures r.1 ==> r.0 == e.(isRunning := false) &&
                    RenderCompleted(false, InterruptedMessage) in r.2
    ensures !r.1 ==> r.0 == e
  {
    if e.hasProcess && e.isRunning then
      var notice := OutputReceived("Terminating rendering process...");
      match kill
      case Killed =>
        (e.(isRunning := false), true,
         [notice, OutputReceived("Process terminated"), RenderCompleted(false, InterruptedMessage)])
      case KillRaised(error) =>
        (e, false, [notice, OutputReceived("Error during termination: " + error)])
    else (e, false, [])
  }

  // ---------------------------------------------------------------------
  // Properties
  // ---------------------------------------------------------------------

  /** The forwarded output of a run is exactly its non-blank lines, stripped
      of trailing whitespace, in order; the progress signals in between do
      not show up as output. */
  lemma {:induction false} ProcessLinesForwards(e: Executor, lines: seq<string>)
    ensures Outputs(ProcessLines(e, lines)) == Forwarded(lines)
    decreases |lines|
  {
    if |lines| > 0 {
      var head := ProcessLine(e, lines[0]);
      var rest := ProcessLines(e, lines[1..]);
      ProcessLinesForwards(e, lines[1..]);
      OutputsAppend(head, rest);
      if head != [] {
        var p := ParseProgressInfo(e, RStrip(lines[0]));
        assert head == [head[0]] + p;
        OutputsAppend([head[0]], p);
        assert [head[0]][1..] == [];
        assert Outputs(p) == [] by {
          if |p| == 1 {
            assert p[1..] == [];
          }
        }
      }
    }
  }

  lemma {:induction false} OutputsAppend(a: seq<Signal>, b: seq<Signal>)
    ensures Outputs(a + b) == Outputs(a) + Outputs(b)
    decreases |a|
  {
    if |a| > 0 {
      assert (a + b)[1..] == a[1..] + b;
      OutputsAppend(a[1..], b);
    } else {
      assert a + b == b;
    }
  }

  /** The frame fraction on a status line for frame `n`: the first frame of
      the range gives `1/total`, the last gives 1, every frame within the
      range gives its exact position, frames before the range give 0 and
      frames after it give 1. */
  lemma ProgressOfStatusLine(e: Executor, n: nat, rest: string)
    requires |rest| == 0 || !IsDigit(rest[0])
    requires e.endFrame >= e.startFrame
    ensures var r := ParseProgressInfo(e, "Fra:" + NatToString(n) + rest);
            var total := (e.endFrame - e.startFrame + 1) as real;
            && |r| == 1
            && (e.startFrame <= n <= e.endFrame ==> r[0].fraction == (n - e.startFrame + 1) as real / total)
            && (n == e.startFrame ==> r[0].fraction == 1.0 / total)
            && (n == e.endFrame ==> r[0].fraction == 1.0)
            && (n < e.startFrame ==> r[0].fraction == 0.0)
            && (n > e.endFrame ==> r[0].fraction == 1.0)
  {
    FrameNumberOfStatusLine(n, rest);
    FrameFraction(n, e.startFrame, e.endFrame);
  }

  /** The clamped fraction of frame `n` within `start..end`. */
  lemma FrameFraction(n: int, start: int, end: int)
    requires end >= start
    ensures var total := (end - start + 1) as real;
            var p := Clamp((n - start + 1) as real / total);
            && (start <= n <= end ==> p == (n - start + 1) as real / total)
            && (n == start ==> p == 1.0 / total)
            && (n == end ==> p == 1.0)
            && (n < start ==> p == 0.0)
            && (n > end ==> p == 1.0)
  {
    var total := (end - start + 1) as real;
    QuotientBounds((n - start + 1) as real, total);
  }

  /** Where `a / b` lies relative to 0 and 1, for a positive `b`. */
  lemma QuotientBounds(a: real, b: real)
    requires b > 0.0
    ensures a <= 0.0 ==> a / b <= 0.0
    ensures 0.0 <= a <= b ==> 0.0 <= a / b <= 1.0
    ensures a == b ==> a / b == 1.0
    ensures a > b ==> a / b > 1.0
  {
    var q := a / b;
    assert q * b == a;
  }

  /** A reversed range yields no fraction at all. */
  lemma NoProgressForReversedRange(e: Executor, line: string)
    requires e.endFrame < e.startFrame
    ensures ParseProgressInfo(e, line) == []
  {
  }

  /** A render can only be started from idle, and once the worker is done the
      executor accepts the next one; a second `execute` before that is
      refused and keeps the first range. */
  lemma ExecuteLifecycle(e: Executor, start: int, end: int, start2: int, end2: int,
                         command: seq<string>, run: Run)
    requires !e.isRunning
    ensures var (running, ok, _) := Execute(e, start, end);
            && ok
            && !Execute(running, start2, end2).1
            && Execute(running, start2, end2).0 == running
            && var (done, _) := RunWorker(running, command, run);
               done.startFrame == start && done.endFrame == end && Execute(done, start2, end2).1
  {
  }

  /** The non-zero exit code can be read back from the failure message. */
  lemma ErrorCodeInMessage(code: int)
    requires code != 0
    ensures var r := Outcome(Exited(code));
            exists digits :: r[1].message == "Rendering error (code " + digits + ")" && ParseInt(digits) == Some(code)
  {
    ParseIntOfIntToString(code);
    var digits := IntToString(code);
    assert Outcome(Exited(code))[1].message == "Rendering error (code " + digits + ")";
  }

  /** A failed termination leaves the render running, so it can be retried. */
  lemma TerminateRetry(e: Executor, error: string)
    requires e.hasProcess && e.isRunning
    ensures var (after, ok, _) := Terminate(e, KillRaised(error));
            !ok && after.isRunning && Terminate(after, Killed).1
  {
  }

  /** The very first render can be stopped: once the worker has spawned
      Blender, the process is stored and the render is still running, so a
      kill that returns ends it as interrupted. */
  lemma FirstRenderCanBeStopped(start: int, end: int, command: seq<string>, lines: seq<string>, ending: RunEnd)
    ensures var (running, ok, _) := Execute(Init(), start, end);
            var (spawned, _) := WorkerStart(running, command, Spawned(lines, ending));
            var (stopped, stoppedOk, signals) := Terminate(spawned, Killed);
            && ok && stoppedOk && !stopped.isRunning
            && RenderCompleted(false, InterruptedMessage) in signals
  {
  }

  /** Once the worker has finished, or Blender could not be spawned, there is
      nothing to stop: `terminate` returns False and emits nothing. */
  lemma NothingToStopAfterWorker(e: Executor, command: seq<string>, run: Run, kill: Kill)
    ensures Terminate(RunWorker(e, command, run).0, kill) == (RunWorker(e, command, run).0, false, [])
    ensures run.SpawnFailed? ==>
              Terminate(WorkerStart(e, command, run).0, kill) == (WorkerStart(e, command, run).0, false, [])
  {
  }

  /** A render stopped while Blender runs is reported as finished twice: once
      by `terminate`, and again by the worker when the killed process's
      output ends. */
  lemma StoppedRunReportsTwice(e: Executor, command: seq<string>, lines: seq<string>, ending: RunEnd)
    requires e.isRunning
    ensures var (spawned, _) := WorkerStart(e, command, Spawned(lines, ending));
            var (stopped, ok, signals) := Terminate(spawned, Killed);
            var (_, rest) := WorkerFinish(stopped, Spawned(lines, ending));
            && ok && RenderCompleted(false, InterruptedMessage) in signals
            && |rest| > 0 && rest[|rest| - 1].RenderCompleted?
  {
  }
}

=== FILE: command_builder.dfy ===
/** The command preview of the parameter form: `update_command` turns the
    Blender path and the parameter dict into a token list and joins it with
    single spaces.

    The blend-file entry (key `--`) is pulled out of the dict; every other entry
    is ranked with the priority table and stable-sorted by rank. The quoted
    blend path then goes right after `-b` when background mode is on, and
    right after the executable otherwise. */
module CommandBuilder {
  import opened Wrappers
  import opened Text
  import opened ParamDefinitions
  import opened ParamMaps
  import opened StableSort

  /** An element of `ordered_params`: the rank and the (flag, value) entry. */
  type RankedEntry = (int, Entry)

  /** `ordered_params` before the sort: every entry except the blend file,
      paired with its rank, in dict order. */
  function RankedEntries(m: ParamMap): (r: seq<RankedEntry>)
    ensures forall i :: 0 <= i < |r| ==>
              r[i].1.0 != BlendFile && r[i].0 == GetParamOrder(r[i].1.0) && r[i].1 in m
    ensures forall i :: 0 <= i < |m| && m[i].0 != BlendFile ==>
              (GetParamOrder(m[i].0), m[i]) in r
    decreases |m|
  {
    if |m| == 0 then []
    else
      var rest := RankedEntries(m[1..]);
      assert forall i :: 1 <= i < |m| ==> m[i] == m[1..][i - 1];
      if m[0].0 == BlendFile then rest
      else [(GetParamOrder(m[0].0), m[0])] + rest
  }

  /** `ordered_params` after `ordered_params.sort(key=lambda x: x[0])`. */
  function Ordered(m: ParamMap): seq<RankedEntry> {
    SortByKey(RankedEntries(m))
  }

  /** The value the loop leaves in `blend_file`: that of the last `--` entry. */
  function BlendValue(m: ParamMap): (r: Option<Value>)
    ensures r.None? <==> !HasKey(m, BlendFile)
    ensures r.Some? ==> (BlendFile, r.value) in m
    decreases |m|
  {
    if |m| == 0 then None
    else if m[|m| - 1].0 == BlendFile then Some(m[|m| - 1].1)
    else
      var r := BlendValue(m[..|m| - 1]);
      assert forall i :: 0 <= i < |m| - 1 ==> m[..|m| - 1][i] == m[i];
      r
  }

  /** `background_mode`: some `-b` entry holds a truthy value. */
  predicate BackgroundMode(m: ParamMap) {
    exists i :: 0 <= i < |m| && m[i].0 == Background && Truthy(m[i].1)
  }

  /** The executable token: the quoted path, or `blender` when the path is empty. */
  function ExeToken(path: string): (t: string)
    ensures path != "" ==> |t| == |path| + 2 && t[0] == '"' && t[1..|t| - 1] == path
    ensures path == "" ==> t == "blender"
  {
    if path != "" then Quote(path) else "blender"
  }

  /** The tokens one entry contributes: a set boolean gives its flag alone, a
      truthy string or integer gives its flag and its quoted value, and a
      falsy value gives nothing. */
  function EmitEntry(e: Entry): (r: seq<string>)
    ensures |r| <= 2
    ensures Truthy(e.1) <==> |r| > 0
    ensures |r| > 0 ==> r[0] == e.0
    ensures |r| == 2 <==> Truthy(e.1) && !e.1.Bool?
  {
    match e.1
    case Bool(b) => if b then [e.0] else []
    case _ => if Truthy(e.1) then [e.0, Quote(Render(e.1))] else []
  }

  /** The tokens of a run of ranked entries, in order: at most two per entry,
      and none at all exactly when every value is falsy. */
  function EmitAll(s: seq<RankedEntry>): (r: seq<string>)
    ensures |r| <= 2 * |s|
    ensures r == [] <==> forall k :: 0 <= k < |s| ==> !Truthy(s[k].1.1)
    decreases |s|
  {
    if |s| == 0 then []
    else
      var rest := EmitAll(s[1..]);
      assert forall k :: 1 <= k < |s| ==> s[k] == s[1..][k - 1];
      EmitEntry(s[0].1) + rest
  }

  /** Emitting a run split in two emits the two halves one after the other. */
  lemma {:induction false} EmitAllSplit(s: seq<RankedEntry>, i: nat)
    requires i <= |s|
    ensures EmitAll(s[..i]) + EmitAll(s[i..]) == EmitAll(s)
    decreases i
  {
    if i > 0 {
      EmitAllSplit(s[1..], i - 1);
      assert s[..i][1..] == s[1..][..i - 1];
      assert s[i..] == s[1..][i - 1..];
    } else {
      assert s[..0] == [] && s[0..] == s;
    }
  }

  /** The `b_index` loop: the first position whose flag is `flag`. */
  function FirstFlag(s: seq<RankedEntry>, flag: string): (r: Option<nat>)
    ensures r.Some? ==> r.value < |s| && s[r.value].1.0 == flag
    ensures r.Some? ==> forall k :: 0 <= k < r.value ==> s[k].1.0 != flag
    ensures r.None? ==> forall k :: 0 <= k < |s| ==> s[k].1.0 != flag
    decreases |s|
  {
    if |s| == 0 then None
    else if s[0].1.0 == flag then Some(0)
    else match FirstFlag(s[1..], flag)
      case Some(i) => Some(i + 1)
      case None => None
  }

  /** The token list `update_command` builds. The branch where background mode
      is on but `-b` is not found is kept as written (it emits the executable
      alone); `BackgroundLeads` shows it cannot be reached. */
  function AssembleTokens(path: string, m: ParamMap): (tokens: seq<string>)
    ensures |tokens| >= 1 && tokens[0] == ExeToken(path)
  {
    var exe := [ExeToken(path)];
    var ordered := Ordered(m);
    var blend := BlendValue(m);
    if blend.Some? && Truthy(blend.value) then
      PlaceBlend(exe, ordered, Quote(Render(blend.value)), BackgroundMode(m))
    else
      exe + EmitAll(ordered)
  }

  /** Where the quoted blend path goes: right after the `-b` entry in
      background mode, right after the executable otherwise. */
  function PlaceBlend(exe: seq<string>, ordered: seq<RankedEntry>, blendToken: string, background: bool): (r: seq<string>)
    ensures exe <= r
  {
    if background then
      match FirstFlag(ordered, Background)
      case Some(b) => exe + EmitAll(ordered[..b + 1]) + [blendToken] + EmitAll(ordered[b + 1..])
      case None => exe
    else
      exe + [blendToken] + EmitAll(ordered)
  }

  /** Unless background mode finds no `-b`, the blend token is inserted
      exactly once: taking it out leaves the executable followed by every
      parameter's tokens. */
  lemma BlendInsertedOnce(exe: seq<string>, ordered: seq<RankedEntry>, blendToken: string, background: bool)
    requires !background || FirstFlag(ordered, Background).Some?
    ensures var r := PlaceBlend(exe, ordered, blendToken, background);
            exists p :: |exe| <= p < |r| && r[p] == blendToken && r[..p] + r[p + 1..] == exe + EmitAll(ordered)
  {
    if background {
      var b := FirstFlag(ordered, Background).value;
      var a, back := EmitAll(ordered[..b + 1]), EmitAll(ordered[b + 1..]);
      BackgroundPlace(exe, ordered, blendToken, b);
      InsertedAfter(exe, a, blendToken, back);
      EmitAllSplit(ordered, b + 1);
      var r := exe + a + [blendToken] + back;
      var p := |exe + a|;
      assert r[p] == blendToken && r[..p] + r[p + 1..] == exe + EmitAll(ordered);
    } else {
      InsertedAfter(exe, [], blendToken, EmitAll(ordered));
      assert exe + [] == exe;
      var r := exe + [blendToken] + EmitAll(ordered);
      assert PlaceBlend(exe, ordered, blendToken, background) == r;
      assert r[|exe|] == blendToken && r[..|exe|] + r[|exe| + 1..] == exe + EmitAll(ordered);
    }
  }

  /** A token placed between `exe + a` and `b`: the result begins with `exe`,
      holds the token right after `a`, and is `exe + a + b` without it. */
  lemma InsertedAfter(exe: seq<string>, a: seq<string>, t: string, b: seq<string>)
    ensures var r := exe + a + [t] + b;
            && r[..|exe|] == exe
            && r[|exe + a|] == t
            && r[..|exe + a|] + r[|exe + a| + 1..] == exe + (a + b)
  {
    var r := exe + a + [t] + b;
    assert r[..|exe + a|] == exe + a;
    assert r[|exe + a| + 1..] == b;
  }

  /** The preview string: the tokens joined by single spaces, so it begins
      with the executable token. */
  function UpdateCommand(path: string, m: ParamMap): (r: string)
    ensures ExeToken(path) <= r
  {
    var tokens := AssembleTokens(path, m);
    assert Join(tokens, " ") == if |tokens| == 1 then tokens[0] else tokens[0] + " " + Join(tokens[1..], " ");
    Join(tokens, " ")
  }

  // ---------------------------------------------------------------------
  // Order of the ranked entries
  // ---------------------------------------------------------------------

  /** The sorted parameters are the dict's non-blend entries, each with its
      rank, in ascending rank; entries of equal rank keep their dict order;
      and no `--` entry is among them. */
  lemma OrderedParams(m: ParamMap)
    ensures Sorted(Ordered(m))
    ensures multiset(Ordered(m)) == multiset(RankedEntries(m))
    ensures forall k :: WithKey(Ordered(m), k) == WithKey(RankedEntries(m), k)
    ensures forall i :: 0 <= i < |Ordered(m)| ==> Ordered(m)[i].1.0 != BlendFile
    ensures forall i :: 0 <= i < |Ordered(m)| ==> Ordered(m)[i].1 in m
  {
    var o := Ordered(m);
    var r := RankedEntries(m);
    forall i | 0 <= i < |o| ensures o[i].1.0 != BlendFile && o[i].1 in m {
      assert o[i] in multiset(o);
      assert o[i] in multiset(r);
    }
  }

  /** Where the entry's key sits in the dict, or -1 when it is not there. */
  function MapPosition(m: ParamMap, e: RankedEntry): int {
    match IndexOf(m, e.1.0)
    case Some(i) => i
    case None => -1
  }

  /** The ranked entries carry their keys in the dict's order. */
  predicate InMapOrder(m: ParamMap, s: seq<RankedEntry>) {
    forall i, j :: 0 <= i < j < |s| ==> 0 <= MapPosition(m, s[i]) < MapPosition(m, s[j])
  }

  /** `ordered_params` is built by walking the dict: its entries follow the
      dict's order. With the membership facts of `RankedEntries` this fixes
      the list completely: every non-blend entry, once, in dict order. */
  lemma {:induction false} RankedEntriesInMapOrder(m: ParamMap)
    requires UniqueKeys(m)
    ensures InMapOrder(m, RankedEntries(m))
    decreases |m|
  {
    if |m| > 0 {
      var rest := RankedEntries(m[1..]);
      RankedEntriesInMapOrder(m[1..]);
      forall i | 0 <= i < |rest| ensures MapPosition(m, rest[i]) == MapPosition(m[1..], rest[i]) + 1 > 0 {
        var t :| 0 <= t < |m[1..]| && m[1..][t] == rest[i].1;
        assert m[t + 1] == rest[i].1;
        assert rest[i].1.0 != m[0].0;
      }
      if m[0].0 != BlendFile {
        var r := [(GetParamOrder(m[0].0), m[0])] + rest;
        assert r[1..] == rest;
        assert MapPosition(m, r[0]) == 0;
      }
    }
  }

  /** The stable sort keeps the dict's order among parameters of equal rank:
      of two sorted entries with the same rank, the earlier one was inserted
      into the dict first. */
  lemma EqualRanksKeepMapOrder(m: ParamMap)
    requires UniqueKeys(m)
    ensures var o := Ordered(m);
            forall i, j :: 0 <= i < j < |o| && o[i].0 == o[j].0 ==> 0 <= MapPosition(m, o[i]) < MapPosition(m, o[j])
  {
    var o := Ordered(m);
    var r := RankedEntries(m);
    RankedEntriesInMapOrder(m);
    forall i, j | 0 <= i < j < |o| && o[i].0 == o[j].0
      ensures 0 <= MapPosition(m, o[i]) < MapPosition(m, o[j])
    {
      var k := o[i].0;
      var a, b := FilterKeepsPair(o, k, i, j);
      assert WithKey(o, k) == WithKey(r, k);
      var i', j' := FilterPairSource(r, k, a, b);
    }
  }

  /** With `-b` set, the first sorted parameter is the `-b` entry itself, so
      the `b_index` search finds it at position 0. */
  lemma BackgroundLeads(m: ParamMap) returns (v: Value)
    requires UniqueKeys(m) && BackgroundMode(m)
    ensures Get(m, Background) == Some(v) && Truthy(v)
    ensures |Ordered(m)| > 0 && Ordered(m)[0] == (0, (Background, v))
    ensures FirstFlag(Ordered(m), Background) == Some(0)
  {
    var i :| 0 <= i < |m| && m[i].0 == Background && Truthy(m[i].1);
    v := m[i].1;
    var o := Ordered(m);
    OrderedHeadIsBackground(m, i);
    var q :| 0 <= q < |m| && m[q] == o[0].1;
    assert q == i;
    KeyAtIndex(m, i);
  }

  /** Everything before `-b` in the sorted parameters would need a rank of at
      most 0, which only `-b` has. */
  lemma OrderedHeadIsBackground(m: ParamMap, i: nat)
    requires i < |m| && m[i].0 == Background
    ensures |Ordered(m)| > 0 && Ordered(m)[0].1.0 == Background && Ordered(m)[0].0 == 0
    ensures Ordered(m)[0].1 in m
  {
    var o := Ordered(m);
    var r := RankedEntries(m);
    BackgroundRanksFirst(Background);
    assert (0, m[i]) in r;
    OrderedParams(m);
    assert (0, m[i]) in multiset(o);
    HeadHasLeastKey(o, (0, m[i]));
    assert o[0] in multiset(r);
    var h := o[0];
    assert h.0 == GetParamOrder(h.1.0) && h.0 <= 0;
    BackgroundRanksFirst(h.1.0);
  }

  /** In a map with unique keys, `Get` finds the entry at the key's position. */
  lemma KeyAtIndex(m: ParamMap, i: nat)
    requires UniqueKeys(m) && i < |m|
    ensures Get(m, m[i].0) == Some(m[i].1)
  {
    var j := IndexOf(m, m[i].0).value;
    assert j == i;
  }

  /** `blend_file` is the dict's `--` value. */
  lemma BlendValueIsGet(m: ParamMap)
    requires UniqueKeys(m)
    ensures BlendValue(m) == Get(m, BlendFile)
  {
    if HasKey(m, BlendFile) {
      var i :| 0 <= i < |m| && m[i] == (BlendFile, BlendValue(m).value);
      KeyAtIndex(m, i);
    }
  }

  // ---------------------------------------------------------------------
  // Shape of the assembled command
  // ---------------------------------------------------------------------

  /** Blend file and `-b`: the executable, the `-b` flag (with its value when it
      is not a boolean), the quoted blend path, then every other parameter in
      sorted order. */
  lemma BackgroundBlendShape(path: string, m: ParamMap, bf: Value)
    requires UniqueKeys(m) && BackgroundMode(m)
    requires Get(m, BlendFile) == Some(bf) && Truthy(bf)
    ensures var o := Ordered(m);
            && |o| > 0 && o[0].1.0 == Background
            && AssembleTokens(path, m) ==
                 [ExeToken(path)] + EmitEntry(o[0].1) + [Quote(Render(bf))] + EmitAll(o[1..])
            && multiset(o[1..]) == multiset(RankedEntries(m)) - multiset{o[0]}
  {
    var o := Ordered(m);
    assert |o| > 0 && o[0].1.0 == Background by {
      var v := BackgroundLeads(m);
    }
    BackgroundTokens(path, m, bf);
    assert multiset(o[1..]) == multiset(RankedEntries(m)) - multiset{o[0]} by {
      OrderedParams(m);
      TailMultiset(o, RankedEntries(m));
    }
  }

  /** The tokens of the background branch with `-b` at position 0. */
  lemma BackgroundTokens(path: string, m: ParamMap, bf: Value)
    requires UniqueKeys(m) && BackgroundMode(m)
    requires Get(m, BlendFile) == Some(bf) && Truthy(bf)
    ensures var o := Ordered(m);
            && |o| > 0
            && AssembleTokens(path, m) ==
                 [ExeToken(path)] + EmitEntry(o[0].1) + [Quote(Render(bf))] + EmitAll(o[1..])
  {
    var o := Ordered(m);
    var v := BackgroundLeads(m);
    BlendValueIsGet(m);
    BackgroundBranch(path, m, bf, 0);
    EmitAllOne(o);
    assert o[..0 + 1] == o[..1] && o[0 + 1..] == o[1..];
  }

  /** Dropping the head of a permutation of `r` removes one copy of it. */
  lemma TailMultiset(o: seq<RankedEntry>, r: seq<RankedEntry>)
    requires |o| > 0 && multiset(o) == multiset(r)
    ensures multiset(o[1..]) == multiset(r) - multiset{o[0]}
  {
    assert o == [o[0]] + o[1..];
    assert multiset(o) == multiset{o[0]} + multiset(o[1..]);
  }

  /** The branch of `update_command` taken with a blend file, background mode
      and `-b` found at `b`. */
  lemma BackgroundBranch(path: string, m: ParamMap, bf: Value, b: nat)
    requires BlendValue(m) == Some(bf) && Truthy(bf) && BackgroundMode(m)
    requires FirstFlag(Ordered(m), Background) == Some(b)
    ensures var o := Ordered(m);
            AssembleTokens(path, m) ==
              [ExeToken(path)] + EmitAll(o[..b + 1]) + [Quote(Render(bf))] + EmitAll(o[b + 1..])
  {
    var o := Ordered(m);
    assert AssembleTokens(path, m) == PlaceBlend([ExeToken(path)], o, Quote(Render(bf)), true);
    BackgroundPlace([ExeToken(path)], o, Quote(Render(bf)), b);
  }

  lemma BackgroundPlace(exe: seq<string>, o: seq<RankedEntry>, blendToken: string, b: nat)
    requires FirstFlag(o, Background) == Some(b)
    ensures PlaceBlend(exe, o, blendToken, true) ==
              exe + EmitAll(o[..b + 1]) + [blendToken] + EmitAll(o[b + 1..])
  {
  }

  lemma EmitAllOne(s: seq<RankedEntry>)
    requires |s| > 0
    ensures EmitAll(s[..1]) == EmitEntry(s[0].1)
  {
    assert s[..1][1..] == [];
  }

  /** Blend file without background mode: the quoted blend path comes right
      after the executable, before every parameter. When every stored value
      is truthy, as `update_parameter` keeps it, no `-b` flag is emitted. */
  lemma ForegroundBlendShape(path: string, m: ParamMap, bf: Value)
    requires UniqueKeys(m) && !BackgroundMode(m)
    requires Get(m, BlendFile) == Some(bf) && Truthy(bf)
    ensures AssembleTokens(path, m) == [ExeToken(path), Quote(Render(bf))] + EmitAll(Ordered(m))
    ensures AllTruthy(m) ==>
              forall i :: 0 <= i < |Ordered(m)| ==> Ordered(m)[i].1.0 != Background
  {
    BlendValueIsGet(m);
    ForegroundBranch(path, m, bf);
    if AllTruthy(m) {
      NoBackgroundEntry(m);
    }
  }

  /** The branch of `update_command` taken with a blend file and no
      background mode. */
  lemma ForegroundBranch(path: string, m: ParamMap, bf: Value)
    requires BlendValue(m) == Some(bf) && Truthy(bf) && !BackgroundMode(m)
    ensures AssembleTokens(path, m) == [ExeToken(path), Quote(Render(bf))] + EmitAll(Ordered(m))
  {
    assert [ExeToken(path)] + [Quote(Render(bf))] == [ExeToken(path), Quote(Render(bf))];
  }

  /** Without background mode, a map of truthy values has no `-b` entry, so
      neither do its sorted parameters. */
  lemma NoBackgroundEntry(m: ParamMap)
    requires AllTruthy(m) && !BackgroundMode(m)
    ensures forall i :: 0 <= i < |Ordered(m)| ==> Ordered(m)[i].1.0 != Background
  {
    OrderedParams(m);
    forall i | 0 <= i < |Ordered(m)| ensures Ordered(m)[i].1.0 != Background {
      var e := Ordered(m)[i].1;
      var j :| 0 <= j < |m| && m[j] == e;
      assert Truthy(m[j].1);
    }
  }

  /** No blend file: the executable followed by the sorted parameters. */
  lemma NoBlendShape(path: string, m: ParamMap)
    requires UniqueKeys(m) && (Get(m, BlendFile) == None || !Truthy(Get(m, BlendFile).value))
    ensures AssembleTokens(path, m) == [ExeToken(path)] + EmitAll(Ordered(m))
  {
    BlendValueIsGet(m);
  }

  /** A flag whose value was cleared is absent from the sorted parameters, so
      it is not emitted. */
  lemma ClearedFlagOmitted(m: ParamMap, name: string, cleared: Value)
    requires UniqueKeys(m) && !Truthy(cleared)
    ensures var o := Ordered(UpdateParameter(m, name, cleared));
            forall i :: 0 <= i < |o| ==> o[i].1.0 != name
  {
    var m' := UpdateParameter(m, name, cleared);
    OrderedParams(m');
    assert Get(m', name) == None;
    assert IndexOf(m', name) == None;
  }

  // ---------------------------------------------------------------------
  // Reading the parameters back from the tokens
  // ---------------------------------------------------------------------

  /** A token between double quotes. */
  predicate IsQuoted(t: string) {
    |t| >= 2 && t[0] == '"' && t[|t| - 1] == '"'
  }

  /** What a reader of the tokens sees: each flag, with the text of the quoted
      token that follows it, if any. */
  function DecodeArgs(tokens: seq<string>): seq<(string, Option<string>)>
    decreases |tokens|
  {
    if |tokens| == 0 then []
    else if |tokens| >= 2 && IsQuoted(tokens[1]) then
      [(tokens[0], Some(tokens[1][1..|tokens[1]| - 1]))] + DecodeArgs(tokens[2..])
    else [(tokens[0], None)] + DecodeArgs(tokens[1..])
  }

  /** The entries that show up on the command line, as flag and rendered value. */
  function Visible(s: seq<RankedEntry>): seq<(string, Option<string>)>
    decreases |s|
  {
    if |s| == 0 then []
    else if !Truthy(s[0].1.1) then Visible(s[1..])
    else if s[0].1.1.Bool? then [(s[0].1.0, None)] + Visible(s[1..])
    else [(s[0].1.0, Some(Render(s[0].1.1)))] + Visible(s[1..])
  }

  /** The emitted tokens read back as exactly the visible entries, in order,
      provided no flag itself looks like a quoted value. */
  lemma {:induction false} DecodeEmitAll(s: seq<RankedEntry>)
    requires forall i :: 0 <= i < |s| ==> !IsQuoted(s[i].1.0)
    ensures DecodeArgs(EmitAll(s)) == Visible(s)
    decreases |s|
  {
    if |s| > 0 {
      DecodeEmitAll(s[1..]);
      var e := s[0].1;
      var rest := EmitAll(s[1..]);
      if |rest| > 0 {
        EmitAllHead(s[1..]);
        assert !IsQuoted(rest[0]);
      }
      if Truthy(e.1) && !e.1.Bool? {
        var q := Quote(Render(e.1));
        assert EmitAll(s) == [e.0, q] + rest;
        assert (EmitAll(s))[2..] == rest;
      } else if Truthy(e.1) {
        assert EmitAll(s) == [e.0] + rest;
        assert (EmitAll(s))[1..] == rest;
      } else {
        assert EmitAll(s) == rest;
      }
    }
  }

  /** A non-empty emission starts with the flag of an entry that shows. */
  lemma {:induction false} EmitAllHead(s: seq<RankedEntry>)
    requires |EmitAll(s)| > 0
    ensures exists i :: 0 <= i < |s| && EmitAll(s)[0] == s[i].1.0
    decreases |s|
  {
    if |EmitEntry(s[0].1)| == 0 {
      EmitAllHead(s[1..]);
      var i :| 0 <= i < |s[1..]| && EmitAll(s[1..])[0] == s[1..][i].1.0;
      assert EmitAll(s)[0] == s[i + 1].1.0;
    } else {
      assert EmitAll(s)[0] == s[0].1.0;
    }
  }

  /** The preview splits back on spaces into the token list when no token
      contains a space (a path or value with a space breaks this). */
  lemma UpdateCommandSplits(path: string, m: ParamMap)
    requires forall k :: 0 <= k < |AssembleTokens(path, m)| ==> ' ' !in AssembleTokens(path, m)[k]
    ensures Split(UpdateCommand(path, m), ' ') == AssembleTokens(path, m)
  {
    SplitJoin(AssembleTokens(path, m), ' ');
  }

  // ---------------------------------------------------------------------
  // Worked examples
  // ---------------------------------------------------------------------

  /** Background mode with a blend file, `-a` and `-o "/out"`: `-b` and the
      blend path lead, then the output path (rank 4), then `-a` (rank 7),
      although `-a` was entered first. */
  lemma BackgroundExample()
    ensures AssembleTokens("", ExampleMap()) ==
              ["blender", "-b", "\"/a/b.blend\"", "-o", "\"/out\"", "-a"]
  {
    ExampleHead();
    ExampleTail();
    ExampleJoin(AssembleTokens("", ExampleMap()), EmitAll(Ordered(ExampleMap())[1..]));
  }

  lemma ExampleJoin(tokens: seq<string>, tail: seq<string>)
    requires tokens == ["blender"] + ["-b"] + ["\"/a/b.blend\""] + tail
    requires tail == ["-o", "\"/out\""] + ["-a"]
    ensures tokens == ["blender", "-b", "\"/a/b.blend\"", "-o", "\"/out\"", "-a"]
  {
  }

  lemma ExampleHead()
    ensures var m := ExampleMap();
            AssembleTokens("", m) ==
              ["blender"] + ["-b"] + ["\"/a/b.blend\""] + EmitAll(Ordered(m)[1..])
  {
    var m := ExampleMap();
    ExampleMapFacts();
    BackgroundBlendShape("", m, Str("/a/b.blend"));
    ExampleOrder();
  }

  lemma ExampleTail()
    ensures EmitAll(Ordered(ExampleMap())[1..]) == ["-o", "\"/out\""] + ["-a"]
  {
    var m := ExampleMap();
    ExampleMapFacts();
    ExampleOrder();
    var rest := Ordered(m)[1..];
    assert rest == [(4, m[3]), (7, m[2])];
    TwoEmitted(rest);
  }

  function ExampleMap(): ParamMap {
    [(Background, Bool(true)), (BlendFile, Str("/a/b.blend")), ("-a", Bool(true)), ("-o", Str("/out"))]
  }

  lemma ExampleMapFacts()
    ensures var m := ExampleMap();
            && UniqueKeys(m) && BackgroundMode(m) && Get(m, BlendFile) == Some(Str("/a/b.blend"))
            && EmitEntry(m[0]) == ["-b"] && EmitEntry(m[2]) == ["-a"]
            && EmitEntry(m[3]) == ["-o", "\"/out\""]
            && Quote(Render(Str("/a/b.blend"))) == "\"/a/b.blend\""
  {
    var m := ExampleMap();
    assert m[0].0 == Background && Truthy(m[0].1);
    KeyAtIndex(m, 1);
    assert Quote("/a/b.blend") == "\"/a/b.blend\"" && Quote("/out") == "\"/out\"";
  }

  lemma ExampleOrder()
    ensures var m := ExampleMap();
            Ordered(m) == [(0, m[0]), (4, m[3]), (7, m[2])]
  {
    var m := ExampleMap();
    ExampleRanked();
    SortThreeMiddleLargest((0, m[0]), (7, m[2]), (4, m[3]));
  }

  lemma ExampleRanked()
    ensures var m := ExampleMap();
            RankedEntries(m) == [(0, m[0]), (7, m[2]), (4, m[3])]
  {
    var m := ExampleMap();
    ExampleRanks();
    assert m[1..][1..][1..] == [m[3]] && m[1..][1..][1..][1..] == [];
    assert RankedEntries(m[1..][1..][1..]) == [(4, m[3])];
    assert RankedEntries(m[1..][1..]) == [(7, m[2]), (4, m[3])];
    assert RankedEntries(m[1..]) == RankedEntries(m[1..][1..]);
  }

  lemma ExampleRanks()
    ensures GetParamOrder(Background) == 0 && GetParamOrder("-o") == 4 && GetParamOrder("-a") == 7
  {
    assert ParamOrder[0] == ("-b", 0) && ParamOrder[3] == ("-o", 4) && ParamOrder[7] == ("-a", 7);
  }

  /** `-e` and `-f` share a rank, so they come out in the order they were
      entered, whichever that is. */
  lemma FrameFlagsKeepEntryOrder()
    ensures AssembleTokens("", [(FrameEnd, Int(10)), (RenderFrame, Str("3"))])
            == ["blender", "-e", "\"10\"", "-f", "\"3\""]
    ensures AssembleTokens("", [(RenderFrame, Str("3")), (FrameEnd, Int(10))])
            == ["blender", "-f", "\"3\"", "-e", "\"10\""]
  {
    var e, f := (FrameEnd, Int(10)), (RenderFrame, Str("3"));
    FrameEntryTokens();
    FrameFlagsShareRank();
    TwoEntriesTokens("", [e, f], 5, 5);
    JoinTwo(AssembleTokens("", [e, f]), EmitEntry(e), EmitEntry(f));
    TwoEntriesTokens("", [f, e], 5, 5);
    JoinTwo(AssembleTokens("", [f, e]), EmitEntry(f), EmitEntry(e));
  }

  lemma JoinTwo(tokens: seq<string>, x: seq<string>, y: seq<string>)
    requires tokens == [ExeToken("")] + (x + y) && |x| == 2 && |y| == 2
    ensures tokens == ["blender", x[0], x[1], y[0], y[1]]
  {
  }

  lemma FrameEntryTokens()
    ensures EmitEntry((FrameEnd, Int(10))) == ["-e", "\"10\""]
    ensures EmitEntry((RenderFrame, Str("3"))) == ["-f", "\"3\""]
  {
    assert EmitEntry((FrameEnd, Int(10))) == ["-e", "\"10\""] by {
      QuotedTen();
    }
    assert EmitEntry((RenderFrame, Str("3"))) == ["-f", "\"3\""] by {
      assert Quote("3") == "\"3\"";
    }
  }

  lemma QuotedTen()
    ensures Quote(Render(Int(10))) == "\"10\""
  {
    assert Render(Int(10)) == "10" by {
      assert NatToString(10) == NatToString(1) + [DigitChar(0)];
    }
    assert Quote("10") == "\"10\"";
  }

  /** The command for two parameters already in rank order, no blend file. */
  lemma TwoEntriesTokens(path: string, m: ParamMap, r0: int, r1: int)
    requires |m| == 2 && m[0].0 != BlendFile && m[1].0 != BlendFile && m[0].0 != m[1].0
    requires GetParamOrder(m[0].0) == r0 <= r1 == GetParamOrder(m[1].0)
    ensures AssembleTokens(path, m) == [ExeToken(path)] + (EmitEntry(m[0]) + EmitEntry(m[1]))
  {
    TwoEntries(m, r0, r1);
    TwoKeys(m);
    NoBlendShape(path, m);
  }

  lemma TwoKeys(m: ParamMap)
    requires |m| == 2 && m[0].0 != BlendFile && m[1].0 != BlendFile && m[0].0 != m[1].0
    ensures UniqueKeys(m) && Get(m, BlendFile) == None
  {
    assert !HasKey(m, BlendFile);
  }

  /** Two ranked entries already in rank order keep their order. */
  lemma TwoEntries(m: ParamMap, r0: int, r1: int)
    requires |m| == 2 && m[0].0 != BlendFile && m[1].0 != BlendFile
    requires GetParamOrder(m[0].0) == r0 <= r1 == GetParamOrder(m[1].0)
    ensures Ordered(m) == [(r0, m[0]), (r1, m[1])]
    ensures EmitAll(Ordered(m)) == EmitEntry(m[0]) + EmitEntry(m[1])
  {
    var s := [(r0, m[0]), (r1, m[1])];
    TwoRanked(m, r0, r1);
    SortByKeyOfSorted(s);
    TwoEmitted(s);
  }

  lemma TwoRanked(m: ParamMap, r0: int, r1: int)
    requires |m| == 2 && m[0].0 != BlendFile && m[1].0 != BlendFile
    requires GetParamOrder(m[0].0) == r0 && r1 == GetParamOrder(m[1].0)
    ensures RankedEntries(m) == [(r0, m[0]), (r1, m[1])]
  {
    assert m[1..] == [m[1]] && m[1..][1..] == [];
    assert RankedEntries(m[1..][1..]) == [];
    assert RankedEntries(m[1..]) == [(r1, m[1])];
  }

  lemma TwoEmitted(s: seq<RankedEntry>)
    requires |s| == 2
    ensures EmitAll(s) == EmitEntry(s[0].1) + EmitEntry(s[1].1)
  {
    assert s[1..] == [s[1]] && s[1..][1..] == [];
    assert EmitAll(s[1..]) == EmitEntry(s[1].1) + EmitAll([]);
  }
}

=== FILE: command_generator.dfy ===
/** The list-based command generator: a base program name and an ordered list
    of parameter tokens, rendered as one space-separated command line. */
module CommandGenerator {
  import opened Text

  datatype Generator = Generator(base: string, parameters: seq<string>)

  /** A new generator: base `blender`, no parameters. */
  function New(): (g: Generator)
    ensures g.base == "blender" && g.parameters == []
    ensures Generate(g) == "blender"
  {
    Generator("blender", [])
  }

  /** `add_parameter`: append at the end. */
  function Add(g: Generator, p: string): (r: Generator)
    ensures r.base == g.base
    ensures |r.parameters| == |g.parameters| + 1 && r.parameters[|g.parameters|] == p
    ensures r.parameters[..|g.parameters|] == g.parameters
  {
    g.(parameters := g.parameters + [p])
  }

  /** The position of the first occurrence of `p`. */
  function FirstIndex(s: seq<string>, p: string): (i: nat)
    requires p in s
    ensures i < |s| && s[i] == p && p !in s[..i]
  {
    if s[0] == p then 0
    else
      assert p in s[1..];
      var i := 1 + FirstIndex(s[1..], p);
      assert s[..i] == [s[0]] + s[1..][..i - 1];
      i
  }

  /** Python's `list.remove` guarded by `in`: the first occurrence goes, and a
      missing element leaves the list as it is. */
  function RemoveFirst(s: seq<string>, p: string): (r: seq<string>)
    ensures p !in s ==> r == s
    ensures p in s ==> |r| == |s| - 1
    decreases |s|
  {
    if |s| == 0 then s
    else if s[0] == p then s[1..]
    else
      assert p !in s[1..] ==> p !in s;
      [s[0]] + RemoveFirst(s[1..], p)
  }

  /** Exactly the first occurrence is removed: everything before it and
      everything after it stays in place. */
  lemma {:induction false} RemoveFirstAt(s: seq<string>, p: string)
    requires p in s
    ensures RemoveFirst(s, p) == s[..FirstIndex(s, p)] + s[FirstIndex(s, p) + 1..]
    decreases |s|
  {
    if s[0] != p {
      assert p in s[1..];
      RemoveFirstAt(s[1..], p);
      var i := FirstIndex(s[1..], p);
      assert FirstIndex(s, p) == i + 1;
      assert s[..i + 1] == [s[0]] + s[1..][..i];
      assert s[i + 2..] == s[1..][i + 1..];
    }
  }

  /** Removing an element that is present takes exactly one copy of it out. */
  lemma RemoveFirstMultiset(s: seq<string>, p: string)
    requires p in s
    ensures multiset(RemoveFirst(s, p)) + multiset{p} == multiset(s)
  {
    RemoveFirstAt(s, p);
    var i := FirstIndex(s, p);
    assert s == s[..i] + [s[i]] + s[i + 1..];
  }

  /** `remove_parameter`. */
  function Remove(g: Generator, p: string): (r: Generator)
    ensures r.base == g.base
    ensures p !in g.parameters ==> r == g
    ensures p in g.parameters ==> |r.parameters| == |g.parameters| - 1 &&
                                  multiset(r.parameters) + multiset{p} == multiset(g.parameters)
    ensures p in g.parameters ==>
              var i := FirstIndex(g.parameters, p);
              r.parameters == g.parameters[..i] + g.parameters[i + 1..]
  {
    if p in g.parameters then
      RemoveFirstMultiset(g.parameters, p);
      RemoveFirstAt(g.parameters, p);
      g.(parameters := RemoveFirst(g.parameters, p))
    else g
  }

  /** `generate_command`: the base, then the parameters in order, joined by
      single spaces. */
  function Generate(g: Generator): (r: string)
    ensures g.base <= r
    ensures g.parameters == [] ==> r == g.base
  {
    Join([g.base] + g.parameters, " ")
  }

  /** `clear_parameters`. */
  function Clear(g: Generator): (r: Generator)
    ensures r.base == g.base && r.parameters == []
    ensures Generate(r) == g.base
  {
    g.(parameters := [])
  }

  // ---------------------------------------------------------------------
  // Properties
  // ---------------------------------------------------------------------

  /** Adding a parameter extends the command by a space and the parameter. */
  lemma {:induction false} GenerateAdd(g: Generator, p: string)
    ensures Generate(Add(g, p)) == Generate(g) + " " + p
  {
    JoinAppend([g.base] + g.parameters, p, " ");
    assert [g.base] + (g.parameters + [p]) == [g.base] + g.parameters + [p];
  }

  /** Joining one more part appends the separator and the part. */
  lemma {:induction false} JoinAppend(parts: seq<string>, x: string, sep: string)
    requires |parts| >= 1
    ensures Join(parts + [x], sep) == Join(parts, sep) + sep + x
    decreases |parts|
  {
    if |parts| == 1 {
      assert (parts + [x])[1..] == [x];
    } else {
      JoinAppend(parts[1..], x, sep);
      assert (parts + [x])[1..] == parts[1..] + [x];
    }
  }

  /** Adding `p` and then removing it restores the parameters as a multiset. */
  lemma AddThenRemove(g: Generator, p: string)
    ensures multiset(Remove(Add(g, p), p).parameters) == multiset(g.parameters)
  {
    var s := g.parameters + [p];
    assert s[|g.parameters|] == p;
    assert multiset(s) == multiset(g.parameters) + multiset{p};
    assert Add(g, p).parameters == s;
    var r := Remove(Add(g, p), p).parameters;
    assert multiset(r) + multiset{p} == multiset(g.parameters) + multiset{p};
    assert multiset(r) == multiset(r) + multiset{p} - multiset{p};
  }

  /** When `p` was not there before, adding and removing it gives back the
      same generator. */
  lemma AddThenRemoveAbsent(g: Generator, p: string)
    requires p !in g.parameters
    ensures Remove(Add(g, p), p) == g
  {
    var s := g.parameters + [p];
    assert s[|g.parameters|] == p;
    assert forall k :: 0 <= k < |g.parameters| ==> s[k] == g.parameters[k] && s[k] != p;
    var i := FirstIndex(s, p);
    assert i == |g.parameters|;
    RemoveFirstAt(s, p);
    assert s[..i] == g.parameters;
    assert s[i + 1..] == [];
    assert RemoveFirst(s, p) == g.parameters;
    assert Add(g, p).parameters == s;
  }

  /** The generated command splits on spaces back into the base and the
      parameters, provided none of them contains a space. */
  lemma GenerateSplits(g: Generator)
    requires ' ' !in g.base && forall k :: 0 <= k < |g.parameters| ==> ' ' !in g.parameters[k]
    ensures Split(Generate(g), ' ') == [g.base] + g.parameters
  {
    var parts := [g.base] + g.parameters;
    assert forall k :: 1 <= k < |parts| ==> parts[k] == g.parameters[k - 1];
    SplitJoin(parts, ' ');
  }

  /** Removing a parameter never touches the entries before its first
      occurrence. */
  lemma RemoveKeepsEarlier(g: Generator, p: string)
    requires p in g.parameters
    ensures var i := FirstIndex(g.parameters, p);
            Remove(g, p).parameters[..i] == g.parameters[..i]
  {
    RemoveFirstAt(g.parameters, p);
  }
}

=== FILE: log_viewer.dfy ===
/** The log panel: every message is stored with a level; the panel shows the
    stored messages that pass the level toggles and the detail level, in the
    order they were stored. Changing a filter redraws the panel from the
    stored messages, so what is shown is always a function of the stored log
    and the filters. */
module LogViewer {
  import opened Text

  /** The five levels the panel formats. */
  datatype Level = Info | Warning | Error | Success | Frame

  function LevelName(level: Level): string {
    match level
    case Info => "INFO"
    case Warning => "WARNING"
    case Error => "ERROR"
    case Success => "SUCCESS"
    case Frame => "FRAME"
  }

  /** One stored entry; the timestamp is taken from the clock by the caller. */
  datatype LogEntry = LogEntry(timestamp: string, message: string, level: Level)

  /** The three level toggles and the detail combo box index
      (0 All, 1 Standard, 2 Minimal). */
  datatype Filters = Filters(showInfo: bool, showWarning: bool, showError: bool, detail: int)

  /** `log_entries`, the filters, and the entries currently drawn in the panel. */
  datatype Viewer = Viewer(entries: seq<LogEntry>, filters: Filters, display: seq<LogEntry>)

  const ImportantPatterns: seq<string> :=
    ["Rendering started", "Rendering completed", "Saved:", "Blender quit", "Fra:", "Current Frame:"]

  const TechnicalPatterns: seq<string> :=
    ["malloc", "Memory:", "AL lib:", "pure-virtual:", "OpenGL", "libGL", "0x", "libpng", "libjpeg"]

  /** `any(pattern in message for pattern in patterns)`. */
  predicate ContainsAny(message: string, patterns: seq<string>) {
    exists k :: 0 <= k < |patterns| && Contains(message, patterns[k])
  }

  /** `process_blender_output`'s level: the first rule that applies wins. */
  function Classify(line: string): (level: Level)
    ensures level == Success <==> Contains(line, "Saved:")
    ensures level == Frame <==> !Contains(line, "Saved:") && Contains(line, "Fra:")
    ensures level == Error <==>
              !Contains(line, "Saved:") && !Contains(line, "Fra:") &&
              (Contains(line, "Error:") || Contains(line, "ERROR"))
    ensures level == Warning <==>
              !Contains(line, "Saved:") && !Contains(line, "Fra:") &&
              !Contains(line, "Error:") && !Contains(line, "ERROR") &&
              (Contains(line, "Warning:") || Contains(line, "WARNING"))
  {
    if Contains(line, "Saved:") then Success
    else if Contains(line, "Fra:") then Frame
    else if Contains(line, "Error:") || Contains(line, "ERROR") then Error
    else if Contains(line, "Warning:") || Contains(line, "WARNING") then Warning
    else Info
  }

  /** `is_important_message`: every message the classifier files as a saved
      file or a status line is important, and so is a completion line. */
  predicate IsImportant(message: string, level: Level)
    ensures level == Classify(message) && (level == Success || level == Frame) ==>
              IsImportant(message, level)
    ensures Contains(message, "Rendering completed") || Contains(message, "Blender quit") ==>
              IsImportant(message, level)
  {
    assert Contains(message, "Saved:") ==> Contains(message, ImportantPatterns[2]);
    assert Contains(message, "Fra:") ==> Contains(message, ImportantPatterns[4]);
    assert Contains(message, "Rendering completed") ==> Contains(message, ImportantPatterns[1]);
    assert Contains(message, "Blender quit") ==> Contains(message, ImportantPatterns[3]);
    level == Error || level == Warning || ContainsAny(message, ImportantPatterns)
  }

  /** `is_technical_message`: a message is technical exactly when it holds
      one of the nine debug markers, so a hexadecimal address or an OpenGL
      report is always technical. */
  predicate IsTechnical(message: string)
    ensures Contains(message, "0x") || Contains(message, "OpenGL") ==> IsTechnical(message)
    ensures IsTechnical(message) <==>
              || Contains(message, "malloc") || Contains(message, "Memory:")
              || Contains(message, "AL lib:") || Contains(message, "pure-virtual:")
              || Contains(message, "OpenGL") || Contains(message, "libGL")
              || Contains(message, "0x") || Contains(message, "libpng")
              || Contains(message, "libjpeg")
  {
    assert ContainsAny(message, TechnicalPatterns) <==>
             || Contains(message, TechnicalPatterns[0]) || Contains(message, TechnicalPatterns[1])
             || Contains(message, TechnicalPatterns[2]) || Contains(message, TechnicalPatterns[3])
             || Contains(message, TechnicalPatterns[4]) || Contains(message, TechnicalPatterns[5])
             || Contains(message, TechnicalPatterns[6]) || Contains(message, TechnicalPatterns[7])
             || Contains(message, TechnicalPatterns[8]);
    ContainsAny(message, TechnicalPatterns)
  }

  /** Whether the toggles hide this level. */
  predicate HiddenByToggle(f: Filters, level: Level) {
    || (level == Info && !f.showInfo)
    || (level == Warning && !f.showWarning)
    || (level == Error && !f.showError)
  }

  /** `should_show_message`: the level toggles first, then the detail level.
      No detail level shows what a toggle hides; an error whose toggle is on
      is shown at every detail level; a warning whose toggle is on is hidden
      only at Standard detail, and only when it is technical; the All level
      shows everything the toggles let through. */
  predicate ShouldShow(f: Filters, message: string, level: Level)
    ensures ShouldShow(f, message, level) ==> !HiddenByToggle(f, level)
    ensures level == Error && f.showError ==> ShouldShow(f, message, level)
    ensures level == Warning && f.showWarning ==>
              (ShouldShow(f, message, level) <==> f.detail != 1 || !IsTechnical(message))
    ensures f.detail != 1 && f.detail != 2 ==> (ShouldShow(f, message, level) <==> !HiddenByToggle(f, level))
  {
    if HiddenByToggle(f, level) then false
    else if f.detail == 2 then IsImportant(message, level)
    else if f.detail == 1 then !IsTechnical(message) || level == Error
    else true
  }

  predicate Shown(f: Filters, e: LogEntry) {
    ShouldShow(f, e.message, e.level)
  }

  /** The entries that pass the filters, in stored order. */
  function Visible(f: Filters, entries: seq<LogEntry>): (r: seq<LogEntry>)
    ensures |r| <= |entries|
    ensures forall k :: 0 <= k < |r| ==> r[k] in entries && Shown(f, r[k])
    ensures forall k :: 0 <= k < |entries| && Shown(f, entries[k]) ==> entries[k] in r
    decreases |entries|
  {
    if |entries| == 0 then []
    else
      var rest := Visible(f, entries[1..]);
      assert forall k :: 1 <= k < |entries| ==> entries[k] == entries[1..][k - 1];
      if Shown(f, entries[0]) then [entries[0]] + rest else rest
  }

  /** The panel state the source keeps in step: what is drawn is what passes
      the filters. */
  predicate Consistent(v: Viewer) {
    v.display == Visible(v.filters, v.entries)
  }

  /** A new panel: the three level toggles come from the saved settings, while
      the detail level always starts at Standard (the saved one is written
      but never read back). Nothing is stored or drawn. */
  function Init(showInfo: bool, showWarning: bool, showError: bool): (v: Viewer)
    ensures v.filters == Filters(showInfo, showWarning, showError, 1)
    ensures Consistent(v) && v.entries == [] && v.display == []
  {
    Viewer([], Filters(showInfo, showWarning, showError, 1), [])
  }

  /** `append_log`: the entry is always stored; it is drawn only when it passes
      the filters. */
  function AppendLog(v: Viewer, timestamp: string, message: string, level: Level): (r: Viewer)
    ensures r.entries == v.entries + [LogEntry(timestamp, message, level)]
    ensures r.filters == v.filters
    ensures Consistent(v) ==> Consistent(r)
  {
    var e := LogEntry(timestamp, message, level);
    VisibleAppend(v.filters, v.entries, e);
    v.(entries := v.entries + [e],
       display := if Shown(v.filters, e) then v.display + [e] else v.display)
  }

  /** `process_blender_output`: store the line with its classified level. */
  function ProcessBlenderOutput(v: Viewer, timestamp: string, line: string): (r: Viewer)
    ensures r.entries == v.entries + [LogEntry(timestamp, line, Classify(line))]
    ensures Consistent(v) ==> Consistent(r)
  {
    AppendLog(v, timestamp, line, Classify(line))
  }

  /** `apply_filters`: redraw the panel from the stored entries. */
  function ApplyFilters(v: Viewer): (r: Viewer)
    ensures Consistent(r) && r.entries == v.entries && r.filters == v.filters
  {
    v.(display := Visible(v.filters, v.entries))
  }

  /** `filter_changed`: take the new toggles and detail level, then redraw. */
  function SetFilters(v: Viewer, f: Filters): (r: Viewer)
    ensures Consistent(r) && r.entries == v.entries && r.filters == f
  {
    ApplyFilters(v.(filters := f))
  }

  /** `clear`: the stored entries and the panel are emptied. */
  function Clear(v: Viewer): (r: Viewer)
    ensures r.entries == [] && Consistent(r) && r.filters == v.filters
  {
    Viewer([], v.filters, [])
  }

  // ---------------------------------------------------------------------
  // Properties
  // ---------------------------------------------------------------------

  /** Filtering a log with one more entry adds that entry at the end exactly
      when it passes. */
  lemma {:induction false} VisibleAppend(f: Filters, entries: seq<LogEntry>, e: LogEntry)
    ensures Visible(f, entries + [e]) == Visible(f, entries) + (if Shown(f, e) then [e] else [])
    decreases |entries|
  {
    if |entries| == 0 {
      assert entries + [e] == [e];
      assert [e][1..] == [];
    } else {
      assert (entries + [e])[1..] == entries[1..] + [e];
      VisibleAppend(f, entries[1..], e);
    }
  }

  /** Messages stored while hidden come back when the filters let them through:
      the redraw after a filter change shows every stored entry that passes. */
  lemma HiddenEntriesReturn(v: Viewer, show: Filters, timestamp: string, message: string, level: Level)
    requires Consistent(v)
    requires !ShouldShow(v.filters, message, level) && ShouldShow(show, message, level)
    ensures LogEntry(timestamp, message, level) !in AppendLog(v, timestamp, message, level).display
    ensures LogEntry(timestamp, message, level) in SetFilters(AppendLog(v, timestamp, message, level), show).display
  {
    var e := LogEntry(timestamp, message, level);
    var hidden := AppendLog(v, timestamp, message, level);
    assert hidden.entries[|hidden.entries| - 1] == e;
    assert forall k :: 0 <= k < |hidden.display| ==> Shown(v.filters, hidden.display[k]);
  }

  /** The level toggles never hide a success or frame message. */
  lemma TogglesKeepSuccessAndFrame(f: Filters, message: string, level: Level)
    requires level == Success || level == Frame
    ensures ShouldShow(f, message, level) == ShouldShow(Filters(true, true, true, f.detail), message, level)
  {
  }

  /** The detail levels are not nested: a warning that mentions an address is
      shown at Minimal and hidden at Standard, while a plain information line
      is shown at Standard and hidden at Minimal. */
  lemma DetailLevelsNotNested()
    ensures var standard := Filters(true, true, true, 1);
            var minimal := Filters(true, true, true, 2);
            && ShouldShow(minimal, "WARNING at 0x1f", Warning)
            && !ShouldShow(standard, "WARNING at 0x1f", Warning)
            && ShouldShow(standard, "Loading scene", Info)
            && !ShouldShow(minimal, "Loading scene", Info)
  {
    assert "0x" <= "WARNING at 0x1f"[11..];
    NoPatternInLoading();
  }

  /** "Loading scene" mentions none of the important patterns. */
  lemma NoPatternInLoading()
    ensures !ContainsAny("Loading scene", ImportantPatterns)
    ensures !IsTechnical("Loading scene")
  {
    var m := "Loading scene";
    forall k, i | 0 <= k < |ImportantPatterns| && 0 <= i <= |m|
      ensures !(ImportantPatterns[k] <= m[i..])
    {
      NotPrefixAt(m, i, ImportantPatterns[k]);
    }
    forall k, i | 0 <= k < |TechnicalPatterns| && 0 <= i <= |m|
      ensures !(TechnicalPatterns[k] <= m[i..])
    {
      NotPrefixAt(m, i, TechnicalPatterns[k]);
    }
  }

  /** A pattern whose first character does not occur in `m` is not a prefix
      of any suffix of `m`. */
  lemma NotPrefixAt(m: string, i: nat, pat: string)
    requires i <= |m| && |pat| > 0 && pat[0] !in m
    ensures !(pat <= m[i..])
  {
  }

  /** Every status line is a frame message unless it also reports a saved
      file, and every frame message survives the Minimal detail level. */
  lemma FrameLinesAreImportant(f: Filters, line: string)
    requires f.detail == 2 && Contains(line, "Fra:")
    ensures Classify(line) == Frame || Classify(line) == Success
    ensures ShouldShow(f, line, Classify(line))
  {
    assert Contains(line, ImportantPatterns[4]);
  }

  /** With every toggle on and All detail, the panel shows the whole log. */
  lemma {:induction false} AllDetailShowsEverything(entries: seq<LogEntry>)
    ensures Visible(Filters(true, true, true, 0), entries) == entries
    decreases |entries|
  {
    if |entries| > 0 {
      var f := Filters(true, true, true, 0);
      assert Shown(f, entries[0]);
      AllDetailShowsEverything(entries[1..]);
      assert Visible(f, entries) == [entries[0]] + Visible(f, entries[1..]);
      assert entries == [entries[0]] + entries[1..];
    }
  }
}

=== FILE: main_window.dfy ===
/** The main window's render start: it reads the frame range from the command
    tokens, prepares the progress panel and the log, and asks the executor to
    start. It also routes the executor's output lines to the log and the
    progress panel.

    Message boxes and button states are left out; the clock is a parameter. */
module MainWindow {
  import opened Wrappers
  import opened Text
  import opened Patterns
  import opened ParamDefinitions
  import ProgressMonitor
  import BlenderExecutor
  import LogViewer

  // ---------------------------------------------------------------------
  // The frame range in the command tokens
  // ---------------------------------------------------------------------

  /** A reading of one token as an integer; the window uses `int()`, that is
      `ParseInt`. The scan is stated for any reading so that its properties
      do not depend on how `int()` works. */
  type Reader = string -> Option<int>

  /** What the token at `i` contributes for `flag`: the integer after it, when
      it is the flag, is not the last token, and the next token reads as one. */
  function ValueAt(command: seq<string>, i: nat, flag: string, read: Reader): Option<int>
    requires i < |command|
  {
    if command[i] == flag && i + 1 < |command| then read(command[i + 1]) else None
  }

  /** The last of the first `n` tokens that contributes a value for `flag`. */
  function LastIndex(command: seq<string>, flag: string, n: nat, read: Reader): (r: Option<nat>)
    requires n <= |command|
    ensures r.None? ==> forall i :: 0 <= i < n ==> ValueAt(command, i, flag, read).None?
    ensures r.Some? ==> r.value < n && ValueAt(command, r.value, flag, read).Some?
    ensures r.Some? ==> forall j :: r.value < j < n ==> ValueAt(command, j, flag, read).None?
  {
    if n == 0 then None
    else if ValueAt(command, n - 1, flag, read).Some? then Some(n - 1)
    else LastIndex(command, flag, n - 1, read)
  }

  /** The value the scan holds for `flag` after the first `n` tokens, when
      one of them contributed. */
  function LastValue(command: seq<string>, flag: string, n: nat, read: Reader): Option<int>
    requires n <= |command|
  {
    match LastIndex(command, flag, n, read)
    case Some(i) => ValueAt(command, i, flag, read)
    case None => None
  }

  /** The start and end frames `run_render` passes on: the last readable value
      after `-s` and after `-e`, 1 when there is none. */
  function FrameRange(command: seq<string>): (r: (int, int))
    ensures r.0 != 1 ==> exists i :: 0 <= i < |command| - 1 && command[i] == FrameStart && ParseInt(command[i + 1]) == Some(r.0)
    ensures r.1 != 1 ==> exists i :: 0 <= i < |command| - 1 && command[i] == FrameEnd && ParseInt(command[i + 1]) == Some(r.1)
  {
    (LastValue(command, FrameStart, |command|, ParseInt).GetOr(1),
     LastValue(command, FrameEnd, |command|, ParseInt).GetOr(1))
  }

  /** The values the scan holds after the first `n` tokens. */
  function Scanned(command: seq<string>, n: nat): (int, int)
    requires n <= |command|
  {
    (LastValue(command, FrameStart, n, ParseInt).GetOr(1),
     LastValue(command, FrameEnd, n, ParseInt).GetOr(1))
  }

  /** The scan loop of `run_render`. */
  method ScanFrameRange(command: seq<string>) returns (start: int, end: int)
    ensures (start, end) == FrameRange(command)
  {
    start, end := 1, 1;
    var i := 0;
    while i < |command|
      invariant 0 <= i <= |command|
      invariant (start, end) == Scanned(command, i)
    {
      ScanStep(command, i);
      if command[i] == FrameStart && i + 1 < |command| {
        var v := ParseInt(command[i + 1]);
        if v.Some? {
          start := v.value;
        }
      } else if command[i] == FrameEnd && i + 1 < |command| {
        var v := ParseInt(command[i + 1]);
        if v.Some? {
          end := v.value;
        }
      }
      i := i + 1;
    }
  }

  /** One token of the scan: `-s` or `-e` followed by a readable token sets
      that value, and nothing else changes either value. */
  lemma ScanStep(command: seq<string>, i: nat)
    requires i < |command|
    ensures var (start, end) := Scanned(command, i);
            Scanned(command, i + 1) ==
              if command[i] == FrameStart && i + 1 < |command| then
                (ParseInt(command[i + 1]).GetOr(start), end)
              else if command[i] == FrameEnd && i + 1 < |command| then
                (start, ParseInt(command[i + 1]).GetOr(end))
              else (start, end)
  {
    LastValueStep(command, FrameStart, i, ParseInt);
    LastValueStep(command, FrameEnd, i, ParseInt);
    FlagsDiffer();
  }

  lemma FlagsDiffer()
    ensures FrameStart != FrameEnd
  {
    assert FrameStart[1] != FrameEnd[1];
  }

  /** One more token: it sets the value when it contributes one, and keeps
      the value so far otherwise. */
  lemma LastValueStep(command: seq<string>, flag: string, i: nat, read: Reader)
    requires i < |command|
    ensures LastValue(command, flag, i + 1, read) ==
              if ValueAt(command, i, flag, read).Some? then ValueAt(command, i, flag, read)
              else LastValue(command, flag, i, read)
  {
  }

  // ---------------------------------------------------------------------
  // The window's state and its handlers
  // ---------------------------------------------------------------------

  datatype App = App(monitor: ProgressMonitor.Monitor, executor: BlenderExecutor.Executor,
                     log: LogViewer.Viewer)

  /** `handle_output_received`: the line goes to the log and to the progress
      panel. */
  function HandleOutputReceived(app: App, timestamp: string, line: string): (r: App)
    ensures r.executor == app.executor
    ensures r.log.entries == app.log.entries + [LogViewer.LogEntry(timestamp, line, LogViewer.Classify(line))]
  {
    app.(log := LogViewer.ProcessBlenderOutput(app.log, timestamp, line),
         monitor := ProgressMonitor.HandleLine(app.monitor, line))
  }

  /** The executor's signals delivered to the window's handlers in order:
      output lines as above, the start and the outcome as log entries. The
      window ignores the executor's progress fraction. */
  function Deliver(app: App, timestamp: string, signals: seq<BlenderExecutor.Signal>): (r: App)
    ensures r.monitor.totalFrames == app.monitor.totalFrames
    ensures r.executor == app.executor
    ensures app.log.entries <= r.log.entries
    ensures |r.log.entries| <= |app.log.entries| + |signals|
    decreases |signals|
  {
    if |signals| == 0 then app
    else
      var next := match signals[0]
        case OutputReceived(line) => HandleOutputReceived(app, timestamp, line)
        case RenderStarted => app.(log := LogViewer.AppendLog(app.log, timestamp, "Rendering started", LogViewer.Info))
        case RenderCompleted(success, message) =>
          app.(log := LogViewer.AppendLog(app.log, timestamp, message,
                                          if success then LogViewer.Info else LogViewer.Error))
        case RenderProgress(_) => app;
      Deliver(next, timestamp, signals[1..])
  }

  /** The panel as `run_render` leaves it before the executor starts: given
      the total, then reset, which throws the total away again. */
  function PreparePanel(m: ProgressMonitor.Monitor, start: int, end: int): (r: ProgressMonitor.Monitor)
    ensures r.totalFrames == 0 && r.currentFrame == 0
  {
    ProgressMonitor.Reset(ProgressMonitor.SetTotalFrames(m, start, end))
  }

  /** The panel reset first and then given the total: it counts the range. */
  function PreparePanelFixed(m: ProgressMonitor.Monitor, start: int, end: int): (r: ProgressMonitor.Monitor)
    ensures start <= end ==> r.totalFrames == end - start + 1 && r.currentFrame == 0
  {
    ProgressMonitor.SetTotalFrames(ProgressMonitor.Reset(m), start, end)
  }

  /** `run_render` as written: nothing happens without a command; otherwise the
      range is read, the panel gets its total, the log is told, the panel is
      reset, and the executor is asked to start. Its refusal line is delivered
      to the handlers like any other output. */
  function RunRender(app: App, command: Option<seq<string>>, timestamp: string): (r: App)
    ensures command.None? || command == Some([]) ==> r == app
    ensures command.Some? && command.value != [] ==> r.monitor.totalFrames == 0
  {
    if command.None? || command.value == [] then app
    else
      var (start, end) := FrameRange(command.value);
      var log := LogViewer.AppendLog(app.log, timestamp, "Preparing rendering...", LogViewer.Info);
      var monitor := PreparePanel(app.monitor, start, end);
      var (executor, _, signals) := BlenderExecutor.Execute(app.executor, start, end);
      Deliver(App(monitor, executor, log), timestamp, signals)
  }

  /** `run_render` with the panel reset before it is given the total, as the
      comments of the source describe. */
  function RunRenderFixed(app: App, command: Option<seq<string>>, timestamp: string): (r: App)
    ensures command.None? || command == Some([]) ==> r == app
    ensures command.Some? && command.value != [] ==>
              var (start, end) := FrameRange(command.value);
              start <= end ==> r.monitor.totalFrames == end - start + 1
  {
    if command.None? || command.value == [] then app
    else
      var (start, end) := FrameRange(command.value);
      var log := LogViewer.AppendLog(app.log, timestamp, "Preparing rendering...", LogViewer.Info);
      var monitor := PreparePanelFixed(app.monitor, start, end);
      var (executor, _, signals) := BlenderExecutor.Execute(app.executor, start, end);
      Deliver(App(monitor, executor, log), timestamp, signals)
  }

  // ---------------------------------------------------------------------
  // Properties
  // ---------------------------------------------------------------------

  // ---------------------------------------------------------------------
  // The frame-range scan
  // ---------------------------------------------------------------------

  /** Without `-s` or `-e` tokens the range is 1..1. */
  lemma NoFlagsGiveDefaults(command: seq<string>)
    requires FrameStart !in command && FrameEnd !in command
    ensures FrameRange(command) == (1, 1)
  {
    assert forall i :: 0 <= i < |command| ==> command[i] != FrameStart && command[i] != FrameEnd;
  }

  /** A flag as the last token is ignored. */
  lemma TrailingFlagIgnored(command: seq<string>, flag: string)
    requires flag == FrameStart || flag == FrameEnd
    ensures FrameRange(command + [flag]) == FrameRange(command)
  {
    FlagsAreNotIntegers();
    TrailingQuiet(command, flag, FrameStart);
    TrailingQuiet(command, flag, FrameEnd);
  }

  lemma TrailingQuiet(command: seq<string>, last: string, flag: string)
    requires ParseInt(last).None?
    ensures LastValue(command + [last], flag, |command + [last]|, ParseInt) == LastValue(command, flag, |command|, ParseInt)
  {
    var c := command + [last];
    assert c[|command|] == last;
    assert ValueAt(c, |command|, flag, ParseInt).None?;
    ExtendQuiet(command, [last], flag, ParseInt);
  }

  /** A flag followed by a token that is not an integer is ignored. */
  lemma NonIntegerValueIgnored(command: seq<string>, flag: string, token: string)
    requires flag == FrameStart || flag == FrameEnd
    requires ParseInt(token).None?
    ensures FrameRange(command + [flag, token]) == FrameRange(command)
  {
    FlagsAreNotIntegers();
    PairQuiet(command, flag, token, FrameStart, ParseInt);
    PairQuiet(command, flag, token, FrameEnd, ParseInt);
  }

  /** A later `-s` with an integer overrides every earlier one and leaves the
      end frame alone. */
  lemma LaterStartWins(command: seq<string>, v: int)
    ensures FrameRange(command + [FrameStart, IntToString(v)]) == (v, FrameRange(command).1)
  {
    FlagsAreNotIntegers();
    ParseIntOfIntToString(v);
    PairQuiet(command, FrameStart, IntToString(v), FrameEnd, ParseInt);
    PairSets(command, FrameStart, IntToString(v), ParseInt);
  }

  /** The same for `-e`. */
  lemma LaterEndWins(command: seq<string>, v: int)
    ensures FrameRange(command + [FrameEnd, IntToString(v)]) == (FrameRange(command).0, v)
  {
    FlagsAreNotIntegers();
    ParseIntOfIntToString(v);
    PairQuiet(command, FrameEnd, IntToString(v), FrameStart, ParseInt);
    PairSets(command, FrameEnd, IntToString(v), ParseInt);
  }

  lemma FlagsAreNotIntegers()
    ensures ParseInt(FrameStart).None? && ParseInt(FrameEnd).None?
  {
    DashFlagNotInteger('s');
    DashFlagNotInteger('e');
    assert FrameStart == ['-', 's'] && FrameEnd == ['-', 'e'];
  }

  /** A dash and one non-digit never read as an integer. */
  lemma DashFlagNotInteger(c: char)
    requires !IsDigit(c)
    ensures ParseInt(['-', c]).None?
  {
    var f := ['-', c];
    assert f[0] == '-' && f[1] == c;
    ParseIntNeedsDigit(f);
  }

  /** Appending `flag2 token` adds nothing for `flag` when `flag2` is not read
      as an integer and either `flag2` is another flag or `token` is not read
      as an integer. */
  lemma PairQuiet(command: seq<string>, flag2: string, token: string, flag: string, read: Reader)
    requires read(flag2).None?
    requires flag2 != flag || read(token).None?
    ensures LastValue(command + [flag2, token], flag, |command| + 2, read) == LastValue(command, flag, |command|, read)
  {
    var c := command + [flag2, token];
    assert c[|command|] == flag2 && c[|command| + 1] == token;
    ExtendQuiet(command, [flag2, token], flag, read);
  }

  /** Appending `flag token`, with `token` read as `v`, makes the value `v`. */
  lemma PairSets(command: seq<string>, flag: string, token: string, read: Reader)
    requires read(token).Some?
    ensures LastValue(command + [flag, token], flag, |command| + 2, read) == read(token)
  {
    var c := command + [flag, token];
    assert c[|command|] == flag && c[|command| + 1] == token;
    assert ValueAt(c, |command| + 1, flag, read).None?;
    assert ValueAt(c, |command|, flag, read) == read(token);
  }

  /** Tokens appended to `command` that contribute nothing for `flag`, and do
      not complete a trailing `flag`, leave its value as it was. */
  lemma ExtendQuiet(command: seq<string>, tail: seq<string>, flag: string, read: Reader)
    requires |command| > 0 && |tail| > 0 && command[|command| - 1] == flag ==> read(tail[0]).None?
    requires forall i :: |command| <= i < |command + tail| ==> ValueAt(command + tail, i, flag, read).None?
    ensures LastValue(command + tail, flag, |command + tail|, read) == LastValue(command, flag, |command|, read)
  {
    var c := command + tail;
    LastIndexSkip(c, flag, |command|, |c|, read);
    if |command| > 0 {
      var last := |command| - 1;
      assert c[last] == command[last];
      assert |tail| > 0 ==> c[last + 1] == tail[0];
      assert ValueAt(c, last, flag, read).None?;
      LastIndexPrefix(command, tail, flag, last, read);
      match LastIndex(command, flag, last, read)
      case Some(i) => ValueAtPrefix(command, tail, i, flag, read);
      case None =>
    }
  }

  lemma ValueAtPrefix(a: seq<string>, b: seq<string>, i: nat, flag: string, read: Reader)
    requires i + 1 < |a|
    ensures ValueAt(a + b, i, flag, read) == ValueAt(a, i, flag, read)
  {
    assert (a + b)[i] == a[i] && (a + b)[i + 1] == a[i + 1];
  }

  lemma {:induction false} LastIndexPrefix(a: seq<string>, b: seq<string>, flag: string, n: nat, read: Reader)
    requires n + 1 <= |a|
    ensures LastIndex(a + b, flag, n, read) == LastIndex(a, flag, n, read)
    decreases n
  {
    if n > 0 {
      ValueAtPrefix(a, b, n - 1, flag, read);
      LastIndexPrefix(a, b, flag, n - 1, read);
    }
  }

  lemma {:induction false} LastIndexSkip(c: seq<string>, flag: string, m: nat, n: nat, read: Reader)
    requires m <= n <= |c|
    requires forall i :: m <= i < n ==> ValueAt(c, i, flag, read).None?
    ensures LastIndex(c, flag, n, read) == LastIndex(c, flag, m, read)
    decreases n - m
  {
    if n > m {
      LastIndexSkip(c, flag, m, n - 1, read);
    }
  }

  // ---------------------------------------------------------------------
  // The reset after the total (see the findings)
  // ---------------------------------------------------------------------

  /** The panel prepared as written ignores every output line: its frame
      stays 0 whatever the range was. */
  lemma PreparedPanelIgnoresFrames(m: ProgressMonitor.Monitor, start: int, end: int, line: string)
    ensures ProgressMonitor.HandleLine(PreparePanel(m, start, end), line).currentFrame == 0
  {
    ProgressMonitor.NoFrameUpdateWithoutTotal(PreparePanel(m, start, end), line);
  }

  /** The concrete case on the panel: frames 1 to 10, then the line `Fra:5`,
      which does carry frame 5, and the panel stays at frame 0. */
  lemma PreparedPanelIgnoresFrameFive(m: ProgressMonitor.Monitor)
    ensures FrameNumber("Fra:5") == Some(5)
    ensures ProgressMonitor.HandleLine(PreparePanel(m, 1, 10), "Fra:5").currentFrame == 0
  {
    FrameNumberOfStatusLine(5, "");
    assert "Fra:" + NatToString(5) + "" == "Fra:5";
    PreparedPanelIgnoresFrames(m, 1, 10, "Fra:5");
  }

  /** The panel prepared in the corrected order follows a status line for
      frame `n` for any non-reversed range. */
  lemma FixedPanelFollowsFrames(m: ProgressMonitor.Monitor, start: int, end: int, n: nat, rest: string)
    requires start <= end
    requires |rest| == 0 || !IsDigit(rest[0])
    ensures ProgressMonitor.HandleLine(PreparePanelFixed(m, start, end), "Fra:" + NatToString(n) + rest).currentFrame == n
  {
    FrameNumberOfStatusLine(n, rest);
    ProgressMonitor.HandleFrameLine(PreparePanelFixed(m, start, end), "Fra:" + NatToString(n) + rest);
  }

  /** As written, `run_render` leaves the panel with total 0, so no output
      line ever moves its frame afterwards. */
  lemma RunRenderDropsFrames(app: App, command: seq<string>, timestamp: string, line: string)
    requires command != []
    ensures var started := RunRender(app, Some(command), timestamp);
            && started.monitor.totalFrames == 0
            && HandleOutputReceived(started, timestamp, line).monitor.currentFrame == started.monitor.currentFrame
  {
    var started := RunRender(app, Some(command), timestamp);
    ProgressMonitor.NoFrameUpdateWithoutTotal(started.monitor, line);
  }

  /** The concrete case: a render of frames 1 to 10 never shows frame 5. */
  lemma RunRenderDropsFrameFive(app: App, timestamp: string)
    ensures var command := ["blender", FrameStart, "1", FrameEnd, "10"];
            var started := RunRender(app, Some(command), timestamp);
            && FrameRange(command) == (1, 10)
            && FrameNumber("Fra:5") == Some(5)
            && HandleOutputReceived(started, timestamp, "Fra:5").monitor.currentFrame == started.monitor.currentFrame
  {
    var command := ["blender", FrameStart, "1", FrameEnd, "10"];
    assert FrameRange(command) == (1, 10) by { ExampleRange(); }
    assert FrameNumber("Fra:5") == Some(5) by {
      FrameNumberOfStatusLine(5, "");
      assert "Fra:" + NatToString(5) + "" == "Fra:5";
    }
    RunRenderDropsFrames(app, command, timestamp, "Fra:5");
  }

  lemma ExampleRange()
    ensures FrameRange(["blender", FrameStart, "1", FrameEnd, "10"]) == (1, 10)
  {
    assert IntToString(1) == "1";
    assert NatToString(10) == NatToString(1) + [DigitChar(0)];
    assert IntToString(10) == "10";
    var first := ["blender"] + [FrameStart, IntToString(1)];
    assert ["blender", FrameStart, "1", FrameEnd, "10"] == first + [FrameEnd, IntToString(10)];
    NoFlagsGiveDefaults(["blender"]);
    LaterStartWins(["blender"], 1);
    LaterEndWins(first, 10);
  }

  /** With the reset moved first, a status line for frame `n` moves the panel
      to frame `n` for any non-reversed range. */
  lemma RunRenderFixedFollowsFrames(app: App, command: seq<string>, timestamp: string, n: nat, rest: string)
    requires command != [] && FrameRange(command).0 <= FrameRange(command).1
    requires |rest| == 0 || !IsDigit(rest[0])
    ensures var started := RunRenderFixed(app, Some(command), timestamp);
            HandleOutputReceived(started, timestamp, "Fra:" + NatToString(n) + rest).monitor.currentFrame == n
  {
    var started := RunRenderFixed(app, Some(command), timestamp);
    FrameNumberOfStatusLine(n, rest);
    ProgressMonitor.HandleFrameLine(started.monitor, "Fra:" + NatToString(n) + rest);
  }

  // ---------------------------------------------------------------------
  // The two progress computations
  // ---------------------------------------------------------------------

  /** For a range starting at frame 1 the panel's bar is the executor's
      fraction as a percentage, rounded down. */
  lemma BarMatchesFractionFromFrameOne(m: ProgressMonitor.Monitor, e: BlenderExecutor.Executor,
                                       n: nat, rest: string)
    requires e.startFrame == 1 && 1 <= n <= e.endFrame
    requires |rest| == 0 || !IsDigit(rest[0])
    ensures var p := BlenderExecutor.ParseProgressInfo(e, "Fra:" + NatToString(n) + rest);
            var bar := ProgressMonitor.UpdateProgress(m, n, e.endFrame).bar;
            |p| == 1 && bar as real <= p[0].fraction * 100.0 < (bar + 1) as real
  {
    BlenderExecutor.ProgressOfStatusLine(e, n, rest);
    var bar := ProgressMonitor.UpdateProgress(m, n, e.endFrame).bar;
    FloorPercent(n, e.endFrame, bar);
  }

  /** For a range starting later, the executor reports 1 on the last frame
      while the panel's bar reaches at least 100, and passes 100 whenever the
      range is short compared with its start. */
  lemma BarOvershootsOnLastFrame(m: ProgressMonitor.Monitor, e: BlenderExecutor.Executor, rest: string)
    requires 1 < e.startFrame <= e.endFrame
    requires |rest| == 0 || !IsDigit(rest[0])
    ensures var total := e.endFrame - e.startFrame + 1;
            var p := BlenderExecutor.ParseProgressInfo(e, "Fra:" + NatToString(e.endFrame) + rest);
            var bar := ProgressMonitor.UpdateProgress(m, e.endFrame, total).bar;
            && |p| == 1 && p[0].fraction == 1.0
            && bar >= 100
            && ((e.startFrame - 1) * 100 >= total ==> bar > 100)
  {
    BlenderExecutor.ProgressOfStatusLine(e, e.endFrame, rest);
    LastFrameBar(m, e.startFrame, e.endFrame);
  }

  /** The panel's bar on the last frame of a range starting after frame 1. */
  lemma LastFrameBar(m: ProgressMonitor.Monitor, start: int, end: int)
    requires 1 < start <= end
    ensures var bar := ProgressMonitor.UpdateProgress(m, end, end - start + 1).bar;
            bar >= 100 && ((start - 1) * 100 >= end - start + 1 ==> bar > 100)
  {
    var total := end - start + 1;
    var bar := ProgressMonitor.UpdateProgress(m, end, total).bar;
    assert bar * total <= end * 100 < (bar + 1) * total;
    PercentPastEnd(start, end, bar);
  }

  /** Frames 11 to 20: the last frame puts 200 on the panel's bar. */
  lemma BarOvershootExample(m: ProgressMonitor.Monitor)
    ensures ProgressMonitor.UpdateProgress(m, 20, 10).bar == 200
  {
  }

  /** The rounded-down percentage `bar` of `n / d` bounds `n / d * 100`. */
  lemma FloorPercent(n: int, d: int, bar: int)
    requires d > 0 && bar * d <= n * 100 < (bar + 1) * d
    ensures bar as real <= (n as real / d as real) * 100.0 < (bar + 1) as real
  {
    var x := n as real / d as real;
    assert x * d as real == n as real;
    assert (bar * d) as real == bar as real * d as real;
    assert ((bar + 1) * d) as real == (bar + 1) as real * d as real;
    assert (n * 100) as real == x * 100.0 * d as real;
    CancelPositive(bar as real, x * 100.0, d as real);
    CancelPositive(x * 100.0, (bar + 1) as real, d as real);
  }

  lemma CancelPositive(a: real, b: real, d: real)
    requires d > 0.0
    ensures a * d <= b * d ==> a <= b
    ensures a * d < b * d ==> a < b
  {
  }

  /** The percentage of `end` over the frame count of `start..end`, for a
      start after frame 1. */
  lemma PercentPastEnd(start: int, end: int, bar: int)
    requires 1 < start <= end
    requires bar * (end - start + 1) <= end * 100 < (bar + 1) * (end - start + 1)
    ensures bar >= 100
    ensures (start - 1) * 100 >= end - start + 1 ==> bar > 100
  {
    var total := end - start + 1;
    assert end * 100 == total * 100 + (start - 1) * 100;
    ProgressMonitor.SignOfProduct(99 - bar, total);
    if (start - 1) * 100 >= total {
      ProgressMonitor.SignOfProduct(100 - bar, total);
    }
  }
}

=== FILE: param_definitions.dfy ===
/** The static catalogue of Blender command-line flags: the priority table that
    orders flags in an assembled command, and the categorised parameter list
    the form is built from. */
module ParamDefinitions {

  /** Rank given to every flag the priority table does not list. */
  const UnknownRank := 999

  /** `PARAM_ORDER`, in the order the source writes it. */
  const ParamOrder: seq<(string, int)> := [
    ("-b", 0),
    ("-E", 1),
    ("-F", 3),
    ("-o", 4),
    ("-f", 5),
    ("-e", 5),
    ("-s", 6),
    ("-a", 7),
    ("-S", 8),
    ("-j", 9),
    ("-x", 10),
    ("-w", 11),
    ("-W", 12),
    ("-p", 13),
    ("-M", 14),
    ("-con", 15),
    ("--no-native-pixels", 16),
    ("--no-window-focus", 17),
    ("-y", 18),
    ("-Y", 19),
    ("-P", 20),
    ("--python-text", 21),
    ("--python-expr", 22),
    ("--python-console", 23),
    ("--python-exit-code", 24),
    ("--python-use-system-env", 25),
    ("--addons", 26),
    ("--factory-startup", 27),
    ("--resolution-x", 28),
    ("--resolution-y", 29),
    ("-d", 30),
    ("--debug-memory", 31),
    ("--debug-cycles", 32)
  ]

  // Flag names the rest of the source refers to by constant.
  const Background := "-b"
  const BlendFile := "--"
  const FrameStart := "-s"
  const FrameEnd := "-e"
  const RenderFrame := "-f"

  /** Whether the priority table has an entry for `flag`. */
  predicate Listed(flag: string) {
    exists i :: 0 <= i < |ParamOrder| && ParamOrder[i].0 == flag
  }

  /** `get_param_order`: `PARAM_ORDER.get(flag, 999)`. The table lists each
      flag once, so the entry for a listed flag is unique. */
  function GetParamOrder(flag: string): (r: int)
    ensures forall i :: 0 <= i < |ParamOrder| && ParamOrder[i].0 == flag ==> r == ParamOrder[i].1
    ensures !Listed(flag) ==> r == UnknownRank
  {
    if Listed(flag) then
      ParamOrderKeysDistinct();
      var i :| 0 <= i < |ParamOrder| && ParamOrder[i].0 == flag;
      ParamOrder[i].1
    else UnknownRank
  }

  /** The ranks, written as a function of the table position. */
  function RankAt(i: nat): int {
    if i <= 1 then i else if i <= 4 then i + 1 else i
  }

  lemma ParamOrderRanks()
    ensures |ParamOrder| == 33
    ensures forall i :: 0 <= i < |ParamOrder| ==> ParamOrder[i].1 == RankAt(i)
  {
  }

  /** No flag is listed twice, so a first-match lookup agrees with the dict. */
  lemma ParamOrderKeysDistinct()
    ensures forall i, j :: 0 <= i < j < |ParamOrder| ==> ParamOrder[i].0 != ParamOrder[j].0
  {
  }

  /** `-b` ranks 0, strictly before every other flag. */
  lemma BackgroundRanksFirst(flag: string)
    ensures GetParamOrder(Background) == 0
    ensures flag != Background ==> GetParamOrder(flag) > 0
  {
    ParamOrderRanks();
    assert ParamOrder[0] == (Background, 0);
  }

  /** Every rank lies in [0, 999], and a listed flag ranks below 999, so unknown
      flags sort after all known ones. */
  lemma KnownRanksBelowUnknown(flag: string)
    ensures 0 <= GetParamOrder(flag) <= UnknownRank
    ensures Listed(flag) <==> GetParamOrder(flag) < UnknownRank
  {
    ParamOrderRanks();
  }

  lemma RankAtTie(i: nat, j: nat)
    requires i < j < 33 && RankAt(i) == RankAt(j)
    ensures i == 4 && j == 5
  {
  }

  /** The table position of a ranked flag. */
  lemma PositionOf(flag: string) returns (i: nat)
    requires GetParamOrder(flag) < UnknownRank
    ensures i < |ParamOrder| && ParamOrder[i].0 == flag && GetParamOrder(flag) == RankAt(i)
  {
    ParamOrderRanks();
    i :| 0 <= i < |ParamOrder| && ParamOrder[i].0 == flag;
  }

  /** `-f` and `-e` share rank 5. */
  lemma FrameFlagsShareRank()
    ensures GetParamOrder(RenderFrame) == 5 && GetParamOrder(FrameEnd) == 5
  {
    assert ParamOrder[4] == (RenderFrame, 5) && ParamOrder[5] == (FrameEnd, 5);
  }

  /** `-f` and `-e` are the only two flags that share a rank. */
  lemma OnlyTieIsFrameFlags(f: string, g: string)
    requires f != g && GetParamOrder(f) == GetParamOrder(g) < UnknownRank
    ensures (f == RenderFrame && g == FrameEnd) || (f == FrameEnd && g == RenderFrame)
  {
    var i := PositionOf(f);
    var j := PositionOf(g);
    assert ParamOrder[4].0 == RenderFrame && ParamOrder[5].0 == FrameEnd;
    if i < j {
      RankAtTie(i, j);
    } else {
      RankAtTie(j, i);
    }
  }

  /** The blend-file key `--` is not a ranked flag. */
  lemma BlendFileUnranked()
    ensures GetParamOrder(BlendFile) == UnknownRank
  {
    assert forall i :: 0 <= i < |ParamOrder| ==> ParamOrder[i].0 != BlendFile;
  }

  // ---------------------------------------------------------------------
  // The categorised parameter catalogue (`get_categories`)
  // ---------------------------------------------------------------------

  /** The `type` of a catalogue entry; an enumeration carries its options. */
  datatype ParamType =
    | BoolType
    | FileType
    | StringType
    | PathType
    | IntType
    | EnumType(options: seq<string>)

  /** One catalogue entry, tagged with the category it is listed under. */
  datatype ParamDef = ParamDef(category: string, name: string, param: string,
                               kind: ParamType, description: string)

  datatype Category = Category(title: string, params: seq<ParamDef>)

  /** Every entry of `get_categories()`, category by category in dict order;
      the nesting into categories is recovered by `GetCategories`. */
  const Catalogue: seq<ParamDef> := [
    ParamDef("Base", "Background", "-b", BoolType, "Run Blender in headless mode (without GUI)"),
    ParamDef("Base", "Python Script", "-P", FileType, "Execute a Python script"),
    ParamDef("Base", "Python Expression", "--python-expr", StringType, "Execute a Python expression"),
    ParamDef("Base", "Help", "--help", BoolType, "Show command line help"),
    ParamDef("Base", "Version", "--version", BoolType, "Show Blender version"),
    ParamDef("File", "Blend File", "--", FileType, "Blend file to open"),
    ParamDef("File", "Addons", "--addons", StringType, "List of addons to enable, comma separated"),
    ParamDef("Rendering", "Render Animation", "-a", BoolType, "Render the complete animation"),
    ParamDef("Rendering", "Render Frame", "-f", StringType, "Render specific frames (e.g. '1,3,5-10')"),
    ParamDef("Rendering", "Output Path", "-o", PathType, "Path for output files"),
    ParamDef("Rendering", "Scene", "-S", StringType, "Scene name to render"),
    ParamDef("Rendering", "Engine", "-E",
             EnumType(["CYCLES", "BLENDER_EEVEE_NEXT", "BLENDER_WORKBENCH"]), "Render engine to use"),
    ParamDef("Format", "Format", "-F",
             EnumType(["PNG", "JPEG", "OPEN_EXR", "TIFF", "WEBP", "FFMPEG"]), "Output file format"),
    ParamDef("Format", "Resolution X", "--resolution-x", IntType, "Rendered image width in pixels"),
    ParamDef("Format", "Resolution Y", "--resolution-y", IntType, "Rendered image height in pixels"),
    ParamDef("Format", "Resolution %", "--resolution-percentage", IntType, "Resolution percentage (1-100)"),
    ParamDef("Frames", "Start Frame", "-s", IntType, "Start frame of animation"),
    ParamDef("Frames", "End Frame", "-e", IntType, "End frame of animation"),
    ParamDef("Frames", "Frame Jump", "-j", IntType, "Number of frames to skip between renders"),
    ParamDef("Cycles", "Samples", "--cycles-samples", IntType, "Number of samples for rendering"),
    ParamDef("Performance", "Threads", "-t", IntType, "Number of threads for rendering (0=auto)"),
    ParamDef("Debug", "Debug", "-d", BoolType, "Enable debug mode"),
    ParamDef("Debug", "Debug Memory", "--debug-memory", BoolType, "Show memory usage information"),
    ParamDef("Debug", "Debug Cycles", "--debug-cycles", BoolType, "Enable Cycles debug"),
    ParamDef("Advanced", "Window Geometry", "-p", StringType, "Window position and size (X,Y,W,H)"),
    ParamDef("Advanced", "Factory Startup", "--factory-startup", BoolType, "Use factory settings"),
    ParamDef("Advanced", "Enable Autoexec", "-y", BoolType, "Enable Python scripts auto-execution"),
    ParamDef("Advanced", "Disable Autoexec", "-Y", BoolType, "Disable Python scripts auto-execution")
  ]

  /** The category lists laid end to end. */
  function Concat(cats: seq<Category>): seq<ParamDef> {
    if |cats| == 0 then [] else cats[0].params + Concat(cats[1..])
  }

  /** Every block is non-empty and holds only entries of its own category. */
  predicate Blocks(cats: seq<Category>) {
    && (forall c :: 0 <= c < |cats| ==> |cats[c].params| > 0)
    && (forall c, k :: 0 <= c < |cats| && 0 <= k < |cats[c].params| ==>
          cats[c].params[k].category == cats[c].title)
  }

  /** Splits a run of entries into maximal blocks of equal category: every
      block is non-empty, holds only entries of its own category, and the
      blocks laid end to end give back the entries. */
  function Group(defs: seq<ParamDef>): (cats: seq<Category>)
    ensures Concat(cats) == defs
    ensures Blocks(cats)
    ensures |defs| > 0 ==> |cats| > 0 && cats[0].title == defs[0].category
    ensures forall c :: 0 <= c < |cats| - 1 ==> cats[c].title != cats[c + 1].title
  {
    if |defs| == 0 then []
    else
      var rest := Group(defs[1..]);
      assert defs == [defs[0]] + defs[1..];
      if |rest| > 0 && rest[0].title == defs[0].category then
        JoinFront(defs[0], rest);
        [Category(defs[0].category, [defs[0]] + rest[0].params)] + rest[1..]
      else
        OpenFront(defs[0], rest);
        [Category(defs[0].category, [defs[0]])] + rest
  }

  /** An entry of the first block's category joins that block. */
  lemma JoinFront(d: ParamDef, rest: seq<Category>)
    requires Blocks(rest) && |rest| > 0 && rest[0].title == d.category
    ensures var cats := [Category(d.category, [d] + rest[0].params)] + rest[1..];
            Concat(cats) == [d] + Concat(rest) && Blocks(cats)
  {
    var head := Category(d.category, [d] + rest[0].params);
    var cats := [head] + rest[1..];
    JoinConcat(d, rest);
    forall c, k | 0 <= c < |cats| && 0 <= k < |cats[c].params|
      ensures cats[c].params[k].category == cats[c].title
    {
      if c == 0 {
        if k > 0 {
          assert head.params[k] == rest[0].params[k - 1];
        }
      } else {
        assert cats[c] == rest[c];
      }
    }
  }

  lemma JoinConcat(d: ParamDef, rest: seq<Category>)
    requires |rest| > 0
    ensures Concat([Category(d.category, [d] + rest[0].params)] + rest[1..]) == [d] + Concat(rest)
  {
    var head := Category(d.category, [d] + rest[0].params);
    var tail := Concat(rest[1..]);
    calc {
      Concat([head] + rest[1..]);
    == { ConcatCons(head, rest[1..]); }
      ([d] + rest[0].params) + tail;
    == { AppendAssoc([d], rest[0].params, tail); }
      [d] + (rest[0].params + tail);
    == { ConcatCons(rest[0], rest[1..]); assert [rest[0]] + rest[1..] == rest; }
      [d] + Concat(rest);
    }
  }

  lemma AppendAssoc<T>(a: seq<T>, b: seq<T>, c: seq<T>)
    ensures (a + b) + c == a + (b + c)
  {
  }

  lemma ConcatCons(h: Category, t: seq<Category>)
    ensures Concat([h] + t) == h.params + Concat(t)
  {
    assert ([h] + t)[1..] == t;
  }

  /** An entry of another category opens a block of its own. */
  lemma OpenFront(d: ParamDef, rest: seq<Category>)
    requires Blocks(rest)
    ensures var cats := [Category(d.category, [d])] + rest;
            Concat(cats) == [d] + Concat(rest) && Blocks(cats)
  {
    var cats := [Category(d.category, [d])] + rest;
    assert cats[1..] == rest;
    assert forall c :: 1 <= c < |cats| ==> cats[c] == rest[c - 1];
  }

  /** `get_categories()`: the dict's categories as blocks, the first one
      `Base`, no two neighbours with the same title, and the entries laid
      end to end giving back the catalogue. */
  function GetCategories(): (cats: seq<Category>)
    ensures Blocks(cats) && Concat(cats) == Catalogue
    ensures |cats| > 0 && cats[0].title == "Base"
    ensures forall c :: 0 <= c < |cats| - 1 ==> cats[c].title != cats[c + 1].title
  {
    Group(Catalogue)
  }

  /** `get_all_parameters`: walks every category and appends each entry, so the
      result is the category lists concatenated in order. */
  method GetAllParameters(cats: seq<Category>) returns (all: seq<ParamDef>)
    ensures all == Concat(cats)
  {
    all := [];
    var c := 0;
    while c < |cats|
      invariant c <= |cats|
      invariant all + Concat(cats[c..]) == Concat(cats)
    {
      var params := cats[c].params;
      var tail := Concat(cats[c + 1..]);
      assert cats[c..][1..] == cats[c + 1..];
      var k := 0;
      while k < |params|
        invariant k <= |params|
        invariant all + (params[k..] + tail) == Concat(cats)
      {
        AppendStep(all, params[k..], tail);
        assert params[k..][1..] == params[k + 1..];
        all := all + [params[k]];
        k := k + 1;
      }
      assert params[k..] == [];
      assert [] + tail == tail;
      c := c + 1;
    }
    assert cats[c..] == [];
  }

  /** Moving the head of the middle part to the end of the first. */
  lemma AppendStep(all: seq<ParamDef>, rest: seq<ParamDef>, tail: seq<ParamDef>)
    requires |rest| >= 1
    ensures all + (rest + tail) == (all + [rest[0]]) + (rest[1..] + tail)
  {
    assert rest == [rest[0]] + rest[1..];
  }

  /** The flat parameter list of the real catalogue is the catalogue itself. */
  lemma AllParametersOfCatalogue()
    ensures Concat(GetCategories()) == Catalogue
  {
  }

  /** No flag is offered twice anywhere in the catalogue. */
  lemma CatalogueParamsDistinct()
    ensures forall i, j :: 0 <= i < j < |Catalogue| ==> Catalogue[i].param != Catalogue[j].param
  {
  }

  /** Every enumerated entry offers at least one option. */
  lemma CatalogueEnumsHaveOptions()
    ensures forall i :: 0 <= i < |Catalogue| && Catalogue[i].kind.EnumType? ==>
              |Catalogue[i].kind.options| > 0
  {
  }

  /** Catalogue flags the priority table leaves out, which therefore sort last:
      `--help`, `--version`, `--resolution-percentage`, `--cycles-samples`, `-t`. */
  lemma UnrankedCatalogueFlags(flag: string)
    requires flag in ["--help", "--version", "--resolution-percentage", "--cycles-samples", "-t"]
    ensures GetParamOrder(flag) == UnknownRank
  {
    assert forall i :: 0 <= i < |ParamOrder| ==> ParamOrder[i].0 != flag;
  }
}

=== FILE: param_map.dfy ===
/** The command builder's `parameter_values` dict: flag -> value, in insertion
    order, and `update_parameter`, the only operation that changes it.

    A Python dict is modelled as a sequence of (key, value) entries with
    distinct keys. Assigning to an existing key keeps its position; a new key,
    or a key that was deleted and added again, goes to the end. */
module ParamMaps {
  import opened Wrappers
  import opened Text

  /** A form value: a checkbox (`bool`), a line edit or combo box (`str`), or a
      spin box (`int`). */
  datatype Value =
    | Bool(b: bool)
    | Str(s: string)
    | Int(i: int)

  /** Python truthiness: `False`, `""` and `0` are falsy. */
  predicate Truthy(v: Value) {
    match v
    case Bool(b) => b
    case Str(s) => s != ""
    case Int(i) => i != 0
  }

  /** `str(value)`, as an f-string renders it. */
  function Render(v: Value): string {
    match v
    case Bool(b) => if b then "True" else "False"
    case Str(s) => s
    case Int(i) => IntToString(i)
  }

  type Entry = (string, Value)
  type ParamMap = seq<Entry>

  predicate UniqueKeys(m: seq<Entry>) {
    forall i, j :: 0 <= i < j < |m| ==> m[i].0 != m[j].0
  }

  predicate HasKey(m: seq<Entry>, key: string) {
    exists i :: 0 <= i < |m| && m[i].0 == key
  }

  /** Position of the first entry for `key`. */
  function IndexOf(m: seq<Entry>, key: string): (r: Option<nat>)
    ensures r.Some? ==> r.value < |m| && m[r.value].0 == key
    ensures r.Some? ==> forall k :: 0 <= k < r.value ==> m[k].0 != key
    ensures r.None? <==> !HasKey(m, key)
  {
    if |m| == 0 then None
    else if m[0].0 == key then Some(0)
    else match IndexOf(m[1..], key)
      case Some(i) => Some(i + 1)
      case None => None
  }

  /** `m.get(key)`. */
  function Get(m: ParamMap, key: string): Option<Value> {
    match IndexOf(m, key)
    case Some(i) => Some(m[i].1)
    case None => None
  }

  /** `m[key] = v`. */
  function Put(m: ParamMap, key: string, v: Value): (r: ParamMap)
    requires UniqueKeys(m)
    ensures UniqueKeys(r)
    ensures Get(r, key) == Some(v)
    ensures forall k :: k != key ==> Get(r, k) == Get(m, k)
  {
    match IndexOf(m, key)
    case Some(i) =>
      var r := m[i := (key, v)];
      assert forall k :: IndexOf(r, k) == IndexOf(m, k) by {
        forall k ensures IndexOf(r, k) == IndexOf(m, k) {
          SameKeysSameIndex(m, r, k);
        }
      }
      r
    case None =>
      var r := m + [(key, v)];
      assert forall k :: k != key ==> IndexOf(r, k) == IndexOf(m, k) by {
        forall k | k != key ensures IndexOf(r, k) == IndexOf(m, k) {
          AppendOtherKeepsIndex(m, (key, v), k);
        }
      }
      assert IndexOf(r, key) == Some(|m|) by {
        AppendNewKeyIndex(m, (key, v));
      }
      r
  }

  /** `del m[key]`, for a key that is present. */
  function Delete(m: ParamMap, key: string): (r: ParamMap)
    requires UniqueKeys(m) && HasKey(m, key)
    ensures UniqueKeys(r)
    ensures Get(r, key) == None
    ensures forall k :: k != key ==> Get(r, k) == Get(m, k)
    ensures |r| == |m| - 1
  {
    var i := IndexOf(m, key).value;
    var r := m[..i] + m[i + 1..];
    assert !HasKey(r, key);
    assert forall k :: k != key ==> Get(r, k) == Get(m, k) by {
      forall k | k != key ensures Get(r, k) == Get(m, k) {
        DeleteOtherKeepsValue(m, i, k);
      }
    }
    r
  }

  /** `update_parameter`: a falsy value deletes the key when it is present and is
      otherwise ignored; a truthy value is stored under the key. */
  function UpdateParameter(m: ParamMap, name: string, value: Value): (r: ParamMap)
    requires UniqueKeys(m)
    ensures UniqueKeys(r)
    ensures Get(r, name) == if Truthy(value) then Some(value) else None
    ensures forall k :: k != name ==> Get(r, k) == Get(m, k)
  {
    if !Truthy(value) && HasKey(m, name) then Delete(m, name)
    else if Truthy(value) then Put(m, name, value)
    else m
  }

  // ---------------------------------------------------------------------
  // Where entries sit after an update (the part of dict order a map view
  // does not show)
  // ---------------------------------------------------------------------

  /** Overwriting a present key keeps its position; a new key goes last; a
      delete closes the gap and keeps the order of the rest. */
  lemma UpdateParameterPositions(m: ParamMap, name: string, value: Value)
    requires UniqueKeys(m)
    ensures Truthy(value) && HasKey(m, name) ==>
              UpdateParameter(m, name, value) == m[IndexOf(m, name).value := (name, value)]
    ensures Truthy(value) && !HasKey(m, name) ==>
              UpdateParameter(m, name, value) == m + [(name, value)]
    ensures !Truthy(value) && HasKey(m, name) ==>
              var i := IndexOf(m, name).value;
              UpdateParameter(m, name, value) == m[..i] + m[i + 1..]
    ensures !Truthy(value) && !HasKey(m, name) ==> UpdateParameter(m, name, value) == m
  {
  }

  /** Clearing a value and then setting it again moves the key to the end. */
  lemma ReAddedKeyGoesLast(m: ParamMap, name: string, cleared: Value, value: Value)
    requires UniqueKeys(m) && HasKey(m, name)
    requires !Truthy(cleared) && Truthy(value)
    ensures var r := UpdateParameter(UpdateParameter(m, name, cleared), name, value);
            |r| == |m| && r[|r| - 1] == (name, value)
  {
    var d := UpdateParameter(m, name, cleared);
    assert Get(d, name) == None;
    assert IndexOf(d, name) == None;
  }

  /** Setting the same value twice is the same as setting it once. */
  lemma UpdateParameterIdempotent(m: ParamMap, name: string, value: Value)
    requires UniqueKeys(m)
    ensures var once := UpdateParameter(m, name, value);
            UpdateParameter(once, name, value) == once
  {
    var once := UpdateParameter(m, name, value);
    if Truthy(value) {
      var i := IndexOf(once, name).value;
      assert once[i] == (name, value);
      assert once[i := (name, value)] == once;
    } else {
      assert Get(once, name) == None;
      assert IndexOf(once, name) == None;
    }
  }

  /** Only truthy values are ever stored, so every entry of a map built by
      `update_parameter` is truthy. */
  predicate AllTruthy(m: ParamMap) {
    forall i :: 0 <= i < |m| ==> Truthy(m[i].1)
  }

  lemma UpdateParameterStoresTruthy(m: ParamMap, name: string, value: Value)
    requires UniqueKeys(m) && AllTruthy(m)
    ensures AllTruthy(UpdateParameter(m, name, value))
  {
    var r := UpdateParameter(m, name, value);
    UpdateParameterPositions(m, name, value);
    if !Truthy(value) && HasKey(m, name) {
      var i := IndexOf(m, name).value;
      assert forall j :: 0 <= j < |r| ==> r[j] == (if j < i then m[j] else m[j + 1]);
    } else if Truthy(value) && HasKey(m, name) {
      var i := IndexOf(m, name).value;
      assert forall j :: 0 <= j < |r| ==> r[j] == (if j == i then (name, value) else m[j]);
    } else if Truthy(value) {
      assert forall j :: 0 <= j < |r| ==> r[j] == (if j < |m| then m[j] else (name, value));
    }
  }

  // ---------------------------------------------------------------------
  // Helpers about IndexOf
  // ---------------------------------------------------------------------

  lemma SameKeysSameIndex(m: seq<Entry>, r: seq<Entry>, k: string)
    requires |m| == |r| && forall j :: 0 <= j < |m| ==> m[j].0 == r[j].0
    ensures IndexOf(r, k) == IndexOf(m, k)
  {
    if |m| > 0 && m[0].0 != k {
      SameKeysSameIndex(m[1..], r[1..], k);
    }
  }

  lemma AppendOtherKeepsIndex(m: seq<Entry>, e: Entry, k: string)
    requires e.0 != k
    ensures IndexOf(m + [e], k) == IndexOf(m, k)
  {
    if |m| > 0 && m[0].0 != k {
      assert (m + [e])[1..] == m[1..] + [e];
      AppendOtherKeepsIndex(m[1..], e, k);
    }
  }

  lemma AppendNewKeyIndex(m: seq<Entry>, e: Entry)
    requires !HasKey(m, e.0)
    ensures IndexOf(m + [e], e.0) == Some(|m|)
  {
    if |m| > 0 {
      assert (m + [e])[1..] == m[1..] + [e];
      assert forall j :: 0 <= j < |m[1..]| ==> m[1..][j] == m[j + 1];
      AppendNewKeyIndex(m[1..], e);
    }
  }

  lemma DeleteOtherKeepsValue(m: ParamMap, i: nat, k: string)
    requires UniqueKeys(m) && i < |m| && m[i].0 != k
    ensures Get(m[..i] + m[i + 1..], k) == Get(m, k)
  {
    var r := m[..i] + m[i + 1..];
    match IndexOf(m, k)
    case Some(j) =>
      var jr := if j < i then j else j - 1;
      assert r[jr] == m[j];
      assert forall q :: 0 <= q < |r| ==> r[q] == m[if q < i then q else q + 1];
      assert forall q :: 0 <= q < jr ==> r[q].0 != k;
    case None =>
      assert forall q :: 0 <= q < |r| ==> r[q] == m[if q < i then q else q + 1];
  }
}

=== FILE: patterns.dfy ===
/** The handful of regular expressions the source applies to single lines, and
    Python's `int()` on a string.

    Only three shapes occur: a literal tag followed by one greedy capture of a
    character class (`Fra:(\d+)`, `Time:([\d:.]+)`, `Remaining:([\d:.]+)`) and
    three dot-separated digit runs (`(\d+)\.(\d+)\.(\d+)`). `re.search` returns
    the match that starts leftmost; `\d` is taken to be the ASCII digits. A
    greedy `+` followed by a character outside its class never backtracks
    usefully, so each group is the whole run of class characters. */
module Patterns {
  import opened Wrappers
  import opened Text

  /** The character classes captured by the source's patterns. */
  datatype CharClass =
    | Digits     // \d
    | TimeChars  // [\d:.]

  predicate InClass(c: char, cls: CharClass) {
    match cls
    case Digits => IsDigit(c)
    case TimeChars => IsDigit(c) || c == ':' || c == '.'
  }

  /** How many characters a greedy `[cls]+` consumes from position `i`: the
      longest run of class characters starting there. */
  function RunAt(s: string, i: nat, cls: CharClass): (n: nat)
    requires i <= |s|
    ensures i + n <= |s|
    ensures forall k :: i <= k < i + n ==> InClass(s[k], cls)
    ensures i + n < |s| ==> !InClass(s[i + n], cls)
    decreases |s| - i
  {
    if i < |s| && InClass(s[i], cls) then 1 + RunAt(s, i + 1, cls) else 0
  }

  datatype Pattern =
    | Tagged(tag: string, cls: CharClass)  // tag([cls]+)
    | DottedTriple                         // (\d+)\.(\d+)\.(\d+)

  /** The one group `tag([cls]+)` captures when it matches exactly at position `i`:
      the tag is there, at least one class character follows it, and the group
      is the whole run of class characters. */
  function TaggedAt(s: string, i: nat, tag: string, cls: CharClass): (r: Option<string>)
    requires i <= |s|
    ensures r.Some? <==> tag <= s[i..] && i + |tag| < |s| && InClass(s[i + |tag|], cls)
    ensures r.Some? ==> |r.value| >= 1 && (forall k :: 0 <= k < |r.value| ==> InClass(r.value[k], cls))
    ensures r.Some? ==> i + |tag| + |r.value| <= |s| && r.value == s[i + |tag|..i + |tag| + |r.value|]
    ensures r.Some? && i + |tag| + |r.value| < |s| ==> !InClass(s[i + |tag| + |r.value|], cls)
  {
    if tag <= s[i..] then
      var j := i + |tag|;
      var n := RunAt(s, j, cls);
      if n >= 1 then Some(s[j..j + n]) else None
    else None
  }

  /** The three groups of `(\d+)\.(\d+)\.(\d+)` matched exactly at position `i`:
      each group is a whole run of digits, since a greedy `\d+` can only give
      back digits and a dot is not one. */
  function TripleAt(s: string, i: nat): (r: Option<(string, string, string)>)
    requires i <= |s|
    ensures r.Some? ==> |r.value.0| >= 1 && AllDigits(r.value.0)
    ensures r.Some? ==> |r.value.1| >= 1 && AllDigits(r.value.1)
    ensures r.Some? ==> |r.value.2| >= 1 && AllDigits(r.value.2)
  {
    var a := RunAt(s, i, Digits);
    if a >= 1 && i + a < |s| && s[i + a] == '.' then
      var j := i + a + 1;
      var b := RunAt(s, j, Digits);
      if b >= 1 && j + b < |s| && s[j + b] == '.' then
        var k := j + b + 1;
        var c := RunAt(s, k, Digits);
        if c >= 1 then Some((s[i..i + a], s[j..j + b], s[k..k + c])) else None
      else None
    else None
  }

  /** Whether `p` matches starting exactly at position `i`. */
  predicate MatchesAt(s: string, i: nat, p: Pattern)
    requires i <= |s|
  {
    match p
    case Tagged(tag, cls) => TaggedAt(s, i, tag, cls).Some?
    case DottedTriple => TripleAt(s, i).Some?
  }

  /** The leftmost position at or after `from` where `p` matches. */
  function FirstMatch(s: string, p: Pattern, from: nat): (r: Option<nat>)
    requires from <= |s|
    ensures r.Some? ==> from <= r.value <= |s| && MatchesAt(s, r.value, p)
    ensures r.Some? ==> forall k :: from <= k < r.value ==> !MatchesAt(s, k, p)
    ensures r.None? ==> forall k :: from <= k <= |s| ==> !MatchesAt(s, k, p)
    decreases |s| - from
  {
    if MatchesAt(s, from, p) then Some(from)
    else if from == |s| then None
    else FirstMatch(s, p, from + 1)
  }

  /** `re.search(p, s)`: the leftmost match position, or None when `p` matches nowhere. */
  function Search(s: string, p: Pattern): (r: Option<nat>)
    ensures r.None? <==> forall k :: 0 <= k <= |s| ==> !MatchesAt(s, k, p)
    ensures r.Some? ==> r.value <= |s| && MatchesAt(s, r.value, p) &&
                        forall k :: 0 <= k < r.value ==> !MatchesAt(s, k, p)
  {
    FirstMatch(s, p, 0)
  }

  /** The group of `re.search(tag([cls]+), s)`, or None. */
  function SearchTagged(s: string, tag: string, cls: CharClass): (r: Option<string>)
    ensures r.None? <==> Search(s, Tagged(tag, cls)).None?
    ensures r.Some? ==> r == TaggedAt(s, Search(s, Tagged(tag, cls)).value, tag, cls)
  {
    match Search(s, Tagged(tag, cls))
    case Some(i) => TaggedAt(s, i, tag, cls)
    case None => None
  }

  /** The integer captured by `Fra:(\d+)`: the frame number both the executor
      and the progress monitor read from Blender's status lines. */
  function FrameNumber(line: string): (r: Option<nat>)
    ensures r.Some? <==> Search(line, Tagged("Fra:", Digits)).Some?
  {
    match SearchTagged(line, "Fra:", Digits)
    case Some(group) => Some(DigitsValue(group))
    case None => None
  }

  /** A line that starts with `Fra:` and the decimal form of `n` reports frame `n`,
      whatever follows a non-digit. */
  lemma {:induction false} FrameNumberOfStatusLine(n: nat, rest: string)
    requires |rest| == 0 || !IsDigit(rest[0])
    ensures FrameNumber("Fra:" + NatToString(n) + rest) == Some(n)
  {
    var line := "Fra:" + NatToString(n) + rest;
    var digits := NatToString(n);
    assert line[0..4] == "Fra:";
    assert line[4..] == digits + rest;
    RunOfConcat(line, 4, digits, rest, Digits);
    assert line[4..4 + |digits|] == digits;
    assert TaggedAt(line, 0, "Fra:", Digits) == Some(digits);
  }

  /** A greedy run from position `i` stops exactly `n` characters later when
      those are all in the class and the next one is not. */
  lemma {:induction false} RunAtStops(s: string, i: nat, n: nat, cls: CharClass)
    requires i + n <= |s|
    requires forall k :: i <= k < i + n ==> InClass(s[k], cls)
    requires i + n == |s| || !InClass(s[i + n], cls)
    ensures RunAt(s, i, cls) == n
    decreases n
  {
    if n > 0 {
      RunAtStops(s, i + 1, n - 1, cls);
    }
  }

  /** The same, for a string laid out as a prefix, a run of class characters
      and a rest that does not continue it. */
  lemma RunOfConcat(s: string, i: nat, run: string, rest: string, cls: CharClass)
    requires i <= |s| && s[i..] == run + rest
    requires forall k :: 0 <= k < |run| ==> InClass(run[k], cls)
    requires |rest| == 0 || !InClass(rest[0], cls)
    ensures i + |run| <= |s| && RunAt(s, i, cls) == |run| && s[i..i + |run|] == run
  {
    assert forall k :: i <= k < i + |run| ==> s[k] == s[i..][k - i] == run[k - i];
    if i + |run| < |s| {
      assert s[i + |run|] == s[i..][|run|] == rest[0];
    }
    RunAtStops(s, i, |run|, cls);
    assert s[i..i + |run|] == s[i..][..|run|];
  }

  // ---------------------------------------------------------------------
  // Python int() on a string
  // ---------------------------------------------------------------------

  /** Decimal digits, optionally separated by single underscores (`1_000`). */
  predicate IsGroupedDigits(s: string) {
    && |s| >= 1 && IsDigit(s[0]) && IsDigit(s[|s| - 1])
    && (forall k :: 0 <= k < |s| ==> IsDigit(s[k]) || s[k] == '_')
    && (forall k :: 0 <= k < |s| - 1 ==> !(s[k] == '_' && s[k + 1] == '_'))
  }

  function DropUnderscores(s: string): (r: string)
    requires forall k :: 0 <= k < |s| ==> IsDigit(s[k]) || s[k] == '_'
    ensures AllDigits(r)
    ensures AllDigits(s) ==> r == s
    decreases |s|
  {
    if |s| == 0 then ""
    else if s[0] == '_' then DropUnderscores(s[1..])
    else [s[0]] + DropUnderscores(s[1..])
  }

  /** `int(s)`: surrounding whitespace, an optional sign, then digits with single
      underscores between them; anything else is the `ValueError` case, None. */
  function ParseInt(s: string): (r: Option<int>)
    ensures |s| >= 1 && AllDigits(s) ==> r == Some(DigitsValue(s))
  {
    assert |s| >= 1 && AllDigits(s) ==> Strip(s) == s && IsGroupedDigits(s) && DropUnderscores(s) == s by {
      if |s| >= 1 && AllDigits(s) {
        assert !IsSpace(s[0]) && !IsSpace(s[|s| - 1]);
        StripNoSpace(s);
        GroupedPlainDigits(s);
      }
    }
    var t := Strip(s);
    var signed := |t| > 0 && (t[0] == '-' || t[0] == '+');
    var body := if signed then t[1..] else t;
    if IsGroupedDigits(body) then
      var v: int := DigitsValue(DropUnderscores(body));
      Some(if signed && t[0] == '-' then -v else v)
    else None
  }

  /** `int(str(n)) == n`: reading back the decimal form of any integer. */
  lemma ParseIntOfIntToString(n: int)
    ensures ParseInt(IntToString(n)) == Some(n)
  {
    var s := IntToString(n);
    var digits := NatToString(if n < 0 then -n else n);
    GroupedPlainDigits(digits);
    assert !IsSpace(s[0]) && !IsSpace(s[|s| - 1]);
    StripNoSpace(s);
    if n < 0 {
      assert s[0] == '-' && s[1..] == digits;
    } else {
      assert s == digits && s[0] != '-' && s[0] != '+';
    }
  }

  /** Plain digits are a valid `int()` body that needs no underscore removal. */
  lemma GroupedPlainDigits(digits: string)
    requires |digits| >= 1 && AllDigits(digits)
    ensures IsGroupedDigits(digits) && DropUnderscores(digits) == digits
  {
  }

  /** A string with no digit at all is never an integer. */
  lemma ParseIntNeedsDigit(s: string)
    requires forall k :: 0 <= k < |s| ==> !IsDigit(s[k])
    ensures ParseInt(s) == None
  {
    var l := LStrip(s);
    var t := RStrip(l);
    assert Strip(s) == t;
    var d := |s| - |l|;
    if |t| > 0 {
      assert t[0] == l[0] == s[d];
      assert !IsDigit(t[0]);
    }
    if |t| > 1 {
      assert t[1] == l[1] == s[d + 1];
      assert !IsDigit(t[1]);
    }
  }
}

=== FILE: progress_monitor.dfy ===
/** The progress panel: it reads Blender's output one line at a time, emits
    the frame, render-time, remaining-time and completion notifications it
    finds, and keeps the current frame, the frame total and the bar value.

    Each notification is delivered to its handler in the same thread as soon
    as it is emitted, so handling a line is: compute the notifications from
    the line and the state, then apply them in order. */
module ProgressMonitor {
  import opened Wrappers
  import opened Text
  import opened Patterns

  /** `current_frame`, `total_frames` and the value shown by the main bar. */
  datatype Monitor = Monitor(currentFrame: int, totalFrames: int, bar: int)

  /** The panel's signals with their arguments. */
  datatype Event =
    | FrameUpdated(current: nat, total: int)
    | RenderTimeUpdated(time: string)
    | RemainingTimeUpdated(time: string)
    | RenderCompleted

  /** The `Time:` and `Remaining:` captures: the maximal run of digits, colons
      and dots right after the leftmost tag that is followed by one. */
  function TimeCapture(line: string, tag: string): Option<string> {
    SearchTagged(line, tag, TimeChars)
  }

  /** Whether the line announces the end of the render. */
  predicate CompletionLine(line: string) {
    Contains(line, "Blender quit") || Contains(line, "Rendering completed")
  }

  /** `parse_blender_output`: the four rules, each applied independently, in
      the order the source applies them. A frame update is only emitted once
      the total is known. */
  function ParseBlenderOutput(m: Monitor, line: string): (r: seq<Event>)
    ensures |r| <= 4
    ensures forall k :: 0 < k < |r| ==> !r[k].FrameUpdated?
  {
    NoFramesInParts(FramePart(m, line), ElapsedPart(line), RemainingPart(line), CompletionPart(line));
    FramePart(m, line) + ElapsedPart(line) + RemainingPart(line) + CompletionPart(line)
  }

  /** `Fra:(\d+)`: at most one update, carrying the frame and the known total. */
  function FramePart(m: Monitor, line: string): (r: seq<Event>)
    ensures |r| <= 1
    ensures |r| == 1 <==> FrameNumber(line).Some? && m.totalFrames > 0
    ensures |r| == 1 ==> r[0] == FrameUpdated(FrameNumber(line).value, m.totalFrames)
  {
    var frame := FrameNumber(line);
    if frame.Some? && m.totalFrames > 0 then [FrameUpdated(frame.value, m.totalFrames)] else []
  }

  /** `Time:([\d:.]+)`: the elapsed render time. */
  function ElapsedPart(line: string): (r: seq<Event>)
    ensures |r| <= 1
    ensures |r| == 1 <==> TimeCapture(line, "Time:").Some?
    ensures |r| == 1 ==> r[0] == RenderTimeUpdated(TimeCapture(line, "Time:").value)
  {
    match TimeCapture(line, "Time:")
    case Some(t) => [RenderTimeUpdated(t)]
    case None => []
  }

  /** `Remaining:([\d:.]+)`: the estimated remaining time. */
  function RemainingPart(line: string): (r: seq<Event>)
    ensures |r| <= 1
    ensures |r| == 1 <==> TimeCapture(line, "Remaining:").Some?
    ensures |r| == 1 ==> r[0] == RemainingTimeUpdated(TimeCapture(line, "Remaining:").value)
  {
    match TimeCapture(line, "Remaining:")
    case Some(t) => [RemainingTimeUpdated(t)]
    case None => []
  }

  /** The completion markers. */
  function CompletionPart(line: string): (r: seq<Event>)
    ensures |r| <= 1
    ensures |r| == 1 <==> CompletionLine(line)
    ensures |r| == 1 ==> r[0] == RenderCompleted
  {
    if CompletionLine(line) then [RenderCompleted] else []
  }

  /** Each rule is decided by its own pattern alone: the frame update, the two
      time updates and the completion are in the output exactly when their
      pattern matches (the frame only once the total is known). */
  lemma ParseRules(m: Monitor, line: string, n: nat, t: int, time: string)
    ensures FrameUpdated(n, t) in ParseBlenderOutput(m, line) <==>
              FrameNumber(line) == Some(n) && m.totalFrames > 0 && t == m.totalFrames
    ensures RenderTimeUpdated(time) in ParseBlenderOutput(m, line) <==>
              TimeCapture(line, "Time:") == Some(time)
    ensures RemainingTimeUpdated(time) in ParseBlenderOutput(m, line) <==>
              TimeCapture(line, "Remaining:") == Some(time)
    ensures RenderCompleted in ParseBlenderOutput(m, line) <==> CompletionLine(line)
  {
    var a, b, c, d := FramePart(m, line), ElapsedPart(line), RemainingPart(line), CompletionPart(line);
    InParts(FrameUpdated(n, t), a, b, c, d);
    InParts(RenderTimeUpdated(time), a, b, c, d);
    InParts(RemainingTimeUpdated(time), a, b, c, d);
    InParts(RenderCompleted, a, b, c, d);
  }

  /** Membership in the four parts, each holding at most one event. */
  lemma InParts(e: Event, a: seq<Event>, b: seq<Event>, c: seq<Event>, d: seq<Event>)
    requires |a| <= 1 && |b| <= 1 && |c| <= 1 && |d| <= 1
    ensures e in a + b + c + d <==>
              (|a| == 1 && a[0] == e) || (|b| == 1 && b[0] == e) ||
              (|c| == 1 && c[0] == e) || (|d| == 1 && d[0] == e)
  {
    assert e in a + b + c + d <==> e in a || e in b || e in c || e in d;
  }

  /** The completion notification, when there is one, comes last. */
  lemma CompletionComesLast(m: Monitor, line: string)
    requires CompletionLine(line)
    ensures var r := ParseBlenderOutput(m, line);
            |r| > 0 && r[|r| - 1] == RenderCompleted
  {
    var p := FramePart(m, line) + ElapsedPart(line) + RemainingPart(line);
    assert ParseBlenderOutput(m, line) == p + [RenderCompleted];
  }

  /** `int(x)` for a quotient: Python truncates toward zero. */
  function TruncDiv(a: int, b: int): (q: int)
    requires b > 0
    ensures a >= 0 ==> q * b <= a < (q + 1) * b
    ensures a < 0 ==> q == -((-a) / b)
  {
    if a >= 0 then a / b else -((-a) / b)
  }

  /** `update_progress`: the frame and the total are always stored; the bar
      moves to the truncated percentage only when the total is positive. */
  function UpdateProgress(m: Monitor, current: int, total: int): (r: Monitor)
    ensures r.currentFrame == current && r.totalFrames == total
    ensures total <= 0 ==> r.bar == m.bar
    ensures total > 0 && current >= 0 ==> r.bar * total <= current * 100 < (r.bar + 1) * total
  {
    var bar := if total > 0 then TruncDiv(current * 100, total) else m.bar;
    Monitor(current, total, bar)
  }

  /** `handle_render_completed`: the bar is filled. */
  function HandleRenderCompleted(m: Monitor): (r: Monitor)
    ensures r.bar == 100 && r.currentFrame == m.currentFrame && r.totalFrames == m.totalFrames
  {
    m.(bar := 100)
  }

  /** The state after the handlers of `events` have run, in order. The time
      notifications only change labels. */
  function ApplyEvents(m: Monitor, events: seq<Event>): Monitor
    decreases |events|
  {
    if |events| == 0 then m
    else
      var next := match events[0]
        case FrameUpdated(current, total) => UpdateProgress(m, current, total)
        case RenderCompleted => HandleRenderCompleted(m)
        case _ => m;
      ApplyEvents(next, events[1..])
  }

  /** One output line handled: parse, then run the handlers. The total is
      never changed; with a known total a status line moves the panel to its
      frame, without one the frame stays; a completion marker fills the bar. */
  function HandleLine(m: Monitor, line: string): (r: Monitor)
    ensures r.totalFrames == m.totalFrames
    ensures FrameNumber(line).Some? && m.totalFrames > 0 ==> r.currentFrame == FrameNumber(line).value
    ensures m.totalFrames <= 0 ==> r.currentFrame == m.currentFrame
    ensures CompletionLine(line) ==> r.bar == 100
  {
    HandleLineKeepsTotal(m, line);
    assert FrameNumber(line).Some? && m.totalFrames > 0 ==>
             ApplyEvents(m, ParseBlenderOutput(m, line)).currentFrame == FrameNumber(line).value by {
      if FrameNumber(line).Some? && m.totalFrames > 0 {
        HandleFrameLine(m, line);
      }
    }
    assert m.totalFrames <= 0 ==>
             ApplyEvents(m, ParseBlenderOutput(m, line)).currentFrame == m.currentFrame by {
      if m.totalFrames <= 0 {
        NoFrameUpdateWithoutTotal(m, line);
      }
    }
    assert CompletionLine(line) ==> ApplyEvents(m, ParseBlenderOutput(m, line)).bar == 100 by {
      if CompletionLine(line) {
        CompletionFillsBar(m, line);
      }
    }
    ApplyEvents(m, ParseBlenderOutput(m, line))
  }

  /** `reset`: frame, total and bar back to zero. */
  function Reset(m: Monitor): (r: Monitor)
    ensures r.currentFrame == 0 && r.totalFrames == 0 && r.bar == 0
  {
    Monitor(0, 0, 0)
  }

  /** `set_total_frames`: the inclusive frame count when the range is not
      reversed; a reversed range leaves the total as it was. */
  function SetTotalFrames(m: Monitor, start: int, end: int): (r: Monitor)
    ensures end >= start ==> r.totalFrames == end - start + 1 && r.totalFrames >= 1
    ensures end < start ==> r.totalFrames == m.totalFrames
    ensures r.currentFrame == m.currentFrame && r.bar == m.bar
  {
    if end >= start then m.(totalFrames := end - start + 1) else m
  }

  // ---------------------------------------------------------------------
  // Properties
  // ---------------------------------------------------------------------

  /** Once a non-reversed range is set, a status line for frame `n` updates
      the panel to frame `n` of that total. */
  lemma FrameLineAfterSetTotal(m: Monitor, start: int, end: int, n: nat, rest: string)
    requires end >= start && (|rest| == 0 || !IsDigit(rest[0]))
    ensures var s := SetTotalFrames(m, start, end);
            FrameUpdated(n, end - start + 1) in ParseBlenderOutput(s, "Fra:" + NatToString(n) + rest)
  {
    var s := SetTotalFrames(m, start, end);
    var line := "Fra:" + NatToString(n) + rest;
    FrameNumberOfStatusLine(n, rest);
    ParseRules(s, line, n, end - start + 1, "");
  }

  /** With no known total, as after `reset`, frame lines never move the bar
      or change the stored frame. */
  lemma NoFrameUpdateWithoutTotal(m: Monitor, line: string)
    requires m.totalFrames <= 0
    ensures forall k :: 0 <= k < |ParseBlenderOutput(m, line)| ==>
              !ParseBlenderOutput(m, line)[k].FrameUpdated?
    ensures ApplyEvents(m, ParseBlenderOutput(m, line)).currentFrame == m.currentFrame
    ensures ApplyEvents(m, ParseBlenderOutput(m, line)).totalFrames == m.totalFrames
  {
    var r := ParseBlenderOutput(m, line);
    NoFramesInParts(FramePart(m, line), ElapsedPart(line), RemainingPart(line), CompletionPart(line));
    ApplyWithoutFrames(m, r);
  }

  /** Once the total is known, a line with a frame number moves the panel to
      that frame; the time and completion rules that may fire on the same line
      keep it there. */
  lemma HandleFrameLine(m: Monitor, line: string)
    requires FrameNumber(line).Some? && m.totalFrames > 0
    ensures ApplyEvents(m, ParseBlenderOutput(m, line)).currentFrame == FrameNumber(line).value
    ensures ApplyEvents(m, ParseBlenderOutput(m, line)).totalFrames == m.totalFrames
  {
    var r := ParseBlenderOutput(m, line);
    var a := FramePart(m, line);
    NoFramesInParts(a, ElapsedPart(line), RemainingPart(line), CompletionPart(line));
    assert r[0] == a[0];
    var next := UpdateProgress(m, FrameNumber(line).value, m.totalFrames);
    assert ApplyEvents(m, r) == ApplyEvents(next, r[1..]);
    ApplyWithoutFrames(next, r[1..]);
  }

  /** No line changes the stored total: a frame update carries the total the
      panel already has. */
  lemma HandleLineKeepsTotal(m: Monitor, line: string)
    ensures ApplyEvents(m, ParseBlenderOutput(m, line)).totalFrames == m.totalFrames
  {
    if FrameNumber(line).Some? && m.totalFrames > 0 {
      HandleFrameLine(m, line);
    } else if m.totalFrames <= 0 {
      NoFrameUpdateWithoutTotal(m, line);
    } else {
      NoFramesInParts(FramePart(m, line), ElapsedPart(line), RemainingPart(line), CompletionPart(line));
      ApplyWithoutFrames(m, ParseBlenderOutput(m, line));
    }
  }

  /** Only the first part can hold a frame update. */
  lemma NoFramesInParts(a: seq<Event>, b: seq<Event>, c: seq<Event>, d: seq<Event>)
    requires |a| <= 1 && |b| <= 1 && |c| <= 1 && |d| <= 1
    requires |b| == 1 ==> !b[0].FrameUpdated?
    requires |c| == 1 ==> !c[0].FrameUpdated?
    requires |d| == 1 ==> !d[0].FrameUpdated?
    ensures forall k :: |a| <= k < |a + b + c + d| ==> !(a + b + c + d)[k].FrameUpdated?
    ensures forall k :: 0 <= k < |(a + b + c + d)[|a|..]| ==> !(a + b + c + d)[|a|..][k].FrameUpdated?
  {
    assert (a + b + c + d)[|a|..] == b + c + d;
  }

  /** Handlers other than the frame handler keep the frame and the total. */
  lemma {:induction false} ApplyWithoutFrames(m: Monitor, events: seq<Event>)
    requires forall k :: 0 <= k < |events| ==> !events[k].FrameUpdated?
    ensures ApplyEvents(m, events).currentFrame == m.currentFrame
    ensures ApplyEvents(m, events).totalFrames == m.totalFrames
    decreases |events|
  {
    if |events| > 0 {
      var next := if events[0].RenderCompleted? then HandleRenderCompleted(m) else m;
      ApplyWithoutFrames(next, events[1..]);
    }
  }

  /** Within the range the bar stays within 0..100 and reads 100 on the last
      frame (exact arithmetic). */
  lemma UpdateProgressBounds(m: Monitor, current: int, total: int)
    requires 0 <= current <= total && total > 0
    ensures 0 <= UpdateProgress(m, current, total).bar <= 100
    ensures current == total ==> UpdateProgress(m, current, total).bar == 100
  {
    var bar := UpdateProgress(m, current, total).bar;
    assert bar == (current * 100) / total;
    DivBelow(current * 100, total, 100);
    if current == total {
      assert current * 100 == 100 * total;
    }
  }

  /** `a / b` stays within `0..c` when `0 <= a <= c * b`, and is `c` when
      `a == c * b`. */
  lemma DivBelow(a: int, b: int, c: nat)
    requires b > 0 && 0 <= a <= c * b
    ensures 0 <= a / b <= c
    ensures a == c * b ==> a / b == c
  {
    var q := a / b;
    assert q * b <= a;
    assert (q - c) * b == q * b - c * b;
    SignOfProduct(q - c, b);
    if a == c * b {
      assert (q - c) * b + a % b == 0;
      SignOfProduct(c - q, b);
    }
  }

  lemma SignOfProduct(x: int, b: int)
    requires b > 0
    ensures x * b <= 0 ==> x <= 0
    ensures x > 0 ==> x * b >= b
  {
  }

  /** The completion marker fills the bar, whatever else the line says. */
  lemma CompletionFillsBar(m: Monitor, line: string)
    requires CompletionLine(line)
    ensures ApplyEvents(m, ParseBlenderOutput(m, line)).bar == 100
  {
    CompletionComesLast(m, line);
    ApplyLastCompletion(m, ParseBlenderOutput(m, line));
  }

  lemma {:induction false} ApplyLastCompletion(m: Monitor, events: seq<Event>)
    requires |events| > 0 && events[|events| - 1].RenderCompleted?
    ensures ApplyEvents(m, events).bar == 100
    decreases |events|
  {
    if |events| > 1 {
      var next := match events[0]
        case FrameUpdated(current, total) => UpdateProgress(m, current, total)
        case RenderCompleted => HandleRenderCompleted(m)
        case _ => m;
      assert events[1..][|events[1..]| - 1] == events[|events| - 1];
      ApplyLastCompletion(next, events[1..]);
    }
  }
}

=== FILE: stable_sort.dfy ===
/** Python's `list.sort(key=lambda x: x[0])` on a list of pairs whose first
    component is the key: a stable sort. The result is ordered by key, is a
    permutation of the input, and keeps, for every key, the elements carrying
    it in their input order; these three facts determine the result. */
module StableSort {

  predicate Sorted<T>(s: seq<(int, T)>) {
    forall i, j :: 0 <= i < j < |s| ==> s[i].0 <= s[j].0
  }

  /** The elements of `s` whose key is `k`, in their order in `s`. */
  function WithKey<T>(s: seq<(int, T)>, k: int): (r: seq<(int, T)>)
    ensures |r| <= |s|
    ensures forall i :: 0 <= i < |r| ==> r[i].0 == k
    decreases |s|
  {
    if |s| == 0 then []
    else if s[0].0 == k then [s[0]] + WithKey(s[1..], k)
    else WithKey(s[1..], k)
  }

  /** Places `x` in front of the first element whose key is not smaller, that
      is, before the elements that share its key. */
  function Insert<T>(x: (int, T), s: seq<(int, T)>): (r: seq<(int, T)>)
    requires Sorted(s)
    ensures Sorted(r)
    ensures |r| == |s| + 1 && (r[0] == x || (|s| > 0 && r[0] == s[0]))
    ensures multiset(r) == multiset(s) + multiset{x}
    ensures forall k :: WithKey(r, k) == WithKey([x] + s, k)
    decreases |s|
  {
    if |s| == 0 || x.0 <= s[0].0 then [x] + s
    else
      var rest := Insert(x, s[1..]);
      var r := [s[0]] + rest;
      assert s == [s[0]] + s[1..];
      ConsSorted(s[0], rest);
      InsertFilters(x, s, rest);
      r
  }

  /** A head no larger than the first element keeps a sorted sequence sorted. */
  lemma ConsSorted<T>(h: (int, T), rest: seq<(int, T)>)
    requires Sorted(rest) && (|rest| == 0 || h.0 <= rest[0].0)
    ensures Sorted([h] + rest)
  {
  }

  /** Inserting behind the head leaves each key's filter as inserting in front
      of it would. */
  lemma InsertFilters<T>(x: (int, T), s: seq<(int, T)>, rest: seq<(int, T)>)
    requires |s| > 0 && x.0 != s[0].0
    requires forall k :: WithKey(rest, k) == WithKey([x] + s[1..], k)
    ensures forall k :: WithKey([s[0]] + rest, k) == WithKey([x] + s, k)
  {
    forall k ensures WithKey([s[0]] + rest, k) == WithKey([x] + s, k) {
      WithKeyCons(s[0], rest, k);
      WithKeyCons(x, s[1..], k);
      WithKeyCons(x, s, k);
      WithKeyCons(s[0], s[1..], k);
      assert s == [s[0]] + s[1..];
    }
  }

  /** The stable sort: each element is inserted, from the back, in front of the
      later elements with the same key. */
  function SortByKey<T>(s: seq<(int, T)>): (r: seq<(int, T)>)
    ensures Sorted(r)
    ensures multiset(r) == multiset(s)
    ensures forall k :: WithKey(r, k) == WithKey(s, k)
    decreases |s|
  {
    if |s| == 0 then []
    else
      var rest := SortByKey(s[1..]);
      var r := Insert(s[0], rest);
      assert s == [s[0]] + s[1..];
      assert forall k :: WithKey(r, k) == WithKey(s, k) by {
        forall k ensures WithKey(r, k) == WithKey(s, k) {
          WithKeyCons(s[0], rest, k);
          WithKeyCons(s[0], s[1..], k);
        }
      }
      r
  }

  /** The filter of a sequence with a given head. */
  lemma WithKeyCons<T>(x: (int, T), t: seq<(int, T)>, k: int)
    ensures WithKey([x] + t, k) == (if x.0 == k then [x] else []) + WithKey(t, k)
  {
    assert ([x] + t)[1..] == t;
  }

  /** Two sorted sequences that agree on every key's elements are equal: the
      contract of `SortByKey` determines the stable sort completely. */
  lemma {:induction false} SortedWithKeysUnique<T>(a: seq<(int, T)>, b: seq<(int, T)>)
    requires Sorted(a) && Sorted(b)
    requires forall k :: WithKey(a, k) == WithKey(b, k)
    ensures a == b
    decreases |a| + |b|
  {
    // A non-empty sequence has a non-empty filter, so both are empty or neither is.
    WithKeyOfHead(a);
    WithKeyOfHead(b);
    if |a| > 0 && |b| > 0 {
      // Both heads carry the smallest key present.
      var ka, kb := a[0].0, b[0].0;
      MinKeyOfSorted(a, kb);
      MinKeyOfSorted(b, ka);
      assert ka == kb;
      assert a[0] == WithKey(a, ka)[0] == WithKey(b, ka)[0] == b[0];
      forall k ensures WithKey(a[1..], k) == WithKey(b[1..], k) {
        assert a == [a[0]] + a[1..];
        assert b == [b[0]] + b[1..];
        if k == ka {
          var fa, fb := WithKey(a[1..], k), WithKey(b[1..], k);
          assert WithKey(a, k) == [a[0]] + fa;
          assert WithKey(b, k) == [b[0]] + fb;
          assert ([a[0]] + fa)[1..] == fa;
          assert ([b[0]] + fb)[1..] == fb;
        } else {
          assert WithKey(a, k) == WithKey(a[1..], k);
          assert WithKey(b, k) == WithKey(b[1..], k);
        }
      }
      SortedWithKeysUnique(a[1..], b[1..]);
      assert a == [a[0]] + a[1..];
      assert b == [b[0]] + b[1..];
    }
  }

  lemma WithKeyOfHead<T>(s: seq<(int, T)>)
    ensures |s| > 0 ==> |WithKey(s, s[0].0)| > 0
  {
  }

  /** Sorting an already sorted sequence changes nothing. */
  lemma SortByKeyOfSorted<T>(s: seq<(int, T)>)
    requires Sorted(s)
    ensures SortByKey(s) == s
  {
    SortedWithKeysUnique(SortByKey(s), s);
  }

  /** A three-element example: the middle element has the largest key and
      moves to the end; the others keep their places. */
  lemma SortThreeMiddleLargest<T>(x: (int, T), y: (int, T), z: (int, T))
    requires x.0 <= z.0 < y.0
    ensures SortByKey([x, y, z]) == [x, z, y]
  {
    SwapKeepsFilters(x, y, z);
    SortedThree(x, z, y);
    SortedWithKeysUnique(SortByKey([x, y, z]), [x, z, y]);
  }

  /** Swapping two neighbours with different keys changes no key's filter. */
  lemma SwapKeepsFilters<T>(x: (int, T), y: (int, T), z: (int, T))
    requires y.0 != z.0
    ensures forall k :: WithKey([x, y, z], k) == WithKey([x, z, y], k)
  {
    forall k ensures WithKey([x, y, z], k) == WithKey([x, z, y], k) {
      WithKeyOfThree(x, y, z, k);
      WithKeyOfThree(x, z, y, k);
      var fa := if x.0 == k then [x] else [];
      if y.0 == k {
        assert WithKey([x, y, z], k) == fa + [y] + [] && WithKey([x, z, y], k) == fa + [] + [y];
      } else {
        var fc := if z.0 == k then [z] else [];
        assert WithKey([x, y, z], k) == fa + [] + fc && WithKey([x, z, y], k) == fa + fc + [];
      }
    }
  }

  lemma SortedThree<T>(a: (int, T), b: (int, T), c: (int, T))
    requires a.0 <= b.0 <= c.0
    ensures Sorted([a, b, c])
  {
    var s := [a, b, c];
    assert s[0] == a && s[1] == b && s[2] == c;
  }

  /** The filter of a three-element sequence, element by element. */
  lemma WithKeyOfThree<T>(a: (int, T), b: (int, T), c: (int, T), k: int)
    ensures WithKey([a, b, c], k) ==
              (if a.0 == k then [a] else []) + (if b.0 == k then [b] else []) + (if c.0 == k then [c] else [])
  {
    assert [a, b, c][1..] == [b, c] && [b, c][1..] == [c] && [c][1..] == [];
    var fc := if c.0 == k then [c] else [];
    var fb := if b.0 == k then [b] else [];
    var fa := if a.0 == k then [a] else [];
    assert WithKey([c], k) == fc + WithKey([], k) == fc;
    assert WithKey([b, c], k) == fb + fc;
    assert WithKey([a, b, c], k) == fa + (fb + fc);
  }

  /** The head of a sorted sequence has the least key of all its elements. */
  lemma HeadHasLeastKey<T>(s: seq<(int, T)>, x: (int, T))
    requires Sorted(s) && x in multiset(s)
    ensures |s| > 0 && s[0].0 <= x.0
  {
    var j :| 0 <= j < |s| && s[j] == x;
  }

  /** In a sorted sequence, a key whose filter is non-empty is at least the
      head's key. */
  lemma {:induction false} MinKeyOfSorted<T>(s: seq<(int, T)>, k: int)
    requires Sorted(s) && |s| > 0 && |WithKey(s, k)| > 0
    ensures s[0].0 <= k
  {
    var i := FilterSource(s, k);
  }

  /** Some element of `s` carries key `k` when its filter is non-empty. */
  lemma {:induction false} FilterSource<T>(s: seq<(int, T)>, k: int) returns (i: nat)
    requires |WithKey(s, k)| > 0
    ensures i < |s| && s[i].0 == k
    decreases |s|
  {
    if s[0].0 == k {
      i := 0;
    } else {
      var j := FilterSource(s[1..], k);
      i := j + 1;
    }
  }

  /** Two elements of key `k`, in this order in `s`, keep that order in the
      filter for `k`. */
  lemma {:induction false} FilterKeepsPair<T>(s: seq<(int, T)>, k: int, i: nat, j: nat) returns (a: nat, b: nat)
    requires i < j < |s| && s[i].0 == k && s[j].0 == k
    ensures a < b < |WithKey(s, k)| && WithKey(s, k)[a] == s[i] && WithKey(s, k)[b] == s[j]
    decreases |s|
  {
    if i == 0 {
      var j' := FilterHas(s[1..], k, j - 1);
      a, b := 0, j' + 1;
    } else {
      var a', b' := FilterKeepsPair(s[1..], k, i - 1, j - 1);
      if s[0].0 == k {
        a, b := a' + 1, b' + 1;
      } else {
        a, b := a', b';
      }
    }
  }

  /** An element of key `k` appears in the filter for `k`. */
  lemma {:induction false} FilterHas<T>(s: seq<(int, T)>, k: int, i: nat) returns (a: nat)
    requires i < |s| && s[i].0 == k
    ensures a < |WithKey(s, k)| && WithKey(s, k)[a] == s[i]
    decreases |s|
  {
    if i == 0 {
      a := 0;
    } else {
      var a' := FilterHas(s[1..], k, i - 1);
      a := if s[0].0 == k then a' + 1 else a';
    }
  }

  /** Two elements of a filter come, in the same order, from two positions
      of the filtered sequence. */
  lemma {:induction false} FilterPairSource<T>(s: seq<(int, T)>, k: int, a: nat, b: nat) returns (i: nat, j: nat)
    requires a < b < |WithKey(s, k)|
    ensures i < j < |s| && s[i] == WithKey(s, k)[a] && s[j] == WithKey(s, k)[b]
    decreases |s|
  {
    if s[0].0 == k {
      assert WithKey(s, k) == [s[0]] + WithKey(s[1..], k);
      if a == 0 {
        var j' := FilterElementSource(s[1..], k, b - 1);
        i, j := 0, j' + 1;
      } else {
        var i', j' := FilterPairSource(s[1..], k, a - 1, b - 1);
        i, j := i' + 1, j' + 1;
      }
    } else {
      var i', j' := FilterPairSource(s[1..], k, a, b);
      i, j := i' + 1, j' + 1;
    }
  }

  /** Every element of a filter comes from a position of the filtered
      sequence. */
  lemma {:induction false} FilterElementSource<T>(s: seq<(int, T)>, k: int, a: nat) returns (i: nat)
    requires a < |WithKey(s, k)|
    ensures i < |s| && s[i] == WithKey(s, k)[a]
    decreases |s|
  {
    if s[0].0 == k {
      assert WithKey(s, k) == [s[0]] + WithKey(s[1..], k);
      if a == 0 {
        i := 0;
      } else {
        var i' := FilterElementSource(s[1..], k, a - 1);
        i := i' + 1;
      }
    } else {
      var i' := FilterElementSource(s[1..], k, a);
      i := i' + 1;
    }
  }
}

=== FILE: text.dfy ===
/** String helpers shared by the whole model: substring search, Python's
    `str.join` / `str.split(" ")`, decimal rendering of integers (`str(n)`),
    double quoting, and Python's whitespace stripping. */
module Text {

  /** `pat in s` for Python strings. */
  predicate Contains(s: string, pat: string) {
    exists i :: 0 <= i <= |s| && pat <= s[i..]
  }

  lemma ContainsPrefix(s: string, pat: string)
    requires pat <= s
    ensures Contains(s, pat)
  {
    assert s[0..] == s;
  }

  lemma ContainsConcat(a: string, b: string, pat: string)
    requires Contains(b, pat)
    ensures Contains(a + b, pat)
  {
    var i :| 0 <= i <= |b| && pat <= b[i..];
    assert (a + b)[|a| + i..] == b[i..];
  }

  /** The double quotes the command builder puts around paths and values. */
  function Quote(s: string): (r: string)
    ensures |r| == |s| + 2 && r[0] == '"' && r[|r| - 1] == '"'
    ensures r[1..|r| - 1] == s
  {
    "\"" + s + "\""
  }

  /** `sep.join(parts)`. */
  function Join(parts: seq<string>, sep: string): string
  {
    if |parts| == 0 then ""
    else if |parts| == 1 then parts[0]
    else parts[0] + sep + Join(parts[1..], sep)
  }

  /** `s.split(c)` for a one-character separator: every occurrence of `c` cuts,
      so the result always has one more piece than `s` has occurrences of `c`. */
  function Split(s: string, c: char): (r: seq<string>)
    ensures |r| >= 1
    ensures forall k :: 0 <= k < |r| ==> c !in r[k]
    decreases |s|
  {
    if |s| == 0 then [""]
    else if s[0] == c then [""] + Split(s[1..], c)
    else
      var rest := Split(s[1..], c);
      [[s[0]] + rest[0]] + rest[1..]
  }

  lemma SplitNoSeparator(p: string, c: char)
    requires c !in p
    ensures Split(p, c) == [p]
    decreases |p|
  {
    if |p| > 0 {
      SplitNoSeparator(p[1..], c);
      assert [p[0]] + p[1..] == p;
    }
  }

  lemma {:induction false} SplitPiece(p: string, c: char, rest: string)
    requires c !in p
    ensures Split(p + [c] + rest, c) == [p] + Split(rest, c)
    decreases |p|
  {
    if |p| == 0 {
      assert p + [c] + rest == [c] + rest;
      assert ([c] + rest)[1..] == rest;
    } else {
      var s := p + [c] + rest;
      assert s[0] == p[0] && s[0] != c;
      assert s[1..] == p[1..] + [c] + rest;
      SplitPiece(p[1..], c, rest);
      assert [p[0]] + p[1..] == p;
    }
  }

  /** Splitting a space-joined token list on the separator gives the tokens
      back, provided no token contains the separator. */
  lemma {:induction false} SplitJoin(parts: seq<string>, c: char)
    requires |parts| >= 1
    requires forall k :: 0 <= k < |parts| ==> c !in parts[k]
    ensures Split(Join(parts, [c]), c) == parts
    decreases |parts|
  {
    if |parts| == 1 {
      SplitNoSeparator(parts[0], c);
    } else {
      SplitJoin(parts[1..], c);
      SplitPiece(parts[0], c, Join(parts[1..], [c]));
      assert [parts[0]] + parts[1..] == parts;
    }
  }

  /** Joining the pieces of a split restores the original string. */
  lemma {:induction false} JoinSplit(s: string, c: char)
    ensures Join(Split(s, c), [c]) == s
    decreases |s|
  {
    if |s| > 0 {
      JoinSplit(s[1..], c);
      var rest := Split(s[1..], c);
      if s[0] == c {
        assert Split(s, c) == [""] + rest;
        assert [s[0]] + s[1..] == s;
      } else {
        var r := [[s[0]] + rest[0]] + rest[1..];
        assert Split(s, c) == r;
        if |rest| == 1 {
          assert Join(r, [c]) == [s[0]] + rest[0];
        } else {
          assert r[1..] == rest[1..];
          assert Join(rest, [c]) == rest[0] + [c] + Join(rest[1..], [c]);
        }
        assert [s[0]] + s[1..] == s;
      }
    }
  }

  // ---------------------------------------------------------------------
  // Decimal digits and numerals
  // ---------------------------------------------------------------------

  /** An ASCII decimal digit (`\d` restricted to ASCII). */
  predicate IsDigit(c: char) {
    '0' <= c <= '9'
  }

  predicate AllDigits(s: string) {
    forall k :: 0 <= k < |s| ==> IsDigit(s[k])
  }

  function DigitValue(c: char): (d: nat)
    requires IsDigit(c)
    ensures d < 10
  {
    c as int - '0' as int
  }

  function DigitChar(d: nat): (c: char)
    requires d < 10
    ensures IsDigit(c) && DigitValue(c) == d
  {
    ('0' as int + d) as char
  }

  /** The value of a decimal numeral; leading zeros are allowed, as in `int("007")`. */
  function DigitsValue(s: string): nat
    requires AllDigits(s)
    decreases |s|
  {
    if |s| == 0 then 0
    else DigitsValue(s[..|s| - 1]) * 10 + DigitValue(s[|s| - 1])
  }

  /** `str(n)` for a non-negative integer: a non-empty digit string without
      leading zeros whose value is `n`. */
  function NatToString(n: nat): (r: string)
    ensures |r| >= 1 && AllDigits(r)
    ensures DigitsValue(r) == n
    ensures r[0] != '0' || n == 0
    decreases n
  {
    if n < 10 then [DigitChar(n)]
    else
      var r := NatToString(n / 10) + [DigitChar(n % 10)];
      assert r[..|r| - 1] == NatToString(n / 10);
      r
  }

  /** `str(n)` for any integer: a minus sign in front of negative values. */
  function IntToString(n: int): (r: string)
    ensures |r| >= 1
    ensures n >= 0 ==> r == NatToString(n)
    ensures n < 0 ==> r == "-" + NatToString(-n)
  {
    if n < 0 then "-" + NatToString(-n) else NatToString(n)
  }

  // ---------------------------------------------------------------------
  // Python whitespace and stripping
  // ---------------------------------------------------------------------

  /** Python's `str.isspace` for one character: the ASCII controls 0x09-0x0D and
      0x1C-0x1F, the space, and the Unicode separators Python treats as space. */
  predicate IsSpace(c: char) {
    var n := c as int;
    || (0x09 <= n <= 0x0D) || (0x1C <= n <= 0x20)
    || n == 0x85 || n == 0xA0 || n == 0x1680
    || (0x2000 <= n <= 0x200A) || n == 0x2028 || n == 0x2029
    || n == 0x202F || n == 0x205F || n == 0x3000
  }

  /** `s.rstrip()`: the longest prefix of `s` that does not end in whitespace. */
  function RStrip(s: string): (r: string)
    ensures r <= s
    ensures |r| == 0 || !IsSpace(r[|r| - 1])
    ensures forall k :: |r| <= k < |s| ==> IsSpace(s[k])
    decreases |s|
  {
    if |s| > 0 && IsSpace(s[|s| - 1]) then RStrip(s[..|s| - 1]) else s
  }

  /** `s.lstrip()`: the longest suffix of `s` that does not start with whitespace. */
  function LStrip(s: string): (r: string)
    ensures |r| <= |s| && r == s[|s| - |r|..]
    ensures |r| == 0 || !IsSpace(r[0])
    ensures forall k :: 0 <= k < |s| - |r| ==> IsSpace(s[k])
    decreases |s|
  {
    if |s| > 0 && IsSpace(s[0]) then LStrip(s[1..]) else s
  }

  /** `s.strip()`. */
  function Strip(s: string): string {
    RStrip(LStrip(s))
  }

  /** A string that neither starts nor ends with whitespace is its own strip. */
  lemma StripNoSpace(s: string)
    requires |s| > 0 && !IsSpace(s[0]) && !IsSpace(s[|s| - 1])
    ensures Strip(s) == s
  {
  }
}

=== FILE: update_checker.dfy ===
/** The update check: the version numbers are read from the leftmost
    `digits.digits.digits` in a string, and an update is offered exactly when
    the latest release's numbers are greater, compared component by
    component. The HTTP request is an input: it fails, returns something that
    is not JSON, or returns the release's fields. */
module UpdateChecker {
  import opened Wrappers
  import opened Text
  import opened Patterns

  type Version = (nat, nat, nat)

  /** The application's own version. */
  const CurrentVersion := "0.2.1"

  /** `parse_version`: the three numbers of the leftmost match, or (0, 0, 0)
      when there is none; a string with fewer than two dots never matches. */
  function ParseVersion(s: string): (r: Version)
    ensures (forall p, q :: 0 <= p < q < |s| ==> !(s[p] == '.' && s[q] == '.')) ==> r == (0, 0, 0)
  {
    match Search(s, DottedTriple)
    case Some(i) =>
      assert exists p, q :: 0 <= p < q < |s| && s[p] == '.' && s[q] == '.' by {
        var p, q := TwoDots(s, i);
      }
      var g := TripleAt(s, i).value;
      (DigitsValue(g.0), DigitsValue(g.1), DigitsValue(g.2))
    case None => (0, 0, 0)
  }

  /** The release tag's form of a version. */
  function FormatVersion(v: Version): string {
    NatToString(v.0) + "." + NatToString(v.1) + "." + NatToString(v.2)
  }

  /** Python's tuple `>` on two version triples: the first component in which
      they differ decides. */
  predicate Greater(a: Version, b: Version)
    ensures Greater(a, b) <==>
              a != b && if a.0 != b.0 then a.0 > b.0 else if a.1 != b.1 then a.1 > b.1 else a.2 > b.2
  {
    || a.0 > b.0
    || (a.0 == b.0 && a.1 > b.1)
    || (a.0 == b.0 && a.1 == b.1 && a.2 > b.2)
  }

  /** `tag.lstrip('v')`: every leading `v` removed. */
  function LStripV(tag: string): (r: string)
    ensures |r| <= |tag| && r == tag[|tag| - |r|..]
    ensures |r| == 0 || r[0] != 'v'
    ensures forall k :: 0 <= k < |tag| - |r| ==> tag[k] == 'v'
    decreases |tag|
  {
    if |tag| > 0 && tag[0] == 'v' then LStripV(tag[1..]) else tag
  }

  /** What the request to the release API gave back. */
  datatype Reply =
    | RequestFailed                   // `requests.RequestException`
    | NotJson                         // `response.json()` raised `ValueError`
    | Release(fields: map<string, string>)

  /** `check_for_updates`: the flag, the latest version and the page, or
      (False, None, None) on any of the caught errors, a missing field
      included. */
  function CheckForUpdates(current: string, reply: Reply): (r: (bool, Option<string>, Option<string>))
    ensures !reply.Release? ==> r == (false, None, None)
    ensures reply.Release? && !("tag_name" in reply.fields && "html_url" in reply.fields) ==>
              r == (false, None, None)
    ensures reply.Release? && "tag_name" in reply.fields && "html_url" in reply.fields ==>
              && r.1 == Some(LStripV(reply.fields["tag_name"]))
              && r.2 == Some(reply.fields["html_url"])
              && (r.0 <==> Greater(ParseVersion(LStripV(reply.fields["tag_name"])), ParseVersion(current)))
  {
    match reply
    case Release(fields) =>
      if "tag_name" in fields && "html_url" in fields then
        var latest := LStripV(fields["tag_name"]);
        (Greater(ParseVersion(latest), ParseVersion(current)), Some(latest), Some(fields["html_url"]))
      else (false, None, None)
    case _ => (false, None, None)
  }

  // ---------------------------------------------------------------------
  // Properties
  // ---------------------------------------------------------------------

  /** Reading back a formatted version gives the version, whatever follows a
      non-digit: extra components such as `.4` are ignored. */
  lemma ParseFormatVersion(v: Version, suffix: string)
    requires |suffix| == 0 || !IsDigit(suffix[0])
    ensures ParseVersion(FormatVersion(v) + suffix) == v
  {
    var a, b, c := NatToString(v.0), NatToString(v.1), NatToString(v.2);
    var s := FormatVersion(v) + suffix;
    assert s == a + "." + b + "." + c + suffix;
    TripleOfParts(a, b, c, suffix);
    assert MatchesAt(s, 0, DottedTriple);
  }

  /** `(\d+)\.(\d+)\.(\d+)` matched at the start of `a.b.c` followed by a
      non-digit captures `a`, `b` and `c`. */
  lemma TripleOfParts(a: string, b: string, c: string, suffix: string)
    requires |a| >= 1 && AllDigits(a) && |b| >= 1 && AllDigits(b) && |c| >= 1 && AllDigits(c)
    requires |suffix| == 0 || !IsDigit(suffix[0])
    ensures TripleAt(a + "." + b + "." + c + suffix, 0) == Some((a, b, c))
  {
    var r2 := c + suffix;
    var r1 := b + ("." + r2);
    TripleOfNested(a, b, c, suffix);
    calc {
      a + "." + b + "." + c + suffix;
      { Assoc(a + "." + b + ".", c, suffix); }
      a + "." + b + "." + r2;
      { Assoc(a + "." + b, ".", r2); }
      a + "." + b + ("." + r2);
      { Assoc(a + ".", b, "." + r2); }
      a + "." + r1;
      { Assoc(a, ".", r1); }
      a + ("." + r1);
    }
  }

  /** The same, with the string built from the right. */
  lemma TripleOfNested(a: string, b: string, c: string, suffix: string)
    requires |a| >= 1 && AllDigits(a) && |b| >= 1 && AllDigits(b) && |c| >= 1 && AllDigits(c)
    requires |suffix| == 0 || !IsDigit(suffix[0])
    ensures TripleAt(a + ("." + (b + ("." + (c + suffix)))), 0) == Some((a, b, c))
  {
    var s := a + ("." + (b + ("." + (c + suffix))));
    var j := |a| + 1;
    var k := j + |b| + 1;
    NestedLayout(s, a, b, c, suffix, j, k);
    TripleOfSlices(s, a, b, c, j, k);
  }

  /** The layout facts stated on the string alone, with the captured groups
      named. */
  lemma TripleOfSlices(s: string, a: string, b: string, c: string, j: nat, k: nat)
    requires j == |a| + 1 && k == j + |b| + 1 && k + |c| <= |s| && |a| >= 1 && |b| >= 1 && |c| >= 1
    requires s[0..|a|] == a && s[j..j + |b|] == b && s[k..k + |c|] == c
    requires s[|a|] == '.' && s[j + |b|] == '.'
    requires DigitsBetween(s, 0, |a|) && DigitsBetween(s, j, |b|) && DigitsBetween(s, k, |c|)
    requires k + |c| == |s| || !IsDigit(s[k + |c|])
    ensures TripleAt(s, 0) == Some((a, b, c))
  {
    TripleOfLayout(s, j, k, |a|, |b|, |c|);
  }

  /** Positions `i` to `i + n` of `s` are all digits. */
  predicate DigitsBetween(s: string, i: nat, n: nat)
    requires i + n <= |s|
  {
    forall p :: i <= p < i + n ==> IsDigit(s[p])
  }

  /** How `a.b.c` followed by a non-digit is laid out: `j` and `k` are where
      the second and third groups start. */
  lemma NestedLayout(s: string, a: string, b: string, c: string, suffix: string, j: nat, k: nat)
    requires s == a + ("." + (b + ("." + (c + suffix))))
    requires AllDigits(a) && AllDigits(b) && AllDigits(c)
    requires |suffix| == 0 || !IsDigit(suffix[0])
    requires j == |a| + 1 && k == j + |b| + 1
    ensures k + |c| <= |s|
    ensures s[0..|a|] == a && s[j..j + |b|] == b && s[k..k + |c|] == c
    ensures s[|a|] == '.' && s[j + |b|] == '.'
    ensures DigitsBetween(s, 0, |a|) && DigitsBetween(s, j, |b|) && DigitsBetween(s, k, |c|)
    ensures k + |c| == |s| || !IsDigit(s[k + |c|])
  {
    var r1 := b + ("." + (c + suffix));
    assert s[|a|] == '.';
    assert s[j..] == r1;
    assert s[j..][|b|] == '.';
    assert s[j..][|b| + 1..] == c + suffix;
    assert s[k..] == c + suffix;
    DigitsOfSlice(s, 0, a);
    DigitsOfSlice(s, j, b);
    DigitsOfSlice(s, k, c);
    if k + |c| < |s| {
      assert s[k + |c|] == s[k..][|c|] == suffix[0];
    }
  }

  lemma DigitsOfSlice(s: string, i: nat, x: string)
    requires i + |x| <= |s| && s[i..i + |x|] == x && AllDigits(x)
    ensures DigitsBetween(s, i, |x|)
  {
    assert forall p :: i <= p < i + |x| ==> s[p] == s[i..i + |x|][p - i];
  }

  /** The triple pattern at the start of a string laid out as three digit
      runs separated by dots, the last one not followed by a digit. */
  lemma TripleOfLayout(s: string, j: nat, k: nat, la: nat, lb: nat, lc: nat)
    requires j == la + 1 && k == j + lb + 1 && k + lc <= |s| && la >= 1 && lb >= 1 && lc >= 1
    requires DigitsBetween(s, 0, la) && s[la] == '.'
    requires DigitsBetween(s, j, lb) && s[j + lb] == '.'
    requires DigitsBetween(s, k, lc) && (k + lc == |s| || !IsDigit(s[k + lc]))
    ensures TripleAt(s, 0) == Some((s[0..la], s[j..j + lb], s[k..k + lc]))
  {
    RunAtStops(s, 0, la, Digits);
    RunAtStops(s, j, lb, Digits);
    RunAtStops(s, k, lc, Digits);
    TripleFromRuns(s, j, k, la, lb, lc);
  }

  /** The triple pattern captures the three runs it steps over. */
  lemma TripleFromRuns(s: string, j: nat, k: nat, la: nat, lb: nat, lc: nat)
    requires j == la + 1 && k == j + lb + 1 && k + lc <= |s| && la >= 1 && lb >= 1 && lc >= 1
    requires RunAt(s, 0, Digits) == la && s[la] == '.'
    requires RunAt(s, j, Digits) == lb && s[j + lb] == '.'
    requires RunAt(s, k, Digits) == lc
    ensures TripleAt(s, 0) == Some((s[0..la], s[j..j + lb], s[k..k + lc]))
  {
  }

  lemma Assoc(x: string, y: string, z: string)
    ensures x + y + z == x + (y + z)
  {
  }

  /** `0.2.1` reads as (0, 2, 1). */
  lemma CurrentVersionParses()
    ensures ParseVersion(CurrentVersion) == (0, 2, 1)
  {
    assert FormatVersion((0, 2, 1)) + "" == CurrentVersion;
    ParseFormatVersion((0, 2, 1), "");
  }

  /** Two numbers joined by one dot never match, so they read as (0, 0, 0);
      for example `10.20`. */
  lemma TwoComponentsParseAsZero(x: nat, y: nat)
    ensures ParseVersion(NatToString(x) + "." + NatToString(y)) == (0, 0, 0)
  {
    var a, b := NatToString(x), NatToString(y);
    var s := a + "." + b;
    assert forall p :: 0 <= p < |s| && p != |a| ==> IsDigit(s[p]);
    forall i | 0 <= i <= |s| ensures !MatchesAt(s, i, DottedTriple) {
      if TripleAt(s, i).Some? {
        var p, q := TwoDots(s, i);
      }
    }
  }

  /** `1.2.3.4` reads as (1, 2, 3): the fourth component is ignored. */
  lemma ExtraComponentIgnored()
    ensures ParseVersion("1.2.3.4") == (1, 2, 3)
  {
    assert NatToString(1) == "1" && NatToString(2) == "2" && NatToString(3) == "3";
    assert FormatVersion((1, 2, 3)) + ".4" == "1.2.3.4";
    ParseFormatVersion((1, 2, 3), ".4");
  }

  /** `10.20` reads as (0, 0, 0). */
  lemma TwoComponentExample()
    ensures ParseVersion("10.20") == (0, 0, 0)
  {
    assert NatToString(10) == NatToString(1) + [DigitChar(0)];
    assert NatToString(20) == NatToString(2) + [DigitChar(0)];
    assert NatToString(10) + "." + NatToString(20) == "10.20";
    TwoComponentsParseAsZero(10, 20);
  }

  /** A match of the triple pattern shows two dots. */
  lemma TwoDots(s: string, i: nat) returns (p: nat, q: nat)
    requires i <= |s| && TripleAt(s, i).Some?
    ensures p < q < |s| && s[p] == '.' && s[q] == '.'
  {
    var a := RunAt(s, i, Digits);
    p := i + a;
    var b := RunAt(s, p + 1, Digits);
    q := p + 1 + b;
  }

  /** Python's tuple comparison is a strict total order on versions. */
  lemma GreaterIsStrictTotalOrder(a: Version, b: Version, c: Version)
    ensures !Greater(a, a)
    ensures Greater(a, b) ==> !Greater(b, a)
    ensures Greater(a, b) && Greater(b, c) ==> Greater(a, c)
    ensures a != b ==> Greater(a, b) || Greater(b, a)
  {
  }

  /** A release tagged `v` plus a version is offered exactly when that
      version is newer than the running one, so the same version is not. */
  lemma TaggedReleaseOffered(v: Version, fields: map<string, string>)
    requires "tag_name" in fields && "html_url" in fields
    requires fields["tag_name"] == "v" + FormatVersion(v)
    ensures CheckForUpdates(CurrentVersion, Release(fields)) ==
              (Greater(v, (0, 2, 1)), Some(FormatVersion(v)), Some(fields["html_url"]))
  {
    StripTagPrefix(FormatVersion(v));
    CurrentVersionParses();
    ParseFormatVersion(v, "");
    assert FormatVersion(v) + "" == FormatVersion(v);
  }

  /** Stripping a tag `v` + a version leaves the version, whose first
      character is a digit. */
  lemma StripTagPrefix(version: string)
    requires |version| >= 1 && IsDigit(version[0])
    ensures LStripV("v" + version) == version
  {
    assert ("v" + version)[1..] == version;
  }
}

=== FILE: wrappers.dfy ===
/** Failure-compatible optional values, used wherever the source returns `None`
    or reports "no match". */
module Wrappers {

  datatype Option<+T> = None | Some(value: T) {

    /** The wrapped value, or `default` when there is none. */
    function GetOr(default: T): T {
      match this
      case Some(v) => v
      case None => default
    }
  }
}
